=== FILE: README.md ===
# rid-examples in Dafny

This project models the logic of the `rid` example apps. In each app a Rust store handles `update(req_id, msg)` and posts replies to a Dart/Flutter front end. Threads, locks and network calls are removed. Each store becomes a pure step function from a state and a message to the next state plus the replies it posts. For the reddit tickers, the step also returns the threads it would spawn.

The parts modelled:

- **Todo stores.**
  - The Dart example (`DartTodo`).
  - The Riverpod example (`RiverpodTodo`). It uses the Dart handler, four seeded todos and the `Display` impls.
  - The Cubit example (`CubitTodo`). Its todos carry an `expiry_millis` countdown, and one pass of the auto-expiry loop is a pure step.
  - The WebAssembly Cubit example (`CubitWasmTodo`). Auto-expiry is switched off, and replies go to a queue.
  - `TodoList` holds the list logic all four share: `remove_todo`, `update_todo`, `todo_by_id`, `retain`, and `filtered_todos`. Its `vec.sort()` uses the derived `PartialOrd`, which compares the id first.
- **WebAssembly reply queue** (`ReplyQueue`).
  - `Reply` is flattened into a `(ty, req_id, data)` record.
  - The queue supports `post`, `rid_poll_reply` and `rid_handled_reply`.
  - `ToReply` is a decoder that reads a record back. It exists to state that the encoding is a bijection.
- **Reddit ticker stores.**
  - `TickerStore` models the Rust ticker with its optional database.
  - `DartTicker` models the Dart-side ticker.
  - `TickerPrep` models the command-line prototype.
  - `Keyed` holds the shared pieces: building a map keyed by each item's id, partitioning results, and keeping the successful fetches.
- **Reddit requests.**
  - `RedditUrls`: URL normalisation.
    - Cut at the first `?`, the query delimiter of section 3.4 of RFC 3986.
    - Trim the trailing slashes and append `.json`.
    - Build the score URL.
  - `RedditFetch`: field extraction from the serde-shaped responses in `RedditTypes`.
  - `RedditMock`: the mock fetcher.

**Modelling conventions.**

- Rust panics (`expect`, `unwrap`, an out-of-range index, the wasm `panic!`) are an `Outcome` that is either `Returned(result)` or `Panicked(message)`. They are not preconditions.
- The database, HTTP fetches, the clock and the random draws are parameters.
- Unsigned counters are bounded subset types. A `u32` increment that would overflow is excluded by a precondition.

**Where the code departs from its intended design, the model follows the code:**

- `StopWatching` removes the post from the map only. The database keeps it.
- Every `Initialize` with a database open reloads the map from the database. Reloading is not limited to the first time.
- A `StartWatching` whose page fetch panics posts no reply at all.
- A missing page piece panics. It does not return an error. The query functions keep the source's panic messages.
- The Dart ticker has no poller guard: every `InitializeTicker` starts another poll loop.
- The poll loops unwrap a post that may have been removed since the ids were read, instead of skipping it. This is reported under Findings. Each poll cycle is modelled both as written and corrected.
- A fetch that panics inside a poll cycle or a watch thread ends that thread, with nothing written and no reply.
- A panic inside a poll cycle's write loop also ends the thread with no reply. By then the scores of the earlier ids are already pushed, and the lock is poisoned. The model does not carry that store (see "## Left out").
- `Score` is built with `secs_since_post_added` in wip/reddit_ticker/src/lib.rs. wip/reddit_ticker/src/reddit/mod.rs names the field `post_added_secs_ago`. The model uses the former.

## Model

| member | source | states |
|---|---|---|
| TodoList.IndexOf | flutter/todo_cubit/src/lib.rs:125-129 | the index found is the first todo with the id; none means no todo has it |
| TodoList.TodoById | flutter/todo_cubit/src/lib.rs:152-154 | returns a todo iff some todo has the id, and then it is the first such todo |
| TodoList.RemoveTodo | flutter/todo_cubit/src/lib.rs:124-131 | an unknown id leaves the list as it was; otherwise the list is one shorter |
| TodoList.RemoveTodoFirst | flutter/todo_cubit/src/lib.rs:124-131 | with the id present, exactly the first todo with it is cut out and the rest keep their order |
| TodoList.RemoveTodoExact | flutter/todo_cubit/src/lib.rs:124-131 | with distinct ids, what remains is exactly the todos with another id |
| TodoList.RemoveTodoDrops | flutter/todo_cubit/src/lib.rs:124-131 | with distinct ids, a remaining todo was there before and has another id |
| TodoList.RemoveTodoKeeps | flutter/todo_cubit/src/lib.rs:124-131 | every todo with another id survives removal |
| TodoList.RemoveTodoIsWithout | flutter/todo_cubit/src/lib.rs:124-131 | with distinct ids, removal equals dropping that one id from the list (the reference `WithoutIds`) |
| TodoList.UpdateTodo | flutter/todo_cubit/src/lib.rs:133-138 | changes only the first todo with the id; an unknown id changes nothing; the length is kept |
| TodoList.UpdateAll | flutter/todo_cubit/src/lib.rs:100-107 | applies the change to every todo, position by position |
| TodoList.Select | flutter/todo_cubit/src/lib.rs:143-145 | holds exactly the todos that match the filter |
| TodoList.SelectCounts | flutter/todo_cubit/src/lib.rs:82-85 | each matching todo is kept as often as it occurs and every other todo is dropped |
| TodoList.SelectAppend | flutter/todo_cubit/src/lib.rs:143-145 | selection keeps list order: selecting from a concatenation concatenates the selections |
| TodoList.InsertById | flutter/todo_cubit/src/lib.rs:147 | inserting adds exactly the new todo to the multiset of todos |
| TodoList.InsertSorted | flutter/todo_cubit/src/lib.rs:147 | inserting into a list sorted by id keeps it sorted by id |
| TodoList.InsertMember | flutter/todo_cubit/src/lib.rs:147 | inserting brings in no todo but the new one |
| TodoList.InsertKeepsIdsDistinct | flutter/todo_cubit/src/lib.rs:147 | inserting a todo with a fresh id keeps ids distinct |
| TodoList.SortById | flutter/todo_cubit/src/lib.rs:147 | the result is sorted by id and is a permutation of the input |
| TodoList.FilteredTodos | flutter/todo_cubit/src/lib.rs:141-149 | sorted by id, exactly the matching todos, each as often as in the store |
| TodoList.StrictlySortedUnique | flutter/todo_cubit/src/lib.rs:141-149 | two lists that are strictly sorted by id and hold the same todos are equal |
| TodoList.FilteredTodosUnique | flutter/todo_cubit/src/lib.rs:141-149 | with distinct ids, `filtered_todos` is the only id-ordered list of the selected todos |
| TodoList.SortKeepsIdsDistinct | flutter/todo_cubit/src/lib.rs:147 | sorting keeps ids distinct |
| TodoList.SelectKeepsIdsDistinct | flutter/todo_cubit/src/lib.rs:83 | a selection from a list with distinct ids has distinct ids |
| TodoList.AppendFreshKeepsValid | flutter/todo_cubit/src/lib.rs:66-76 | appending a todo with id `last_added_id + 1` keeps ids distinct and at most the new counter |
| TodoList.RemoveTodoKeepsValid | flutter/todo_cubit/src/lib.rs:124-131 | removal keeps the id invariant |
| TodoList.SelectKeepsValid | flutter/todo_cubit/src/lib.rs:82-85 | `retain` keeps the id invariant |
| TodoList.UpdateTodoKeepsIds | flutter/todo_cubit/src/lib.rs:133-138 | a change that keeps the id keeps every id in place, for one todo or for all |
| TodoList.WithoutIds | flutter/todo_cubit/src/lib.rs:192-194 | reference for the removals of the expiry loop: exactly the todos whose id is not in the set |
| TodoList.WithoutIdsKeepsDistinct | flutter/todo_cubit/src/lib.rs:192-194 | dropping ids keeps ids distinct |
| TodoList.WithoutIdsTwice | flutter/todo_cubit/src/lib.rs:192-199 | dropping one set of ids and then another is dropping their union |
| TodoList.RemoveEach | flutter/todo_cubit/src/lib.rs:192-194 | at most one todo goes per id, and ids that no todo has change nothing |
| TodoList.RemoveEachIsWithout | flutter/todo_cubit/src/lib.rs:192-199 | with distinct ids, calling `remove_todo` once per id drops exactly those ids, in any order |
| Decimal.NatToString | dart/todo/src/app.rs:39 | `to_string()` of an unsigned id: non-empty decimal digits without a leading zero |
| Decimal.ParseNatToString | dart/todo/src/app.rs:39 | reading back the rendered id gives the id |
| Decimal.NatToStringInjective | dart/todo/src/app.rs:39 | distinct ids render differently |
| DartTodo.Create | dart/todo/src/app.rs:20-26 | no todos, counter 0, filter `All`, and the id invariant holds |
| DartTodo.Update | dart/todo/src/app.rs:28-83 | at most one reply, and it answers the request; no reply exactly for `RemoveTodo` of an unknown id |
| DartTodo.UpdateKeepsValid | dart/todo/src/app.rs:28-83 | every message keeps ids distinct and at most `last_added_id` |
| DartTodo.AddTodoAppends | dart/todo/src/app.rs:31-39 | the counter goes up by one and one uncompleted todo is appended with that fresh id; the reply carries the id |
| DartTodo.RemoveTodoDeletes | dart/todo/src/app.rs:41-48 | the first todo with the id is cut out and the rest keep their order; an unknown id changes nothing and is not answered |
| DartTodo.RemoveCompletedKeepsPending | dart/todo/src/app.rs:51-54 | exactly the uncompleted todos stay, in order and with their multiplicity |
| DartTodo.CompletionTouchesOnlyTarget | dart/todo/src/app.rs:56-67 | only the flag of the first todo with the id changes; an unknown id changes nothing; one reply either way |
| DartTodo.SetCompleted | dart/todo/src/app.rs:56-75 | the change sets the flag and keeps the id and title |
| DartTodo.Toggle | dart/todo/src/app.rs:64-66 | the change flips the flag and keeps the id and title |
| DartTodo.SetAllCompletion | dart/todo/src/app.rs:69-76 | every flag is set; length, order, ids and titles stay |
| DartTodo.FilteredTodos | dart/todo/src/app.rs:97-105 | the store's matching todos, sorted by id |
| RiverpodTodo.Create | flutter/todo_riverpod/src/lib.rs:18-44 | four todos with ids 0 to 3, the first two completed, counter 3, filter `All` |
| RiverpodTodo.Update | flutter/todo_riverpod/src/lib.rs:46-100 | the Dart handler on this store's messages: no reply exactly for an unknown `RemoveTodo`, and `ToggledTodo` carries the id |
| RiverpodTodo.UpdateKeepsValid | flutter/todo_riverpod/src/lib.rs:46-93 | every message keeps the id invariant |
| RiverpodTodo.ToggleFlipsOnlyTarget | flutter/todo_riverpod/src/lib.rs:74-77 | only the first todo with the id has its flag flipped |
| RiverpodTodo.FilteredTodos | flutter/todo_riverpod/src/lib.rs:104-112 | the store's matching todos, sorted by id |
| RiverpodTodo.DisplayTodo | flutter/todo_riverpod/src/lib.rs:132-137 | the status, id and title can be read back from a rendered todo |
| RiverpodTodo.ShownTailRoundTrip | flutter/todo_riverpod/src/lib.rs:135 | the id and title are read back from the text after the status |
| RiverpodTodo.DisplayInjective | flutter/todo_riverpod/src/lib.rs:132-137 | distinct todos render differently |
| RiverpodTodo.DisplayFilter | flutter/todo_riverpod/src/lib.rs:150-157 | a filter is read back from its rendered name |
| CubitTodo.Create | flutter/todo_cubit/src/lib.rs:27-61 | four seeded todos with countdown 7000, auto-expiry off, settings expiry 7000 |
| CubitTodo.SetCompleted | flutter/todo_cubit/src/lib.rs:234-237 | the flag is set and the countdown restarts at 7000; id and title stay |
| CubitTodo.Update | flutter/todo_cubit/src/lib.rs:63-118 | exactly one reply, and it answers the request; settings change only for `SetAutoExpireCompletedTodos` |
| CubitTodo.UpdateKeepsValid | flutter/todo_cubit/src/lib.rs:63-118 | every message keeps the id invariant |
| CubitTodo.AddTodoAppends | flutter/todo_cubit/src/lib.rs:66-76 | one uncompleted todo with the fresh id and countdown 7000 is appended |
| CubitTodo.RemoveTodoAlwaysReplies | flutter/todo_cubit/src/lib.rs:77-80 | the todo with the id is removed; an unknown id changes nothing, and `RemovedTodo` is posted either way |
| CubitTodo.CompletionResetsExpiry | flutter/todo_cubit/src/lib.rs:87-98 | only the first todo with the id changes: its flag is set and its countdown restarts |
| CubitTodo.SetAllResetsExpiry | flutter/todo_cubit/src/lib.rs:100-107 | every todo gets the flag and a restarted countdown |
| CubitTodo.RemoveCompletedKeepsPending | flutter/todo_cubit/src/lib.rs:82-85 | exactly the uncompleted todos stay, in order and with their multiplicity; counter, filter and settings are kept, and `RemovedCompleted` answers the request |
| CubitTodo.SetAutoExpireOnlySetsFlag | flutter/todo_cubit/src/lib.rs:113-116 | only the auto-expire flag changes |
| CubitTodo.SpawnsExpiryLoop | flutter/todo_cubit/src/lib.rs:161-164 | an expiry loop is spawned exactly when the message leaves auto-expiry on, whether or not one already runs |
| CubitTodo.TodoById | flutter/todo_cubit/src/lib.rs:152-154 | the first todo with the id, or none exactly when no todo has it |
| CubitTodo.FilteredTodos | flutter/todo_cubit/src/lib.rs:141-149 | the store's matching todos, sorted by id |
| CubitTodo.Decisions | flutter/todo_cubit/src/lib.rs:177-190 | at most one `(id, remove)` pair per todo |
| CubitTodo.Decrement | flutter/todo_cubit/src/lib.rs:177-190 | stepping the countdowns keeps every id in place |
| CubitTodo.ExpiredAre | flutter/todo_cubit/src/lib.rs:180-194 | the ids marked for removal are exactly those of completed todos on their last 10 ms |
| CubitTodo.EventsMatch | flutter/todo_cubit/src/lib.rs:192-199 | one event per completed todo in list order: `CompletedTodoExpired` for an expiring todo, else `Tick(id)` |
| CubitTodo.SurvivorsAreWithout | flutter/todo_cubit/src/lib.rs:177-199 | with distinct ids, removing the marked ids from the stepped list gives the per-todo reference `Survivors` |
| CubitTodo.ExpiryTick | flutter/todo_cubit/src/lib.rs:174-199 | a pass keeps the counter, filter and settings, never adds a todo, and posts at most one event per todo |
| CubitTodo.Removals | flutter/todo_cubit/src/lib.rs:190-199 | an id is removed iff some decision marks it for removal, and there are no more removals than decisions |
| CubitTodo.TickReplies | flutter/todo_cubit/src/lib.rs:190-199 | one event per decision, in order: `CompletedTodoExpired` for a removal, `Tick` with the id otherwise |
| CubitTodo.ExpiryTickKeepsValid | flutter/todo_cubit/src/lib.rs:174-199 | every pass keeps the id invariant, so each later pass also starts from a valid store |
| CubitTodo.ExpiryTickMatchesSurvivors | flutter/todo_cubit/src/lib.rs:177-199 | a pass removes the expiring completed todos, steps the other completed ones down by 10, leaves the uncompleted ones alone, keeps order, and posts the expected events |
| CubitTodo.TickKeepsAligned | flutter/todo_cubit/src/lib.rs:182-187 | countdowns that are positive multiples of 10 never underflow, and they stay multiples of 10 after a pass |
| CubitTodo.UpdateKeepsAligned | flutter/todo_cubit/src/lib.rs:63-118 | every message keeps the countdowns positive multiples of 10 |
| CubitWasmTodo.Create | flutter/todo_cubit_wasm/src/lib.rs:24-58 | the same seeded store as the Cubit example |
| CubitWasmTodo.Update | flutter/todo_cubit_wasm/src/lib.rs:60-114 | `SetAutoExpireCompletedTodos` panics with its message and nothing else does; every other message changes the store exactly as the Cubit store does, keeps the settings, and appends one reply for this request to the queue |
| CubitWasmTodo.AutoExpireStaysOff | flutter/todo_cubit_wasm/src/lib.rs:110-112 | the auto-expire flag can never be switched on |
| CubitWasmTodo.RemoveCompletedKeepsPending | flutter/todo_cubit_wasm/src/lib.rs:79-82 | exactly the uncompleted todos stay, nothing else in the store changes, and the queued reply decodes to `RemovedCompleted` for the request |
| CubitWasmTodo.ReplyRoundTrip | flutter/todo_cubit_wasm/src/lib.rs:60-109 | the queued record decodes to the Cubit store's reply, and marking the request handled restores the queue |
| CubitWasmTodo.UpdateKeepsValid | flutter/todo_cubit_wasm/src/lib.rs:60-114 | every message keeps the id invariant |
| CubitWasmTodo.TodoById | flutter/todo_cubit_wasm/src/lib.rs:153-156 | the first todo with the id, or none exactly when no todo has it |
| CubitWasmTodo.FilteredTodos | flutter/todo_cubit_wasm/src/lib.rs:136-144 | the matching todos with their multiplicity, sorted by id |
| ReplyQueue.WithReqId | flutter/todo_cubit_wasm/src/replies.rs:62-68 | the record has the tag and id and empty data |
| ReplyQueue.WithData | flutter/todo_cubit_wasm/src/replies.rs:69-71 | the record has the tag, id and data |
| ReplyQueue.FromReply | flutter/todo_cubit_wasm/src/replies.rs:74-98 | tags are below 12 and never 9; a record carries the request id of the reply, or 0 for the two events |
| ReplyQueue.ToReply | flutter/todo_cubit_wasm/src/replies.rs:74-98 | a decoded record is always a reply of the wasm enum |
| ReplyQueue.DecodeEncode | flutter/todo_cubit_wasm/src/replies.rs:74-98 | decoding an encoded reply gives back the reply |
| ReplyQueue.EncodeDecode | flutter/todo_cubit_wasm/src/replies.rs:74-98 | a record decodes to a reply iff it is that reply's encoding |
| ReplyQueue.FromReplyInjective | flutter/todo_cubit_wasm/src/replies.rs:76-95 | different replies give different records |
| ReplyQueue.Post | flutter/todo_cubit_wasm/src/replies.rs:31-33 | one entry is added at the back, it decodes to the posted reply, and the rest of the queue is kept |
| ReplyQueue.PostAll | flutter/todo_cubit_wasm/src/replies.rs:31-33 | posting several replies keeps the old queue as a prefix and queues each reply, decodably, in order |
| ReplyQueue.PollReply | flutter/todo_cubit_wasm/src/replies.rs:44-46 | nothing exactly when the queue is empty; otherwise the front entry |
| ReplyQueue.PollIsFifo | flutter/todo_cubit_wasm/src/replies.rs:31-46 | a post never changes which entry is polled next, unless the queue was empty |
| ReplyQueue.HandledReply | flutter/todo_cubit_wasm/src/replies.rs:49-51 | exactly the entries with another request id stay |
| ReplyQueue.HandledReplyAppend | flutter/todo_cubit_wasm/src/replies.rs:49-51 | pruning keeps order: pruning a concatenation concatenates the pruned parts |
| ReplyQueue.HandledReplyIdempotent | flutter/todo_cubit_wasm/src/replies.rs:49-51 | pruning an id twice is pruning it once |
| ReplyQueue.HandledReplyCommutes | flutter/todo_cubit_wasm/src/replies.rs:49-51 | pruning two ids gives the same queue in either order |
| ReplyQueue.PostThenHandled | flutter/todo_cubit_wasm/src/replies.rs:31-51 | a posted reply is gone once its request is handled; a reply to another request stays at the back |
| ReplyQueue.HandledZeroDropsEvents | flutter/todo_cubit_wasm/src/replies.rs:86-95 | handling request id 0 also drops the queued `CompletedTodoExpired` and `Tick` events |
| Keyed.Index | wip/reddit_ticker/src/lib.rs:72-76 | every entry sits under its own key, and the keys are exactly the items' keys |
| Keyed.IndexLast | wip/reddit_ticker/src/lib.rs:72-76 | the entry under a key is the last item with that key |
| Keyed.IndexDistinct | wip/reddit_ticker_prep/rust/src/main.rs:122-131 | with distinct keys, the map has one entry per item and finds each item under its key |
| Keyed.Oks | wip/reddit_ticker_prep/rust/src/main.rs:109-114 | exactly the success values |
| Keyed.Errs | wip/reddit_ticker_prep/rust/src/main.rs:109-115 | exactly the error messages |
| Keyed.Partition | wip/reddit_ticker_prep/rust/src/main.rs:109-115 | every result lands on exactly one side |
| Keyed.OksAppend | wip/reddit_ticker_prep/rust/src/main.rs:109-114 | the success side keeps input order |
| Keyed.ErrsAppend | wip/reddit_ticker_prep/rust/src/main.rs:109-115 | the error side keeps input order |
| Keyed.FirstPanic | wip/reddit_ticker_prep/rust/src/main.rs:109-112 | none iff no call panicked; otherwise the message of the first call that panicked, every earlier call having returned |
| Keyed.Fetched | wip/reddit_ticker/src/lib.rs:240-255 | a pair is kept iff its fetch succeeded with that value |
| TickerStore.JoinPath | wip/reddit_ticker/src/lib.rs:48-51 | the path ends with the database file name and starts with the app directory |
| TickerStore.Create | wip/reddit_ticker/src/lib.rs:34-41 | no posts, not polling, no database |
| TickerStore.InitializeStep | wip/reddit_ticker/src/lib.rs:46-90 | replies `Initialized` once, sets `polling`, spawns the poll loop only when it was not running, and keeps an open database |
| TickerStore.Update | wip/reddit_ticker/src/lib.rs:43-96 | `StartWatching` only spawns a watch thread and does not answer; the other messages answer once |
| TickerStore.InitializeTwiceOnePoller | wip/reddit_ticker/src/lib.rs:65-68 | two `Initialize` messages start exactly one poll loop |
| TickerStore.InitializeLoadsPosts | wip/reddit_ticker/src/lib.rs:47-87 | the database is opened under the app directory; with it open, the posts are exactly the loaded ones under their ids (the last duplicate wins), and a failed load empties the map |
| TickerStore.StopWatchingFrame | wip/reddit_ticker/src/lib.rs:91-94 | only that key goes, every other entry stays, and `StoppedWatching` is posted even for an unknown id |
| TickerStore.UpdateKeepsValid | wip/reddit_ticker/src/lib.rs:43-96 | every message keeps each post under its own id |
| TickerStore.NewPost | wip/reddit_ticker/src/lib.rs:209-216 | the page's id, title and url, no scores, added now |
| TickerStore.TryStartWatching | wip/reddit_ticker/src/lib.rs:173-226 | panics exactly when the page fetch panics; a page error is wrapped with the URL |
| TickerStore.WatchedPostSource | wip/reddit_ticker/src/lib.rs:180-224 | without a database or a stored post, a new post from the page; a stored post comes with its loaded scores, or none when loading fails |
| TickerStore.FinishStartWatching | wip/reddit_ticker/src/lib.rs:159-171 | a post is inserted under its id and `StartedWatching` posted; an error posts `FailedRequest` and changes nothing; a panic posts nothing |
| TickerStore.WatchThread | wip/reddit_ticker/src/lib.rs:159-171 | at most one reply, and none exactly when the page fetch panics |
| TickerStore.WatchThreadFrame | wip/reddit_ticker/src/lib.rs:159-171 | a successful watch changes only the post's own key, a failed one changes nothing, and posts stay under their ids |
| TickerStore.ApplyScores | wip/reddit_ticker/src/lib.rs:261-274 | the write loop keeps the set of watched ids |
| TickerStore.ApplyScoresEntries | wip/reddit_ticker/src/lib.rs:261-274 | each post ends with its old scores followed by one score per fetched value for it, in order, stamped `now - added` |
| TickerStore.ApplyScoresFrame | wip/reddit_ticker/src/lib.rs:261-274 | nothing in a post but its scores changes |
| TickerStore.PollCycle | wip/reddit_ticker/src/lib.rs:239-283 | exactly one `UpdatedScores`, no thread spawned, the same ids, polling flag and database |
| TickerStore.PollCycleOneScore | wip/reddit_ticker/src/lib.rs:261-273 | a watched post whose fetch succeeded gets exactly one new score, stamped `now - added` |
| TickerStore.PollCycleSkipsFailed | wip/reddit_ticker/src/lib.rs:248-254 | a post whose fetch failed, or that was not fetched, is unchanged |
| TickerStore.FetchedScoresNone | wip/reddit_ticker/src/lib.rs:248-254 | a failed fetch contributes no score |
| TickerStore.FetchedScoresOne | wip/reddit_ticker/src/lib.rs:240-255 | with distinct ids, a successful fetch contributes exactly one score |
| TickerStore.PollCycleKeepsValid | wip/reddit_ticker/src/lib.rs:257-282 | a poll cycle keeps each post under its own id and added by now |
| TickerStore.ApplyScoresAsWritten | wip/reddit_ticker/src/lib.rs:261-268 | the loop as written panics iff some fetched id is no longer watched or its post was added after now; the first such score decides the message: the `unwrap` on `None`, or `Getting duration: ` followed by the `SystemTimeError` |
| TickerStore.DurationPanic | wip/reddit_ticker/src/lib.rs:265-267 | the `expect` message starts with `Getting duration: ` |
| TickerStore.RecordingKeepsUnrecordable | wip/reddit_ticker/src/lib.rs:262-273 | recording one score changes neither which later scores panic nor their messages |
| TickerStore.ShiftUnrecordable | wip/reddit_ticker/src/lib.rs:261-268 | past a recordable first score, the first score that panics is the same one, one place on |
| TickerStore.AddScore | wip/reddit_ticker/src/lib.rs:262-273 | the post keeps its fields and old scores and gains one score at the end, stamped `now - added` |
| TickerStore.ApplyScoresAgree | wip/reddit_ticker/src/lib.rs:261-274 | while every fetched id is still watched, the loop as written and the corrected loop agree |
| TickerStore.PollCycleAsWritten | wip/reddit_ticker/src/lib.rs:239-283 | the first fetch that panics ends the cycle with its message; a cycle that returns posts one `UpdatedScores`, spawns nothing and keeps the ids and `polling`; the cycle panics iff some fetch panics or some successfully fetched id is no longer watched or was added after now |
| TickerStore.PollCycleAgree | wip/reddit_ticker/src/lib.rs:239-283 | when every fetch returned, every fetched id is watched and the clock has not gone back, the cycle as written is the corrected one |
| TickerStore.FetchScore | wip/reddit_ticker/src/reddit/reddit.rs:45-52 | panics exactly when `query_score` does, with the index message; a request error is passed on; any child's score outside `i32` is a decoding error; otherwise the first child's score is returned as an `i32` |
| TickerStore.FetchScoreChecksEveryChild | wip/reddit_ticker/src/reddit/reddit.rs:50-51 | a second child's score of 2^31 makes the response an error though the first child's score is 5 |
| TickerStore.FetchScores | wip/reddit_ticker/src/lib.rs:239-246 | one fetch per watched id, in order |
| TickerStore.EmptyScoreResponseStopsPolling | wip/reddit_ticker/src/lib.rs:239-283 | a score response without children, reached before any other fetch panics, ends the poll thread with the index message, and a later `Initialize` starts no poller |
| TickerStore.PollRaceWithStopWatching | wip/reddit_ticker/src/lib.rs:264 | after a `StopWatching` between the id read and the write, the as-written cycle panics, the corrected one carries on, and a later `Initialize` does not restart polling |
| DartTicker.Create | wip/reddit_ticker/dart/src/app.rs:26-29 | an empty post map |
| DartTicker.Update | wip/reddit_ticker/dart/src/app.rs:31-43 | `InitializeTicker` spawns a poll loop and replies; `StartWatching` only spawns a watch thread; `StopWatching` replies `StoppedWatching` |
| DartTicker.EveryInitializeSpawnsPoller | wip/reddit_ticker/dart/src/app.rs:34-37 | n `InitializeTicker` messages start n poll loops |
| DartTicker.StopWatchingFrame | wip/reddit_ticker/dart/src/app.rs:38-41 | only that key goes and every other entry stays |
| DartTicker.TryStartWatching | wip/reddit_ticker/dart/src/app.rs:72-82 | the page's id, title and url with no scores; a page error is wrapped with the URL; a panic propagates |
| DartTicker.WatchThread | wip/reddit_ticker/dart/src/app.rs:59-70 | success inserts under the id and posts `StartedWatching`; failure posts `FailedRequest` and changes nothing; a panic posts nothing |
| DartTicker.KeepsValid | wip/reddit_ticker/dart/src/app.rs:31-70 | messages and watch threads keep each post under its id |
| DartTicker.PushScores | wip/reddit_ticker/dart/src/app.rs:109-113 | the write loop keeps the set of watched ids |
| DartTicker.PushScoresEntry | wip/reddit_ticker/dart/src/app.rs:109-113 | each post ends with its old scores followed by the fetched values for it, in order; nothing else in the post changes |
| DartTicker.PollCycle | wip/reddit_ticker/dart/src/app.rs:94-114 | one `UpdatedScores`, the same ids, and posts without a successful fetch unchanged |
| DartTicker.PushScoresAsWritten | wip/reddit_ticker/dart/src/app.rs:109-113 | the loop as written panics iff some fetched id is no longer watched |
| DartTicker.PushScoresAgree | wip/reddit_ticker/dart/src/app.rs:109-113 | while every fetched id is watched, the loop as written and the corrected loop agree |
| DartTicker.PollCycleAsWritten | wip/reddit_ticker/dart/src/app.rs:94-114 | the first fetch that panics ends the cycle with its message; a cycle that returns posts one `UpdatedScores` and keeps the ids; it panics iff some fetch panics or some fetched id is no longer watched |
| DartTicker.PollCycleAgree | wip/reddit_ticker/dart/src/app.rs:94-114 | when every fetch returned and every fetched id is watched, the cycle as written is the corrected one |
| DartTicker.PollRaceWithStopWatching | wip/reddit_ticker/dart/src/app.rs:111 | a `StopWatching` between the id read and the write makes the as-written cycle panic, while the corrected one skips the post |
| RedditUrls.FindChar | wip/reddit_ticker/src/reddit/reddit.rs:7 | the position of the first occurrence, or none exactly when the character is absent |
| RedditUrls.CutQuery | wip/reddit_ticker/src/reddit/reddit.rs:7-10 | a prefix without `?` that stops at the first `?`; a URL without `?` is unchanged |
| RedditUrls.TrimEndSlashes | wip/reddit_ticker/src/reddit/reddit.rs:11 | a prefix that does not end in `/`, and only slashes were removed |
| RedditUrls.TrimEndSlashesUnique | wip/reddit_ticker/src/reddit/reddit.rs:11 | those three facts determine the trimmed string |
| RedditUrls.TrimEndSlashesIdempotent | wip/reddit_ticker/src/reddit/reddit.rs:11 | trimming twice is trimming once |
| RedditUrls.TrailingSlashIgnored | wip/reddit_ticker/src/reddit/reddit.rs:11 | an extra trailing slash does not change the request URL |
| RedditUrls.QueryIgnored | wip/reddit_ticker/src/reddit/reddit.rs:7-11 | the query does not change the request URL |
| RedditUrls.PageRequestUrl | flutter/reddit_ticker/src/reddit/reddit.rs:7-12 | the request URL has no `?` and ends with `.json` |
| RedditUrls.PlainPathRequest | flutter/reddit_ticker/src/reddit/reddit.rs:7-12 | a slash-free path followed by `/?query` is requested as the path plus `.json` |
| RedditUrls.ExampleRequest | flutter/reddit_ticker/src/reddit/reddit.rs:7-12 | `https://r/x/?ref` is requested as `https://r/x.json` |
| RedditUrls.JsonUrl | wip/reddit_ticker/dart/src/app.rs:179 | ends with `.json` after a prefix of the input |
| RedditUrls.DartRequestKeepsQuery | wip/reddit_ticker/dart/src/app.rs:179 | the Dart ticker's URL equals the Rust ticker's when there is no query, and keeps the `?` otherwise |
| RedditUrls.ScoreRequestUrl | wip/reddit_ticker/src/reddit/reddit.rs:43-46 | starts with the info URL and `?id=`, followed by exactly as many characters as the id has |
| RedditUrls.ScoreUrlId | wip/reddit_ticker/dart/src/app.rs:157-160 | an id read from a URL rebuilds that URL |
| RedditUrls.ScoreUrlRoundTrip | wip/reddit_ticker/dart/src/app.rs:157-160 | the score URL determines the id |
| RedditFetch.PageResponse | wip/reddit_ticker/src/reddit/reddit.rs:18-40 | the response built for a page has every piece extraction needs |
| RedditFetch.ExtractPage | wip/reddit_ticker/src/reddit/reddit.rs:18-40 | returns iff there is a first page, a first child, a title and a url, with the id taken from `name`; otherwise one of the four messages |
| RedditFetch.ExtractPageNamesMissingPiece | wip/reddit_ticker/src/reddit/reddit.rs:18-38 | each panic names the first missing piece, both ways |
| RedditFetch.ExtractPageResponse | wip/reddit_ticker/src/reddit/reddit.rs:18-40 | extraction reads back the page a response was built for |
| RedditFetch.ExtractPageIgnoresRest | wip/reddit_ticker/src/reddit/reddit.rs:18-25 | only the first child of the first listing matters |
| RedditFetch.ExtractPageAsWritten | wip/reddit_ticker/src/reddit/reddit.rs:18-40 | as written: the same success condition and id, and only the page, child or title message |
| RedditFetch.ExtractVersionsAgree | wip/reddit_ticker/src/reddit/reddit.rs:34-38 | both versions return the same page and panic on the same responses |
| RedditFetch.AsWrittenBlamesTitle | wip/reddit_ticker/src/reddit/reddit.rs:28-38 | as written, a missing title and a missing url give the same message |
| RedditFetch.QueryPage | wip/reddit_ticker/src/reddit/reddit.rs:5-41 | an error exactly when the fetch of the normalised URL fails; otherwise the extraction of its response as written |
| RedditFetch.QueryPageIgnoresQuery | wip/reddit_ticker/src/reddit/reddit.rs:7-11 | a post URL's query does not change the result |
| RedditFetch.QueryPageServes | wip/reddit_ticker/src/reddit/reddit.rs:5-41 | a served page is returned exactly |
| RedditFetch.DartQueryPage | wip/reddit_ticker/dart/src/app.rs:178-209 | the same, on the trimmed URL with the query kept |
| RedditFetch.PrepQueryPage | wip/reddit_ticker_prep/rust/src/main.rs:25-54 | the same, on the URL the caller built |
| RedditFetch.QueryPageBlamesTitle | wip/reddit_ticker/src/reddit/reddit.rs:34-38 | a served page with a title and no url makes all three `query_page` versions panic with the title message |
| RedditFetch.ExtractScore | wip/reddit_ticker/src/reddit/reddit.rs:51 | panics iff there are no children; otherwise the first child's score |
| RedditFetch.QueryScore | wip/reddit_ticker/src/reddit/reddit.rs:45-52 | an error exactly when fetching the score URL fails, and a panic, with the index message, exactly when the response has no children |
| RedditFetch.QueryScoreServes | wip/reddit_ticker/src/reddit/reddit.rs:45-52 | a served score is returned exactly |
| RedditMock.MockPages | wip/reddit_ticker/src/reddit/reddit_mock.rs:8-61 | ten pages |
| RedditMock.MockPagesNumbered | wip/reddit_ticker/src/reddit/reddit_mock.rs:8-61 | page k is `reddit_page_k` at `https://k` |
| RedditMock.MockUrlsDistinct | wip/reddit_ticker/src/reddit/reddit_mock.rs:8-61 | no two mock pages share a URL |
| RedditMock.MockIndex | wip/reddit_ticker/src/reddit/reddit_mock.rs:64-76 | the index of the page at that URL, or none when no page has it |
| RedditMock.MockQueryPage | wip/reddit_ticker/src/reddit/reddit_mock.rs:63-79 | a page iff some mock page has the URL, and then that page; otherwise the "not found" error |
| RedditMock.MockQueryPageRoundTrip | wip/reddit_ticker/src/reddit/reddit_mock.rs:63-79 | every mock page is served at its own URL |
| RedditMock.MockQueryPageNumbered | wip/reddit_ticker/src/reddit/reddit_mock.rs:63-79 | `https://k` serves page k |
| RedditMock.MockQueryScore | wip/reddit_ticker/src/reddit/reddit_mock.rs:81-95 | an unwatched id is an error; the first score is in [0, 89); later ones are the last plus a value in [-3, 6); an `i32` overflow panics, as in a debug build |
| RedditMock.MockScoreReachable | wip/reddit_ticker/src/reddit/reddit_mock.rs:85-90 | every value in those ranges is produced by some draw |
| TickerPrep.RequestUrls | wip/reddit_ticker_prep/rust/src/main.rs:111 | each request URL ends with `.json` after a prefix of its tracked URL |
| TickerPrep.TrackedRequestUrls | wip/reddit_ticker_prep/rust/src/main.rs:104-111 | the first tracked page is requested without its trailing slash, plus `.json` |
| TickerPrep.PostOf | wip/reddit_ticker_prep/rust/src/main.rs:125-130 | a post takes the page's id, title and url and has no scores |
| TickerPrep.PostsOf | wip/reddit_ticker_prep/rust/src/main.rs:122-131 | one post per page, in order |
| TickerPrep.Start | wip/reddit_ticker_prep/rust/src/main.rs:109-131 | the errors are reported; any error means no posts; posts sit under their own ids |
| TickerPrep.StartWatchesEveryPage | wip/reddit_ticker_prep/rust/src/main.rs:117-131 | with every fetch successful, the watched ids are exactly the pages' ids, each post a scoreless copy of a page |
| TickerPrep.StartFrom | wip/reddit_ticker_prep/rust/src/main.rs:109-119 | `main` panics iff some fetch panics, with the message of the first one; a `main` that returns had every fetch return and is `Start` of their results |
| TickerPrep.StartFromAllServed | wip/reddit_ticker_prep/rust/src/main.rs:109-131 | with every page served, `main` reports no error and watches exactly the served pages' ids |
| TickerPrep.WatchStep | wip/reddit_ticker_prep/rust/src/main.rs:83-90 | panics iff the fetch panicked or failed or the id is missing: a fetch panic keeps its message and a failure gets the `expect` prefix; otherwise the score is appended to that post only |
| TickerPrep.WatchRun | wip/reddit_ticker_prep/rust/src/main.rs:80-96 | a run of successful steps panics iff some step's id was never watched; otherwise the keys are kept |
| TickerPrep.WatchStepsNeverUnwrapMissing | wip/reddit_ticker_prep/rust/src/main.rs:80-96 | successful steps on watched ids never panic and keep each post under its id |

## Left out

- Threads, `thread::sleep`, the `RwLock` guards and the endless loops: one loop turn is a step, and a spawned thread is a `Task` value. Interleavings are not modelled beyond the one race under Findings.
- HTTP requests and serde decoding: the `get` parameter maps a request URL to a decoded response or an error.
- SQLite: the database answers are parameters. `insert_post` and `insert_score` only log a failure, so they have no effect on the model.
- Logging, the `rid` macros, the callback or queue transport behind `rid::post`, and the `Once`/`static mut` set-up of the reply queue.
- `filtered_todos_string` (serde JSON output) and `alloc.rs` (an unsafe FFI allocator).
- The `Display` impl of the Dart example's `Todo`. It is the Riverpod one with a real check mark.
- The Flutter ticker's `query_page` beyond its URL: the rest is one logged network call.
- CubitTodo.ExpiryTickMatchesSurvivors: a pass (`ExpiryTick`) requires every completed countdown to be at least 10. Below that, the `u64` subtraction underflows. `TickKeepsAligned` and `UpdateKeepsAligned` show that countdowns reached through the store always meet the requirement.
- The expiry loop as a thread: `CubitTodo.SpawnsExpiryLoop` says which message starts one, and `ExpiryTick` is one pass. Two loops running side by side are not modelled.
- CubitTodo.Update: requires room in the `u32` counter for `AddTodo`. The source's `+= 1` panics in a debug build and wraps in a release build.
- DartTodo.Update: the same `u32` counter precondition for `AddTodo`.
- RiverpodTodo.Update: the same `u32` counter precondition for `AddTodo`.
- CubitWasmTodo.Update: the same `u32` counter precondition for `AddTodo`.
- TickerStore.PollCycle: one clock reading `now` serves the whole cycle, where the source reads the clock once per id. Seconds are natural numbers. The corrected cycle takes fetches that all returned; a fetch that panics is handled by `PollCycleAsWritten`.
- DartTicker.PollCycle: the corrected cycle takes fetches that all returned; a fetch that panics is handled by `PollCycleAsWritten`.
- TickerStore.ApplyScoresAsWritten: a panic in the write loop is returned without the store the source leaves behind. In that store the scores of the ids before the panicking one are already pushed under the single write guard, and the `RwLock` is poisoned, so every later `Store::write()` panics too. Neither is modelled.
- TickerStore.PollCycleAsWritten: for a write-loop panic, the same partial pushes and the poisoned lock are not modelled. For a fetch panic, nothing was written, as the model says.
- DartTicker.PushScoresAsWritten: a panic is returned without the store the source leaves behind. Each iteration takes its own write guard, so the pushes of earlier iterations are committed, and the lock is poisoned by the panicking one. Neither is modelled.
- DartTicker.PollCycleAsWritten: for a write-loop panic, the committed earlier pushes and the poisoned lock are not modelled. For a fetch panic, nothing was written, as the model says.
- TickerStore.FetchScore: a score outside `i32` in any child is a decoding error whose wording is not modelled. Other decoding failures are request errors of the `get` parameter.
- TickerStore.DurationPanic: the clock is in whole seconds, so the `Duration` inside the `SystemTimeError` is written as whole seconds; the source's clock has sub-second precision.
- TodoList.SortById: orders by id alone. The source's `vec.sort()` uses the derived `PartialOrd`, which breaks a tie in the id by title, completion and expiry. The two orders agree whenever ids are distinct, which every store keeps (the `UpdateKeepsValid` lemmas); with distinct ids `FilteredTodosUnique` shows the result is fully determined.
- TickerStore.TryStartWatching: the database lookup is one answer per id. Whether a new post is stored is not modelled, because `insert_post` only logs.
- RedditMock.MockQueryScore: the random draws are parameters bounded by the `gen_range` ranges. Which value is drawn is not modelled. An `i32` overflow of the addition is modelled as the panic of a debug build; a release build wraps.
- ReplyQueue.ToReply: the Dart-side decoder is not part of this model. This reading is a reference partner for the encoder.

## Findings

| source | as written | input that shows it | evidently intended | confidence | as-written member | corrected member |
|---|---|---|---|---|---|---|
| wip/reddit_ticker/src/lib.rs:264 | the poll loop reads the ids under one lock, writes under another, and unwraps `get_mut(&id)` | a `StopWatching("t3_a")` handled after the ids were read and before the write | skip a post that is no longer watched; as written, the poll thread dies while `polling` stays set, so polling never restarts | not executed | TickerStore.ApplyScoresAsWritten, TickerStore.PollRaceWithStopWatching | TickerStore.ApplyScores, TickerStore.PollCycleOneScore |
| wip/reddit_ticker/dart/src/app.rs:111 | the same unwrap on a post removed since the ids were read | a `StopWatching("t3_a")` between the id read and the write | skip the removed post | not executed | DartTicker.PushScoresAsWritten, DartTicker.PollRaceWithStopWatching | DartTicker.PushScores, DartTicker.PushScoresEntry |
| wip/reddit_ticker/src/reddit/reddit.rs:34-38 | the check for a missing `url` panics with "Expected page to have a title" (the same at wip/reddit_ticker/dart/src/app.rs:202-206 and wip/reddit_ticker_prep/rust/src/main.rs:47-51) | a first child with a title and no url | a message naming the url | not executed | RedditFetch.ExtractPageAsWritten, RedditFetch.AsWrittenBlamesTitle, RedditFetch.QueryPageBlamesTitle | RedditFetch.ExtractPage, RedditFetch.ExtractPageNamesMissingPiece |

=== FILE: cubit_todo.dfy ===
/** The todo store of the Flutter Cubit example (flutter/todo_cubit/src/lib.rs):
    todos that carry an expiry countdown, store settings, and a background
    loop that, while auto-expiry is on, counts completed todos down and
    removes them when their countdown runs out. */
module CubitTodo {
  import opened Ints
  import opened Decimal
  import opened TodoList
  import opened TodoProtocol

  const COMPLETED_EXPIRY_MILLIS: u64 := 7000
  const EXPIRY_STEP: u64 := 10

  /** A todo whose `expiry` is its `expiry_millis`. */
  type ExpiringTodo = Todo<u64>

  datatype Settings = Settings(autoExpireCompletedTodos: bool, completedExpiryMillis: u64)

  datatype Store = Store(lastAddedId: u32, todos: seq<ExpiringTodo>, filter: Filter, settings: Settings)

  ghost predicate Valid(s: Store) {
    IdsValid(s.todos, s.lastAddedId)
  }

  /** What `update` needs to run without panicking: room in the u32 counter
      for `AddTodo`. */
  predicate CanHandle(s: Store, msg: Msg) {
    msg.AddTodo? ==> s.lastAddedId + 1 < U32_LIMIT
  }

  function Create(): (s: Store)
    ensures |s.todos| == 4 && s.lastAddedId == 3 && s.filter == All
    ensures forall i :: 0 <= i < 4 ==>
      s.todos[i].id == i && (s.todos[i].completed <==> i < 2) && s.todos[i].expiry == COMPLETED_EXPIRY_MILLIS
    ensures s.settings == Settings(false, COMPLETED_EXPIRY_MILLIS)
    ensures Valid(s)
  {
    Store(3, [
      Todo(0, "Learn Flutter", true, COMPLETED_EXPIRY_MILLIS),
      Todo(1, "Learn Rust", true, COMPLETED_EXPIRY_MILLIS),
      Todo(2, "Learn Rid", false, COMPLETED_EXPIRY_MILLIS),
      Todo(3, "Build Awesome Apps", false, COMPLETED_EXPIRY_MILLIS)],
      All, Settings(false, COMPLETED_EXPIRY_MILLIS))
  }

  /** `Todo::set_completed`: sets the flag and restarts the countdown. */
  function SetCompleted(t: ExpiringTodo, completed: bool): (r: ExpiringTodo)
    ensures r.completed == completed && r.expiry == COMPLETED_EXPIRY_MILLIS
    ensures r.id == t.id && r.title == t.title
  {
    t.(completed := completed, expiry := COMPLETED_EXPIRY_MILLIS)
  }

  function Complete(completed: bool): ExpiringTodo -> ExpiringTodo {
    (t: ExpiringTodo) => SetCompleted(t, completed)
  }

  function Toggle(): ExpiringTodo -> ExpiringTodo {
    (t: ExpiringTodo) => SetCompleted(t, !t.completed)
  }

  function Update(s: Store, reqId: u64, msg: Msg): (r: Step<Store>)
    requires CanHandle(s, msg)
    ensures |r.replies| == 1 && AnswersRequest(r.replies[0], reqId)
    ensures !msg.SetAutoExpireCompletedTodos? ==> r.store.settings == s.settings
  {
    match msg
    case AddTodo(title) =>
      var id := s.lastAddedId + 1;
      Step(s.(lastAddedId := id, todos := s.todos + [Todo(id, title, false, COMPLETED_EXPIRY_MILLIS)]),
           [AddedTodo(reqId, NatToString(id))])
    case RemoveTodo(id) =>
      Step(s.(todos := TodoList.RemoveTodo(s.todos, id)), [RemovedTodo(reqId, NatToString(s.lastAddedId))])
    case RemoveCompleted =>
      Step(s.(todos := Select(s.todos, Pending)), [RemovedCompleted(reqId)])
    case CompleteTodo(id) =>
      Step(s.(todos := UpdateTodo(s.todos, id, Complete(true))), [CompletedTodo(reqId, NatToString(id))])
    case RestartTodo(id) =>
      Step(s.(todos := UpdateTodo(s.todos, id, Complete(false))), [RestartedTodo(reqId, NatToString(id))])
    case ToggleTodo(id) =>
      Step(s.(todos := UpdateTodo(s.todos, id, Toggle())), [ToggledTodo(reqId, NatToString(id))])
    case CompleteAll =>
      Step(s.(todos := UpdateAll(s.todos, Complete(true))), [CompletedAll(reqId)])
    case RestartAll =>
      Step(s.(todos := UpdateAll(s.todos, Complete(false))), [RestartedAll(reqId)])
    case SetFilter(filter) =>
      Step(s.(filter := filter), [Reply.SetFilter(reqId)])
    case SetAutoExpireCompletedTodos(expire) =>
      Step(s.(settings := s.settings.(autoExpireCompletedTodos := expire)),
           [Reply.SetAutoExpireCompletedTodos(reqId)])
  }

  /** `set_auto_expire_completed_todos(expire)` spawns an expiry loop
      exactly when it leaves auto-expiry on, whether or not a loop already
      runs; nothing stops a second loop from running beside the first. */
  function SpawnsExpiryLoop(s: Store, reqId: u64, msg: Msg): (r: bool)
    requires CanHandle(s, msg)
    ensures r <==> msg.SetAutoExpireCompletedTodos? && Update(s, reqId, msg).store.settings.autoExpireCompletedTodos
  {
    msg.SetAutoExpireCompletedTodos? && msg.expire
  }

  function TodoById(s: Store, id: u32): (r: Wrappers.Option<ExpiringTodo>)
    ensures r.Some? <==> HasId(s.todos, id)
    ensures r.Some? ==> exists i :: FirstWithId(s.todos, id, i) && r.value == s.todos[i]
  {
    TodoList.TodoById(s.todos, id)
  }

  function FilteredTodos(s: Store): (r: seq<ExpiringTodo>)
    ensures SortedById(r)
    ensures forall t :: t in r <==> t in s.todos && Matches(s.filter, t)
    ensures forall t :: multiset(r)[t] == if Matches(s.filter, t) then multiset(s.todos)[t] else 0
  {
    TodoList.FilteredTodos(s.todos, s.filter)
  }

  /** Every message keeps the id invariant. */
  lemma UpdateKeepsValid(s: Store, reqId: u64, msg: Msg)
    requires CanHandle(s, msg) && Valid(s)
    ensures Valid(Update(s, reqId, msg).store)
  {
    var r := Update(s, reqId, msg).store;
    match msg
    case AddTodo(title) =>
      var t := Todo(s.lastAddedId + 1, title, false, COMPLETED_EXPIRY_MILLIS);
      assert r == s.(lastAddedId := t.id, todos := s.todos + [t]);
      AppendFreshKeepsValid(s.todos, t, s.lastAddedId);
    case RemoveTodo(id) =>
      assert r == s.(todos := TodoList.RemoveTodo(s.todos, id));
      RemoveTodoKeepsValid(s.todos, id, s.lastAddedId);
    case RemoveCompleted =>
      assert r == s.(todos := Select(s.todos, Pending));
      SelectKeepsValid(s.todos, Pending, s.lastAddedId);
    case CompleteTodo(id) =>
      assert r == s.(todos := UpdateTodo(s.todos, id, Complete(true)));
      UpdateTodoKeepsIds(s.todos, id, Complete(true));
      SameIdsKeepValid(s.todos, UpdateTodo(s.todos, id, Complete(true)), s.lastAddedId);
    case RestartTodo(id) =>
      assert r == s.(todos := UpdateTodo(s.todos, id, Complete(false)));
      UpdateTodoKeepsIds(s.todos, id, Complete(false));
      SameIdsKeepValid(s.todos, UpdateTodo(s.todos, id, Complete(false)), s.lastAddedId);
    case ToggleTodo(id) =>
      assert r == s.(todos := UpdateTodo(s.todos, id, Toggle()));
      UpdateTodoKeepsIds(s.todos, id, Toggle());
      SameIdsKeepValid(s.todos, UpdateTodo(s.todos, id, Toggle()), s.lastAddedId);
    case CompleteAll =>
      assert r == s.(todos := UpdateAll(s.todos, Complete(true)));
      UpdateTodoKeepsIds(s.todos, 0, Complete(true));
      SameIdsKeepValid(s.todos, UpdateAll(s.todos, Complete(true)), s.lastAddedId);
    case RestartAll =>
      assert r == s.(todos := UpdateAll(s.todos, Complete(false)));
      UpdateTodoKeepsIds(s.todos, 0, Complete(false));
      SameIdsKeepValid(s.todos, UpdateAll(s.todos, Complete(false)), s.lastAddedId);
    case SetFilter(_) =>
    case SetAutoExpireCompletedTodos(_) =>
  }

  /** `AddTodo` appends one uncompleted todo with the next id and a full
      countdown. */
  lemma AddTodoAppends(s: Store, reqId: u64, title: string)
    requires Valid(s) && s.lastAddedId + 1 < U32_LIMIT
    ensures var r := Update(s, reqId, AddTodo(title));
      var id := s.lastAddedId + 1;
      && r.store.lastAddedId == id
      && r.store.todos == s.todos + [Todo(id, title, false, COMPLETED_EXPIRY_MILLIS)]
      && !HasId(s.todos, id)
      && r.replies == [AddedTodo(reqId, NatToString(id))]
  {
  }

  /** `RemoveTodo` removes the todo with the id; an unknown id leaves the
      todos as they are, and the `RemovedTodo` reply is posted either way. */
  lemma RemoveTodoAlwaysReplies(s: Store, reqId: u64, id: u32)
    requires Valid(s)
    ensures var r := Update(s, reqId, RemoveTodo(id));
      && (!HasId(s.todos, id) ==> r.store == s)
      && (forall t :: t in r.store.todos <==> t in s.todos && t.id != id)
      && r.replies == [RemovedTodo(reqId, NatToString(s.lastAddedId))]
  {
    RemoveTodoExact(s.todos, id);
  }

  /** Completing, restarting or toggling one todo goes through
      `set_completed`: only the first todo with the id changes, and its
      countdown restarts. */
  lemma CompletionResetsExpiry(s: Store, reqId: u64, msg: Msg)
    requires msg.CompleteTodo? || msg.RestartTodo? || msg.ToggleTodo?
    ensures var r := Update(s, reqId, msg);
      && r.store.lastAddedId == s.lastAddedId && r.store.filter == s.filter
      && (!HasId(s.todos, msg.id) ==> r.store.todos == s.todos)
      && (HasId(s.todos, msg.id) ==>
            exists i :: (FirstWithId(s.todos, msg.id, i) &&
              var flag := if msg.CompleteTodo? then true else if msg.RestartTodo? then false else !s.todos[i].completed;
              r.store.todos == s.todos[i := s.todos[i].(completed := flag, expiry := COMPLETED_EXPIRY_MILLIS)]))
  {
  }

  /** `CompleteAll`/`RestartAll` go through `set_completed` for every todo. */
  lemma SetAllResetsExpiry(s: Store, reqId: u64, completed: bool)
    ensures var r := Update(s, reqId, if completed then CompleteAll else RestartAll);
      && |r.store.todos| == |s.todos|
      && (forall i :: 0 <= i < |s.todos| ==>
            r.store.todos[i] == s.todos[i].(completed := completed, expiry := COMPLETED_EXPIRY_MILLIS))
      && r.store.lastAddedId == s.lastAddedId && r.store.filter == s.filter
  {
  }

  /** `RemoveCompleted` keeps exactly the uncompleted todos, in order, each
      with its countdown, and changes nothing else in the store. */
  lemma RemoveCompletedKeepsPending(s: Store, reqId: u64)
    ensures var r := Update(s, reqId, RemoveCompleted);
      && (forall t :: t in r.store.todos <==> t in s.todos && !t.completed)
      && (forall t: ExpiringTodo :: !t.completed ==> multiset(r.store.todos)[t] == multiset(s.todos)[t])
      && r.store.todos == Select(s.todos, Pending)
      && r.store.lastAddedId == s.lastAddedId && r.store.filter == s.filter && r.store.settings == s.settings
      && r.replies == [RemovedCompleted(reqId)]
  {
    SelectCounts(s.todos, Pending);
  }

  /** `SetAutoExpireCompletedTodos(b)` sets the flag to `b` and changes
      nothing else in the store. */
  lemma SetAutoExpireOnlySetsFlag(s: Store, reqId: u64, expire: bool)
    ensures Update(s, reqId, Msg.SetAutoExpireCompletedTodos(expire)).store
      == s.(settings := Settings(expire, s.settings.completedExpiryMillis))
  {
  }

  // ---------------------------------------------------------------------
  // One pass of the auto-expiry loop
  // ---------------------------------------------------------------------

  /** The u64 subtraction `expiry_millis - EXPIRY_STEP` does not underflow
      for any completed todo. */
  ghost predicate CanTick(todos: seq<ExpiringTodo>) {
    forall i :: 0 <= i < |todos| && todos[i].completed ==> todos[i].expiry >= EXPIRY_STEP
  }

  /** A countdown that is a positive multiple of the step. */
  predicate Aligned(t: ExpiringTodo) {
    t.expiry > 0 && t.expiry % EXPIRY_STEP == 0
  }

  /** Every countdown is aligned: `set_completed` and `AddTodo` start it at
      7000 and the loop takes 10 at a time. */
  ghost predicate ExpiryAligned(todos: seq<ExpiringTodo>) {
    forall t :: t in todos ==> Aligned(t)
  }

  /** The `(id, remove)` pairs the loop collects, one per completed todo in
      list order: remove when the countdown would reach zero. */
  function Decisions(todos: seq<ExpiringTodo>): (r: seq<(u32, bool)>)
    requires CanTick(todos)
    ensures |r| <= |todos|
  {
    if todos == [] then []
    else
      var rest := Decisions(todos[1..]);
      var t := todos[0];
      if t.completed then [(t.id, t.expiry - EXPIRY_STEP <= 0)] + rest else rest
  }

  /** The countdowns after the collecting pass: a completed todo whose
      countdown stays positive is stepped down; all others keep theirs. */
  function Decrement(todos: seq<ExpiringTodo>): (r: seq<ExpiringTodo>)
    requires CanTick(todos)
    ensures SameIds(todos, r)
  {
    if todos == [] then []
    else
      var t := todos[0];
      var next := t.expiry - EXPIRY_STEP;
      [if t.completed && next > 0 then t.(expiry := next) else t] + Decrement(todos[1..])
  }

  /** The ids marked for removal, in order. */
  function Removals(decisions: seq<(u32, bool)>): (r: seq<u32>)
    ensures |r| <= |decisions|
    ensures forall id :: id in r <==> (id, true) in decisions
  {
    if decisions == [] then []
    else (if decisions[0].1 then [decisions[0].0] else []) + Removals(decisions[1..])
  }

  /** The events posted for the decisions, in order. */
  function TickReplies(decisions: seq<(u32, bool)>): (r: seq<Reply>)
    ensures |r| == |decisions|
    ensures forall i :: 0 <= i < |decisions| ==>
      r[i] == if decisions[i].1 then CompletedTodoExpired else Tick(NatToString(decisions[i].0))
  {
    if decisions == [] then []
    else [if decisions[0].1 then CompletedTodoExpired else Tick(NatToString(decisions[0].0))]
         + TickReplies(decisions[1..])
  }

  /** One pass of the loop in `set_auto_expire_completed_todos`: step the
      countdowns, then `remove_todo` each expired id and post
      `CompletedTodoExpired` for it, or post `Tick(id)`. */
  function ExpiryTick(s: Store): (r: Step<Store>)
    requires CanTick(s.todos)
    ensures r.store.lastAddedId == s.lastAddedId && r.store.filter == s.filter && r.store.settings == s.settings
    ensures |r.store.todos| <= |s.todos| && |r.replies| <= |s.todos|
  {
    var decisions := Decisions(s.todos);
    Step(s.(todos := RemoveEach(Decrement(s.todos), Removals(decisions))), TickReplies(decisions))
  }

  /** What one pass should leave, todo by todo: uncompleted todos as they
      are, completed todos one step further down, and completed todos on
      their last step gone. */
  function Survivors(todos: seq<ExpiringTodo>): (r: seq<ExpiringTodo>)
    requires CanTick(todos)
  {
    if todos == [] then []
    else
      var t := todos[0];
      (if !t.completed then [t]
       else if t.expiry == EXPIRY_STEP then []
       else [t.(expiry := t.expiry - EXPIRY_STEP)]) + Survivors(todos[1..])
  }

  /** The events of one pass, todo by todo. */
  function ExpectedEvents(todos: seq<ExpiringTodo>): seq<Reply>
    requires CanTick(todos)
  {
    if todos == [] then []
    else
      var t := todos[0];
      (if !t.completed then []
       else if t.expiry == EXPIRY_STEP then [CompletedTodoExpired]
       else [Tick(NatToString(t.id))]) + ExpectedEvents(todos[1..])
  }

  /** With distinct ids, the pass removes exactly the completed todos on
      their last step, steps the other completed todos down, leaves the
      uncompleted ones alone, keeps the order, and posts one event per
      completed todo. */
  lemma ExpiryTickMatchesSurvivors(s: Store)
    requires Valid(s) && CanTick(s.todos)
    ensures ExpiryTick(s).store == s.(todos := Survivors(s.todos))
    ensures ExpiryTick(s).replies == ExpectedEvents(s.todos)
  {
    var decisions := Decisions(s.todos);
    var d := Decrement(s.todos);
    SameIdsKeepValid(s.todos, d, s.lastAddedId);
    RemoveEachIsWithout(d, Removals(decisions));
    ExpiredAre(s.todos);
    SurvivorsAreWithout(s.todos, Elements(Removals(decisions)));
    EventsMatch(s.todos);
  }

  /** Every pass keeps the id invariant, so the loop's later passes start
      from a valid store too. */
  lemma ExpiryTickKeepsValid(s: Store)
    requires Valid(s) && CanTick(s.todos)
    ensures Valid(ExpiryTick(s).store)
  {
    var d := Decrement(s.todos);
    var ids := Removals(Decisions(s.todos));
    SameIdsKeepValid(s.todos, d, s.lastAddedId);
    RemoveEachIsWithout(d, ids);
    WithoutIdsKeepsDistinct(d, Elements(ids));
    var w := WithoutIds(d, Elements(ids));
    forall i | 0 <= i < |w| ensures w[i].id <= s.lastAddedId {
      assert w[i] in d;
    }
  }

  /** A completed todo on its last step of countdown. */
  ghost predicate OnLastStep(t: ExpiringTodo) {
    t.completed && t.expiry == EXPIRY_STEP
  }

  /** Some todo with the id is on its last step. */
  ghost predicate Expires(todos: seq<ExpiringTodo>, id: u32) {
    exists i :: 0 <= i < |todos| && todos[i].id == id && OnLastStep(todos[i])
  }

  lemma ExpiresSplit(todos: seq<ExpiringTodo>, id: u32)
    requires todos != []
    ensures Expires(todos, id) <==> (OnLastStep(todos[0]) && todos[0].id == id) || Expires(todos[1..], id)
  {
    if Expires(todos, id) {
      var i :| 0 <= i < |todos| && todos[i].id == id && OnLastStep(todos[i]);
      if i > 0 {
        assert todos[1..][i - 1] == todos[i];
      }
    }
    if Expires(todos[1..], id) {
      var i :| 0 <= i < |todos[1..]| && todos[1..][i].id == id && OnLastStep(todos[1..][i]);
      assert todos[i + 1] == todos[1..][i];
    }
  }

  /** The ids the pass removes are the ids of the todos on their last step. */
  lemma {:induction false} ExpiredAre(todos: seq<ExpiringTodo>)
    requires CanTick(todos)
    ensures forall id :: id in Removals(Decisions(todos)) <==> Expires(todos, id)
    decreases |todos|
  {
    if todos != [] {
      ExpiredAre(todos[1..]);
      var t := todos[0];
      var rest := Decisions(todos[1..]);
      if t.completed {
        assert Decisions(todos) == [(t.id, t.expiry - EXPIRY_STEP <= 0)] + rest;
        assert Removals(Decisions(todos)) == (if t.expiry - EXPIRY_STEP <= 0 then [t.id] else []) + Removals(rest);
      }
      forall id
        ensures id in Removals(Decisions(todos)) <==> Expires(todos, id)
      {
        ExpiresSplit(todos, id);
      }
    }
  }

  /** With distinct ids, dropping the expiring ids from the stepped-down list
      is the reference `Survivors`. */
  lemma {:induction false} SurvivorsAreWithout(todos: seq<ExpiringTodo>, ids: set<u32>)
    requires CanTick(todos) && IdsDistinct(todos)
    requires forall id :: id in ids <==> Expires(todos, id)
    ensures WithoutIds(Decrement(todos), ids) == Survivors(todos)
    decreases |todos|
  {
    if todos != [] {
      var t := todos[0];
      var tail := todos[1..];
      DistinctTail(todos);
      var tailIds := ids - {t.id};
      forall i | 0 <= i < |tail|
        ensures tail[i].id != t.id
      {
        assert tail[i] == todos[i + 1];
      }
      assert !Expires(tail, t.id);
      forall id
        ensures id in tailIds <==> Expires(tail, id)
      {
        ExpiresSplit(todos, id);
      }
      SurvivorsAreWithout(tail, tailIds);
      var d := Decrement(todos);
      assert d == [d[0]] + Decrement(tail);
      WithoutIdsAway(Decrement(tail), ids, t.id);
      ExpiresSplit(todos, t.id);
    }
  }

  /** An id no todo has can be left out of the set to drop. */
  lemma WithoutIdsAway(todos: seq<ExpiringTodo>, ids: set<u32>, id: u32)
    requires forall i :: 0 <= i < |todos| ==> todos[i].id != id
    ensures WithoutIds(todos, ids) == WithoutIds(todos, ids - {id})
    decreases |todos|
  {
    if todos != [] {
      WithoutIdsAway(todos[1..], ids, id);
    }
  }

  lemma {:induction false} EventsMatch(todos: seq<ExpiringTodo>)
    requires CanTick(todos)
    ensures TickReplies(Decisions(todos)) == ExpectedEvents(todos)
    decreases |todos|
  {
    if todos != [] {
      EventsMatch(todos[1..]);
      var t := todos[0];
      if t.completed {
        var rest := Decisions(todos[1..]);
        assert Decisions(todos) == [(t.id, t.expiry - EXPIRY_STEP <= 0)] + rest;
        assert TickReplies(Decisions(todos)) == [if t.expiry - EXPIRY_STEP <= 0 then CompletedTodoExpired else Tick(NatToString(t.id))] + TickReplies(rest);
      }
    }
  }

  /** Aligned countdowns can always take the next step, and a step keeps
      them aligned. */
  lemma {:induction false} TickKeepsAligned(todos: seq<ExpiringTodo>)
    requires ExpiryAligned(todos)
    ensures CanTick(todos)
    ensures ExpiryAligned(Survivors(todos))
    decreases |todos|
  {
    assert CanTick(todos) by {
      forall i | 0 <= i < |todos| && todos[i].completed
        ensures todos[i].expiry >= EXPIRY_STEP
      {
        assert Aligned(todos[i]);
      }
    }
    if todos != [] {
      assert ExpiryAligned(todos[1..]) by {
        forall t | t in todos[1..] ensures Aligned(t) {
          assert t in todos;
        }
      }
      TickKeepsAligned(todos[1..]);
      assert Aligned(todos[0]);
    }
  }

  /** Replacing one todo by an aligned one keeps the list aligned. */
  lemma ReplaceKeepsAligned(todos: seq<ExpiringTodo>, i: nat, t: ExpiringTodo)
    requires ExpiryAligned(todos) && i < |todos| && Aligned(t)
    ensures ExpiryAligned(todos[i := t])
  {
    forall u | u in todos[i := t] ensures Aligned(u) {
      var k :| 0 <= k < |todos[i := t]| && todos[i := t][k] == u;
      if k != i {
        assert u == todos[k];
      }
    }
  }

  /** Removing the todo at one position keeps the list aligned. */
  lemma RemoveAtKeepsAligned(todos: seq<ExpiringTodo>, i: nat)
    requires ExpiryAligned(todos) && i < |todos|
    ensures ExpiryAligned(todos[..i] + todos[i + 1..])
  {
    forall u | u in todos[..i] + todos[i + 1..] ensures Aligned(u) {
      assert u in todos[..i] || u in todos[i + 1..];
      assert u in todos;
    }
  }

  /** Every message keeps the countdowns aligned. */
  lemma UpdateKeepsAligned(s: Store, reqId: u64, msg: Msg)
    requires CanHandle(s, msg) && ExpiryAligned(s.todos)
    ensures ExpiryAligned(Update(s, reqId, msg).store.todos)
  {
    var r := Update(s, reqId, msg).store.todos;
    match msg
    case AddTodo(title) =>
      assert forall u :: u in r ==> u in s.todos || u.expiry == COMPLETED_EXPIRY_MILLIS;
    case RemoveTodo(id) =>
      if HasId(s.todos, id) {
        RemoveTodoFirst(s.todos, id);
        var i :| FirstWithId(s.todos, id, i) && r == s.todos[..i] + s.todos[i + 1..];
        RemoveAtKeepsAligned(s.todos, i);
      }
    case RemoveCompleted =>
    case CompleteTodo(id) =>
      if HasId(s.todos, id) {
        var i :| FirstWithId(s.todos, id, i) && r == s.todos[i := Complete(true)(s.todos[i])];
        ReplaceKeepsAligned(s.todos, i, Complete(true)(s.todos[i]));
      }
    case RestartTodo(id) =>
      if HasId(s.todos, id) {
        var i :| FirstWithId(s.todos, id, i) && r == s.todos[i := Complete(false)(s.todos[i])];
        ReplaceKeepsAligned(s.todos, i, Complete(false)(s.todos[i]));
      }
    case ToggleTodo(id) =>
      if HasId(s.todos, id) {
        var i :| FirstWithId(s.todos, id, i) && r == s.todos[i := Toggle()(s.todos[i])];
        ReplaceKeepsAligned(s.todos, i, Toggle()(s.todos[i]));
      }
    case CompleteAll =>
      assert forall k :: 0 <= k < |r| ==> r[k].expiry == COMPLETED_EXPIRY_MILLIS;
    case RestartAll =>
      assert forall k :: 0 <= k < |r| ==> r[k].expiry == COMPLETED_EXPIRY_MILLIS;
    case SetFilter(_) =>
    case SetAutoExpireCompletedTodos(_) =>
  }
}

=== FILE: cubit_wasm_todo.dfy ===
/** The todo store of the WebAssembly Cubit example
    (flutter/todo_cubit_wasm/src/lib.rs): the Cubit store with the
    auto-expiry feature switched off, whose replies go to the reply queue
    instead of a callback. */
module CubitWasmTodo {
  import opened Ints
  import opened Wrappers
  import opened Decimal
  import opened TodoList
  import opened TodoProtocol
  import CubitTodo
  import opened ReplyQueue

  type Store = CubitTodo.Store

  const AUTO_EXPIRE_DISABLED := "The Auto Expire Todos feature has been disabled in the WASM version"

  function Create(): (s: Store)
    ensures s == CubitTodo.Create()
  {
    CubitTodo.Create()
  }

  /** `update(req_id, msg)` with the queue it posts into: every message but
      `SetAutoExpireCompletedTodos` behaves as in the Cubit store and posts
      its one reply; that one panics and leaves store and queue untouched. */
  function Update(s: Store, q: Queue, reqId: u64, msg: Msg): (r: Outcome<(Store, Queue)>)
    requires CubitTodo.CanHandle(s, msg)
    ensures r.Panicked? <==> msg.SetAutoExpireCompletedTodos?
    ensures r.Panicked? ==> r.message == AUTO_EXPIRE_DISABLED
    ensures r.Returned? ==> r.result.Ok? && |r.result.value.1| == |q| + 1 && r.result.value.1[..|q|] == q
    ensures r.Returned? ==> r.result.value.1[|q|].reqId == reqId && r.result.value.0.settings == s.settings
    ensures r.Returned? ==> r.result.value.0 == CubitTodo.Update(s, reqId, msg).store
  {
    if msg.SetAutoExpireCompletedTodos? then Panicked(AUTO_EXPIRE_DISABLED)
    else
      var step := CubitTodo.Update(s, reqId, msg);
      Returned(Ok((step.store, Post(q, step.replies[0]))))
  }

  function TodoById(s: Store, id: u32): (r: Option<CubitTodo.ExpiringTodo>)
    ensures r.Some? <==> HasId(s.todos, id)
    ensures r.Some? ==> exists i :: FirstWithId(s.todos, id, i) && r.value == s.todos[i]
  {
    CubitTodo.TodoById(s, id)
  }

  function FilteredTodos(s: Store): (r: seq<CubitTodo.ExpiringTodo>)
    ensures SortedById(r)
    ensures forall t :: t in r <==> t in s.todos && Matches(s.filter, t)
    ensures forall t :: multiset(r)[t] == if Matches(s.filter, t) then multiset(s.todos)[t] else 0
  {
    CubitTodo.FilteredTodos(s)
  }

  /** The auto-expiry flag is never switched on, so no expiry loop ever runs
      and countdowns never move. */
  lemma AutoExpireStaysOff(s: Store, q: Queue, reqId: u64, msg: Msg)
    requires CubitTodo.CanHandle(s, msg) && !s.settings.autoExpireCompletedTodos
    ensures var r := Update(s, q, reqId, msg);
      r.Returned? ==> !r.result.value.0.settings.autoExpireCompletedTodos
  {
  }

  /** The Dart side reads back exactly the reply the Cubit store gives, and
      marking that request handled leaves the queue as it was. */
  lemma ReplyRoundTrip(s: Store, q: Queue, reqId: u64, msg: Msg)
    requires CubitTodo.CanHandle(s, msg) && !msg.SetAutoExpireCompletedTodos?
    ensures var r := Update(s, q, reqId, msg);
      var reply := CubitTodo.Update(s, reqId, msg).replies[0];
      && r.Returned?
      && ToReply(r.result.value.1[|q|]) == Some(reply)
      && HandledReply(r.result.value.1, reqId) == HandledReply(q, reqId)
  {
    var reply := CubitTodo.Update(s, reqId, msg).replies[0];
    DecodeEncode(reply);
    PostThenHandled(q, reply, reqId);
  }

  /** `RemoveCompleted` keeps exactly the uncompleted todos, in order, and
      queues `RemovedCompleted` for the request behind the queued replies. */
  lemma RemoveCompletedKeepsPending(s: Store, q: Queue, reqId: u64)
    ensures var r := Update(s, q, reqId, RemoveCompleted);
      && r.IsOk()
      && (forall t :: t in r.result.value.0.todos <==> t in s.todos && !t.completed)
      && (forall t: CubitTodo.ExpiringTodo :: !t.completed ==>
            multiset(r.result.value.0.todos)[t] == multiset(s.todos)[t])
      && r.result.value.0 == s.(todos := Select(s.todos, Pending))
      && r.result.value.1[..|q|] == q && ToReply(r.result.value.1[|q|]) == Some(RemovedCompleted(reqId))
  {
    CubitTodo.RemoveCompletedKeepsPending(s, reqId);
    DecodeEncode(RemovedCompleted(reqId));
  }

  /** The store keeps its id invariant. */
  lemma UpdateKeepsValid(s: Store, q: Queue, reqId: u64, msg: Msg)
    requires CubitTodo.CanHandle(s, msg) && CubitTodo.Valid(s)
    ensures var r := Update(s, q, reqId, msg);
      r.Returned? ==> CubitTodo.Valid(r.result.value.0)
  {
    CubitTodo.UpdateKeepsValid(s, reqId, msg);
  }
}

=== FILE: dart_ticker.dfy ===
/** The store of the Dart-side reddit ticker (wip/reddit_ticker/dart/src/app.rs):
    watched posts keyed by id, each with its raw scores. Unlike the Rust
    ticker it has no database and no guard on starting the poll loop. */
module DartTicker {
  import opened Ints
  import opened Wrappers
  import opened RedditTypes
  import opened Keyed

  const FAILED_PAGE := "Failed to get page: "
  const ERROR_SEP := "\nError: "

  datatype Store = Store(posts: map<string, PlainPost>)

  datatype Msg = InitializeTicker | StartWatching(url: string) | StopWatching(id: string)

  datatype Reply =
    | InitializedTicker(reqId: u64)
    | StartedWatching(reqId: u64, id: string)
    | StoppedWatching(reqId: u64, id: string)
    | FailedRequest(reqId: u64, message: string)
    | UpdatedScores

  function PostKey(p: PlainPost): string {
    p.id
  }

  ghost predicate Valid(s: Store) {
    KeysMatch(s.posts, PostKey)
  }

  function Create(): (s: Store)
    ensures s.posts == map[] && Valid(s)
  {
    Store(map[])
  }

  function Update(s: Store, reqId: u64, msg: Msg): (r: Step<Store, Reply>)
    ensures msg.InitializeTicker? ==> r.store == s && r.replies == [InitializedTicker(reqId)] && r.spawned == [PollLoop]
    ensures msg.StartWatching? ==> r.store == s && r.replies == [] && r.spawned == [Watch(reqId, msg.url)]
    ensures msg.StopWatching? ==> r.replies == [StoppedWatching(reqId, msg.id)] && r.spawned == []
  {
    match msg
    case InitializeTicker => Step(s, [InitializedTicker(reqId)], [PollLoop])
    case StartWatching(url) => Step(s, [], [Watch(reqId, url)])
    case StopWatching(id) => Step(s.(posts := s.posts - {id}), [StoppedWatching(reqId, id)], [])
  }

  /** The threads started by a run of messages (all under one request id). */
  function Spawned(s: Store, reqId: u64, msgs: seq<Msg>): seq<Task>
    decreases |msgs|
  {
    if msgs == [] then []
    else
      var step := Update(s, reqId, msgs[0]);
      step.spawned + Spawned(step.store, reqId, msgs[1..])
  }

  /** Every `InitializeTicker` starts one more poll loop: n of them start n. */
  lemma {:induction false} EveryInitializeSpawnsPoller(s: Store, reqId: u64, n: nat)
    ensures Spawned(s, reqId, seq(n, _ => InitializeTicker)) == seq(n, _ => PollLoop)
    decreases n
  {
    if n > 0 {
      var msgs := seq(n, _ => InitializeTicker);
      assert msgs[1..] == seq(n - 1, _ => InitializeTicker);
      EveryInitializeSpawnsPoller(s, reqId, n - 1);
      assert seq(n, _ => PollLoop) == [PollLoop] + seq(n - 1, _ => PollLoop);
    }
  }

  /** `StopWatching(id)` removes that one key and keeps every other entry. */
  lemma StopWatchingFrame(s: Store, reqId: u64, id: string)
    ensures var r := Update(s, reqId, StopWatching(id)).store;
      && id !in r.posts
      && (forall k :: k != id ==> (k in r.posts <==> k in s.posts))
      && (forall k :: k != id && k in s.posts ==> r.posts[k] == s.posts[k])
  {
  }

  /** `try_start_watching(url)` given the outcome of `query_page(url)`. */
  function TryStartWatching(url: string, page: Outcome<Page>): (r: Outcome<PlainPost>)
    ensures r.Panicked? <==> page.Panicked?
    ensures page.IsOk() ==> r == Returned(Ok(PlainPost(page.result.value.id, page.result.value.title, page.result.value.url, [])))
    ensures page.Returned? && page.result.Err? ==>
      r == Returned(Err(FAILED_PAGE + url + ERROR_SEP + page.result.error))
  {
    match page
    case Panicked(m) => Panicked(m)
    case Returned(Err(e)) => Returned(Err(FAILED_PAGE + url + ERROR_SEP + e))
    case Returned(Ok(p)) => Returned(Ok(PlainPost(p.id, p.title, p.url, [])))
  }

  /** The watch thread for `StartWatching(url)`: insert under the id and
      reply, or reply with the error; a panic ends the thread silently. */
  function WatchThread(s: Store, reqId: u64, url: string, page: Outcome<Page>): (r: Step<Store, Reply>)
    ensures r.spawned == []
    ensures page.Panicked? ==> r.store == s && r.replies == []
    ensures page.IsOk() ==>
      (r.store.posts == s.posts[page.result.value.id := TryStartWatching(url, page).result.value] &&
       r.replies == [StartedWatching(reqId, page.result.value.id)])
    ensures page.Returned? && page.result.Err? ==>
      r.store == s && r.replies == [FailedRequest(reqId, FAILED_PAGE + url + ERROR_SEP + page.result.error)]
  {
    match TryStartWatching(url, page)
    case Panicked(_) => Step(s, [], [])
    case Returned(Ok(post)) => Step(s.(posts := s.posts[post.id := post]), [StartedWatching(reqId, post.id)], [])
    case Returned(Err(e)) => Step(s, [FailedRequest(reqId, e)], [])
  }

  /** Every message and every watch thread keeps each post under its id. */
  lemma KeepsValid(s: Store, reqId: u64, msg: Msg, url: string, page: Outcome<Page>)
    requires Valid(s)
    ensures Valid(Update(s, reqId, msg).store)
    ensures Valid(WatchThread(s, reqId, url, page).store)
  {
  }

  // ---------------------------------------------------------------------
  // One turn of the poll loop
  // ---------------------------------------------------------------------

  /** The values a list of fetched scores gives post `id`, in order. */
  function ValuesFor(scores: seq<(string, i64)>, id: string): (r: seq<i64>)
    ensures |r| <= |scores|
  {
    if scores == [] then []
    else (if scores[0].0 == id then [scores[0].1] else []) + ValuesFor(scores[1..], id)
  }

  /** The write loop with the missing-post case skipped. */
  function PushScores(posts: map<string, PlainPost>, scores: seq<(string, i64)>): (r: map<string, PlainPost>)
    ensures r.Keys == posts.Keys
    decreases |scores|
  {
    if scores == [] then posts
    else
      var id := scores[0].0;
      var next := if id in posts then posts[id := posts[id].(scores := posts[id].scores + [scores[0].1])] else posts;
      PushScores(next, scores[1..])
  }

  /** Every post ends with its old scores followed by the fetched values for
      it, in fetch order. */
  lemma {:induction false} PushScoresEntry(posts: map<string, PlainPost>, scores: seq<(string, i64)>, k: string)
    requires k in posts
    ensures PushScores(posts, scores)[k] == posts[k].(scores := posts[k].scores + ValuesFor(scores, k))
    decreases |scores|
  {
    if scores == [] {
      assert posts[k].scores + [] == posts[k].scores;
    } else {
      var id := scores[0].0;
      var next := if id in posts then posts[id := posts[id].(scores := posts[id].scores + [scores[0].1])] else posts;
      var p := posts[k];
      var q := if k == id then p.(scores := p.scores + [scores[0].1]) else p;
      assert next[k] == q;
      assert PushScores(posts, scores) == PushScores(next, scores[1..]);
      PushScoresEntry(next, scores[1..], k);
      PushHead(p, scores, k);
    }
  }

  /** Recording the first fetched value, then the rest, is recording all. */
  lemma PushHead(p: PlainPost, scores: seq<(string, i64)>, k: string)
    requires scores != []
    ensures var q := if k == scores[0].0 then p.(scores := p.scores + [scores[0].1]) else p;
      q.(scores := q.scores + ValuesFor(scores[1..], k)) == p.(scores := p.scores + ValuesFor(scores, k))
  {
    var rest := ValuesFor(scores[1..], k);
    if k == scores[0].0 {
      assert ValuesFor(scores, k) == [scores[0].1] + rest;
      assert p.scores + [scores[0].1] + rest == p.scores + ([scores[0].1] + rest);
    }
  }

  /** One turn of the poll loop, with a missing post skipped. */
  function PollCycle(s: Store, results: seq<(string, Result<i64>)>): (r: Step<Store, Reply>)
    ensures r.replies == [UpdatedScores] && r.spawned == []
    ensures r.store.posts.Keys == s.posts.Keys
    ensures forall k :: k in s.posts && (forall v :: (k, Ok(v)) !in results) ==> r.store.posts[k] == s.posts[k]
  {
    var f := Fetched(results);
    var r := Step(s.(posts := PushScores(s.posts, f)), [UpdatedScores], []);
    assert forall k :: k in s.posts && (forall v :: (k, Ok(v)) !in results) ==> r.store.posts[k] == s.posts[k] by {
      forall k | k in s.posts && (forall v :: (k, Ok(v)) !in results)
        ensures r.store.posts[k] == s.posts[k]
      {
        PushScoresEntry(s.posts, f, k);
        ValuesForAbsent(f, k);
        assert s.posts[k].scores + [] == s.posts[k].scores;
      }
    }
    r
  }

  lemma {:induction false} ValuesForAbsent(scores: seq<(string, i64)>, id: string)
    requires forall v :: (id, v) !in scores
    ensures ValuesFor(scores, id) == []
    decreases |scores|
  {
    if scores != [] {
      assert scores[0] in scores;
      ValuesForAbsent(scores[1..], id);
    }
  }

  /** The write loop as written: `get_mut(&id).unwrap()` panics for a post
      that is no longer watched. */
  function PushScoresAsWritten(posts: map<string, PlainPost>, scores: seq<(string, i64)>): (r: Outcome<map<string, PlainPost>>)
    ensures r.Panicked? <==> exists i :: 0 <= i < |scores| && scores[i].0 !in posts
    ensures r.Returned? ==> r.result.Ok? && r.result.value.Keys == posts.Keys
    decreases |scores|
  {
    if scores == [] then Returned(Ok(posts))
    else
      var id := scores[0].0;
      if id !in posts then Panicked(UNWRAP_NONE)
      else
        var next := posts[id := posts[id].(scores := posts[id].scores + [scores[0].1])];
        var r := PushScoresAsWritten(next, scores[1..]);
        assert (exists i :: 0 <= i < |scores| && scores[i].0 !in posts) <==>
               (exists i :: 0 <= i < |scores[1..]| && scores[1..][i].0 !in next) by {
          if exists i :: 0 <= i < |scores| && scores[i].0 !in posts {
            var i :| 0 <= i < |scores| && scores[i].0 !in posts;
            assert scores[1..][i - 1] == scores[i];
          }
          if exists i :: 0 <= i < |scores[1..]| && scores[1..][i].0 !in next {
            var i :| 0 <= i < |scores[1..]| && scores[1..][i].0 !in next;
            assert scores[i + 1] == scores[1..][i];
          }
        }
        r
  }

  /** The poll cycle as written: the first fetch that panics ends the poll
      thread with nothing written and no reply; otherwise the successful
      scores go through the write loop as written. */
  function PollCycleAsWritten(s: Store, fetches: seq<(string, Outcome<i64>)>): (r: Outcome<Step<Store, Reply>>)
    ensures forall i :: FirstPanicAt(Outcomes(fetches), i) ==> r == Panicked(fetches[i].1.message)
    ensures r.Returned? ==> r.result.Ok? && r.result.value.replies == [UpdatedScores] && r.result.value.spawned == []
    ensures r.Returned? ==> r.result.value.store.posts.Keys == s.posts.Keys
    ensures r.Panicked? <==>
      (exists i :: 0 <= i < |fetches| && fetches[i].1.Panicked?) ||
      (exists i :: 0 <= i < |fetches| && fetches[i].1.IsOk() && fetches[i].0 !in s.posts)
  {
    match FirstPanic(Outcomes(fetches))
    case Some(m) => Panicked(m)
    case None =>
      var results := Settled(fetches);
      var scores := Fetched(results);
      var written := PushScoresAsWritten(s.posts, scores);
      assert written.Panicked? <==> exists i :: 0 <= i < |fetches| && fetches[i].1.IsOk() && fetches[i].0 !in s.posts by {
        if written.Panicked? {
          var k :| 0 <= k < |scores| && scores[k].0 !in s.posts;
          assert scores[k] in scores;
          assert (scores[k].0, Ok(scores[k].1)) in results;
          var i :| 0 <= i < |results| && results[i] == (scores[k].0, Ok(scores[k].1));
          assert fetches[i].1.IsOk() && fetches[i].0 == scores[k].0;
        }
        if exists i :: 0 <= i < |fetches| && fetches[i].1.IsOk() && fetches[i].0 !in s.posts {
          var i :| 0 <= i < |fetches| && fetches[i].1.IsOk() && fetches[i].0 !in s.posts;
          assert results[i] == (fetches[i].0, Ok(fetches[i].1.result.value));
          assert (fetches[i].0, fetches[i].1.result.value) in scores;
          var k :| 0 <= k < |scores| && scores[k] == (fetches[i].0, fetches[i].1.result.value);
        }
      }
      if written.Panicked? then Panicked(written.message)
      else Returned(Ok(Step(s.(posts := written.result.value), [UpdatedScores], [])))
  }

  /** With every fetched id still watched the two loops agree. */
  lemma {:induction false} PushScoresAgree(posts: map<string, PlainPost>, scores: seq<(string, i64)>)
    requires forall i :: 0 <= i < |scores| ==> scores[i].0 in posts
    ensures PushScoresAsWritten(posts, scores) == Returned(Ok(PushScores(posts, scores)))
    decreases |scores|
  {
    if scores != [] {
      var id := scores[0].0;
      var next := posts[id := posts[id].(scores := posts[id].scores + [scores[0].1])];
      assert forall i :: 0 <= i < |scores[1..]| ==> scores[1..][i].0 in next by {
        forall i | 0 <= i < |scores[1..]| ensures scores[1..][i].0 in next {
          assert scores[1..][i] == scores[i + 1];
        }
      }
      PushScoresAgree(next, scores[1..]);
    }
  }

  /** Every fetch returned and each fetched id is still watched: the
      cycle as written is the corrected one. */
  lemma PollCycleAgree(s: Store, fetches: seq<(string, Outcome<i64>)>)
    requires forall i :: 0 <= i < |fetches| ==> fetches[i].1.Returned?
    requires forall i :: 0 <= i < |fetches| && fetches[i].1.IsOk() ==> fetches[i].0 in s.posts
    ensures PollCycleAsWritten(s, fetches) == Returned(Ok(PollCycle(s, Settled(fetches))))
  {
    var results := Settled(fetches);
    var f := Fetched(results);
    forall i | 0 <= i < |f| ensures f[i].0 in s.posts {
      assert f[i] in f;
      assert (f[i].0, Ok(f[i].1)) in results;
      var j :| 0 <= j < |results| && results[j] == (f[i].0, Ok(f[i].1));
      assert fetches[j].1.IsOk();
    }
    PushScoresAgree(s.posts, f);
  }

  /** A `StopWatching` between reading the ids and writing the scores makes
      the source's loop panic and end the poll thread; the corrected loop
      skips the stopped post. */
  lemma PollRaceWithStopWatching()
    ensures var before := Store(map["t3_a" := PlainPost("t3_a", "title", "https://a", [])]);
      var fetches: seq<(string, Outcome<i64>)> := [("t3_a", Returned(Ok(5)))];
      var after := Update(before, 1, StopWatching("t3_a")).store;
      && (forall i :: 0 <= i < |fetches| ==> fetches[i].0 in before.posts)
      && PollCycleAsWritten(after, fetches) == Panicked(UNWRAP_NONE)
      && PollCycle(after, Settled(fetches)).store == after
  {
    var fetches: seq<(string, Outcome<i64>)> := [("t3_a", Returned(Ok(5)))];
    assert Settled(fetches) == [("t3_a", Ok(5))];
    assert Fetched(Settled(fetches)) == [("t3_a", 5)];
  }
}

=== FILE: dart_todo.dfy ===
/** The todo store of the Dart command-line example (dart/todo/src/app.rs):
    an empty list to start with, plain todos, and no reply when a removal
    misses. */
module DartTodo {
  import opened Ints
  import opened Decimal
  import opened TodoList
  import opened TodoProtocol

  type PlainTodo = Todo<()>

  datatype Store = Store(lastAddedId: u32, todos: seq<PlainTodo>, filter: Filter)

  ghost predicate Valid(s: Store) {
    IdsValid(s.todos, s.lastAddedId)
  }

  /** The messages of this store's `Msg` enum. */
  predicate Accepts(msg: Msg) {
    !msg.SetAutoExpireCompletedTodos?
  }

  /** What `update` needs to run without panicking: an accepted message, and
      room in the u32 counter for `AddTodo` (`+= 1` overflows otherwise). */
  predicate CanHandle(s: Store, msg: Msg) {
    Accepts(msg) && (msg.AddTodo? ==> s.lastAddedId + 1 < U32_LIMIT)
  }

  function Create(): (s: Store)
    ensures s.todos == [] && s.lastAddedId == 0 && s.filter == All
    ensures Valid(s)
  {
    Store(0, [], All)
  }

  /** The change `set_completed` makes: the flag is set, nothing else moves. */
  function SetCompleted(completed: bool): (r: PlainTodo -> PlainTodo)
    ensures forall t :: r(t).completed == completed && r(t).id == t.id && r(t).title == t.title
  {
    (t: PlainTodo) => t.(completed := completed)
  }

  /** The change a toggle makes: the flag flips, nothing else moves. */
  function Toggle(): (r: PlainTodo -> PlainTodo)
    ensures forall t :: r(t).completed == !t.completed && r(t).id == t.id && r(t).title == t.title
  {
    (t: PlainTodo) => t.(completed := !t.completed)
  }

  function Update(s: Store, reqId: u64, msg: Msg): (r: Step<Store>)
    requires CanHandle(s, msg)
    ensures |r.replies| <= 1
    ensures forall i :: 0 <= i < |r.replies| ==> AnswersRequest(r.replies[i], reqId)
    ensures r.replies == [] <==> msg.RemoveTodo? && !HasId(s.todos, msg.id)
  {
    match msg
    case AddTodo(title) =>
      var id := s.lastAddedId + 1;
      Step(s.(lastAddedId := id, todos := s.todos + [Todo(id, title, false, ())]),
           [AddedTodo(reqId, NatToString(id))])
    case RemoveTodo(id) =>
      if IndexOf(s.todos, id).None? then Step(s, [])
      else Step(s.(todos := TodoList.RemoveTodo(s.todos, id)),
                [RemovedTodo(reqId, NatToString(s.lastAddedId))])
    case RemoveCompleted =>
      Step(s.(todos := Select(s.todos, Pending)), [RemovedCompleted(reqId)])
    case CompleteTodo(id) =>
      Step(s.(todos := UpdateTodo(s.todos, id, SetCompleted(true))), [CompletedTodo(reqId, NatToString(id))])
    case RestartTodo(id) =>
      Step(s.(todos := UpdateTodo(s.todos, id, SetCompleted(false))), [RestartedTodo(reqId, NatToString(id))])
    case ToggleTodo(id) =>
      Step(s.(todos := UpdateTodo(s.todos, id, Toggle())), [ToggledTodo(reqId, NatToString(id))])
    case CompleteAll =>
      Step(s.(todos := UpdateAll(s.todos, SetCompleted(true))), [CompletedAll(reqId)])
    case RestartAll =>
      Step(s.(todos := UpdateAll(s.todos, SetCompleted(false))), [RestartedAll(reqId)])
    case SetFilter(filter) =>
      Step(s.(filter := filter), [Reply.SetFilter(reqId)])
  }

  /** The Dart app's own `filtered_todos`, the same code as the Cubit
      store's, so both delegate to `TodoList.FilteredTodos`. */
  function FilteredTodos(s: Store): (r: seq<PlainTodo>)
    ensures SortedById(r)
    ensures forall t :: t in r <==> t in s.todos && Matches(s.filter, t)
    ensures forall t :: multiset(r)[t] == if Matches(s.filter, t) then multiset(s.todos)[t] else 0
  {
    TodoList.FilteredTodos(s.todos, s.filter)
  }

  /** Every message keeps the id invariant. */
  lemma UpdateKeepsValid(s: Store, reqId: u64, msg: Msg)
    requires CanHandle(s, msg) && Valid(s)
    ensures Valid(Update(s, reqId, msg).store)
  {
    match msg
    case AddTodo(title) =>
      AppendFreshKeepsValid(s.todos, Todo(s.lastAddedId + 1, title, false, ()), s.lastAddedId);
    case RemoveTodo(id) =>
      RemoveTodoKeepsValid(s.todos, id, s.lastAddedId);
    case RemoveCompleted =>
      SelectKeepsValid(s.todos, Pending, s.lastAddedId);
    case CompleteTodo(id) =>
      UpdateTodoKeepsIds(s.todos, id, SetCompleted(true));
      SameIdsKeepValid(s.todos, UpdateTodo(s.todos, id, SetCompleted(true)), s.lastAddedId);
    case RestartTodo(id) =>
      UpdateTodoKeepsIds(s.todos, id, SetCompleted(false));
      SameIdsKeepValid(s.todos, UpdateTodo(s.todos, id, SetCompleted(false)), s.lastAddedId);
    case ToggleTodo(id) =>
      UpdateTodoKeepsIds(s.todos, id, Toggle());
      SameIdsKeepValid(s.todos, UpdateTodo(s.todos, id, Toggle()), s.lastAddedId);
    case CompleteAll =>
      UpdateTodoKeepsIds(s.todos, 0, SetCompleted(true));
      SameIdsKeepValid(s.todos, UpdateAll(s.todos, SetCompleted(true)), s.lastAddedId);
    case RestartAll =>
      UpdateTodoKeepsIds(s.todos, 0, SetCompleted(false));
      SameIdsKeepValid(s.todos, UpdateAll(s.todos, SetCompleted(false)), s.lastAddedId);
    case SetFilter(_) =>
  }

  /** `AddTodo` takes the next id, which no todo has yet, and appends one
      uncompleted todo; the reply carries the new id. */
  lemma AddTodoAppends(s: Store, reqId: u64, title: string)
    requires Valid(s) && s.lastAddedId + 1 < U32_LIMIT
    ensures var r := Update(s, reqId, AddTodo(title));
      var id := s.lastAddedId + 1;
      && r.store.lastAddedId == id
      && r.store.todos == s.todos + [Todo(id, title, false, ())]
      && !HasId(s.todos, id)
      && r.store.filter == s.filter
      && r.replies == [AddedTodo(reqId, NatToString(id))]
  {
  }

  /** `RemoveTodo` deletes the todo with that id and keeps the others in
      order; an unknown id changes nothing and is not answered. */
  lemma RemoveTodoDeletes(s: Store, reqId: u64, id: u32)
    requires Valid(s)
    ensures var r := Update(s, reqId, RemoveTodo(id));
      && (!HasId(s.todos, id) ==> r == Step(s, []))
      && (HasId(s.todos, id) ==>
            && |r.store.todos| == |s.todos| - 1
            && (forall t :: t in r.store.todos <==> t in s.todos && t.id != id)
            && (exists i :: FirstWithId(s.todos, id, i) && r.store.todos == s.todos[..i] + s.todos[i + 1..])
            && r.store.lastAddedId == s.lastAddedId && r.store.filter == s.filter
            && r.replies == [RemovedTodo(reqId, NatToString(s.lastAddedId))])
  {
    RemoveTodoExact(s.todos, id);
  }

  /** `RemoveCompleted` keeps exactly the uncompleted todos, in order. */
  lemma RemoveCompletedKeepsPending(s: Store, reqId: u64)
    ensures var r := Update(s, reqId, RemoveCompleted);
      && (forall t :: t in r.store.todos <==> t in s.todos && !t.completed)
      && (forall t: PlainTodo :: !t.completed ==> multiset(r.store.todos)[t] == multiset(s.todos)[t])
      && r.store.todos == Select(s.todos, Pending)
      && r.store.lastAddedId == s.lastAddedId && r.store.filter == s.filter
      && r.replies == [RemovedCompleted(reqId)]
  {
    SelectCounts(s.todos, Pending);
  }

  /** `CompleteTodo`, `RestartTodo` and `ToggleTodo` change the `completed`
      flag of the first todo with the id and nothing else; an unknown id
      changes nothing, but the message is answered either way. */
  lemma CompletionTouchesOnlyTarget(s: Store, reqId: u64, msg: Msg)
    requires msg.CompleteTodo? || msg.RestartTodo? || msg.ToggleTodo?
    ensures var r := Update(s, reqId, msg);
      var flag := (t: PlainTodo) => if msg.CompleteTodo? then true else if msg.RestartTodo? then false else !t.completed;
      && r.store.lastAddedId == s.lastAddedId && r.store.filter == s.filter
      && |r.replies| == 1
      && (!HasId(s.todos, msg.id) ==> r.store.todos == s.todos)
      && (HasId(s.todos, msg.id) ==>
            exists i :: (FirstWithId(s.todos, msg.id, i) &&
              r.store.todos == s.todos[i := s.todos[i].(completed := flag(s.todos[i]))]))
  {
  }

  /** `CompleteAll` and `RestartAll` set every flag; length, order, ids and
      titles stay. */
  lemma SetAllCompletion(s: Store, reqId: u64, completed: bool)
    ensures var r := Update(s, reqId, if completed then CompleteAll else RestartAll);
      && |r.store.todos| == |s.todos|
      && (forall i :: 0 <= i < |s.todos| ==>
            r.store.todos[i] == s.todos[i].(completed := completed))
      && r.store.lastAddedId == s.lastAddedId && r.store.filter == s.filter
      && r.replies == [if completed then CompletedAll(reqId) else RestartedAll(reqId)]
  {
  }
}

=== FILE: decimal.dfy ===
/** Rust's `to_string()` on unsigned integers: plain decimal digits, no sign,
    no leading zeros. Replies and `Display` impls carry ids rendered this way. */
module Decimal {

  predicate IsDigit(c: char) {
    '0' <= c <= '9'
  }

  predicate AllDigits(s: string) {
    forall i :: 0 <= i < |s| ==> IsDigit(s[i])
  }

  function DigitChar(d: nat): (c: char)
    requires d < 10
    ensures IsDigit(c)
  {
    (48 + d) as char
  }

  function DigitValue(c: char): (d: nat)
    requires IsDigit(c)
    ensures d < 10
  {
    c as int - 48
  }

  /** The decimal rendering of `n`. */
  function NatToString(n: nat): (s: string)
    ensures |s| > 0
    ensures AllDigits(s)
    ensures |s| > 1 ==> s[0] != '0'
    decreases n
  {
    if n < 10 then [DigitChar(n)] else NatToString(n / 10) + [DigitChar(n % 10)]
  }

  /** The value of a run of decimal digits (the partner of `NatToString`). */
  function ParseDigits(s: string): nat
    requires AllDigits(s)
  {
    if s == [] then 0 else 10 * ParseDigits(s[..|s| - 1]) + DigitValue(s[|s| - 1])
  }

  /** Reading back a rendered number gives the number. */
  lemma {:induction false} ParseNatToString(n: nat)
    ensures ParseDigits(NatToString(n)) == n
    decreases n
  {
    var s := NatToString(n);
    if n < 10 {
      assert s == [DigitChar(n)];
      assert s[..0] == [];
    } else {
      ParseNatToString(n / 10);
      assert s[..|s| - 1] == NatToString(n / 10);
    }
  }

  /** Distinct numbers render differently. */
  lemma NatToStringInjective(m: nat, n: nat)
    ensures NatToString(m) == NatToString(n) ==> m == n
  {
    ParseNatToString(m);
    ParseNatToString(n);
  }

  /** The length of the longest prefix of `s` made of digits. */
  function DigitRun(s: string): (k: nat)
    ensures k <= |s|
    ensures AllDigits(s[..k])
    ensures k < |s| ==> !IsDigit(s[k])
  {
    if s == [] || !IsDigit(s[0]) then 0
    else
      var k := 1 + DigitRun(s[1..]);
      assert s[..k] == [s[0]] + s[1..][..k - 1];
      k
  }

  /** A digit run followed by a non-digit is found exactly. */
  lemma {:induction false} DigitRunOfPrefix(d: string, rest: string)
    requires AllDigits(d)
    requires rest != [] && !IsDigit(rest[0])
    ensures DigitRun(d + rest) == |d|
    decreases |d|
  {
    if d != [] {
      var s := d + rest;
      assert s[0] == d[0] && IsDigit(s[0]);
      assert s[1..] == d[1..] + rest;
      assert AllDigits(d[1..]) by {
        forall i | 0 <= i < |d[1..]| ensures IsDigit(d[1..][i]) {
          assert d[1..][i] == d[i + 1];
        }
      }
      DigitRunOfPrefix(d[1..], rest);
      assert DigitRun(s) == 1 + DigitRun(s[1..]);
    } else {
      assert d + rest == rest;
    }
  }
}

=== FILE: keyed.dfy ===
/** Building a `HashMap` keyed by each item's own key, inserting in order so
    that a later item replaces an earlier one with the same key, and
    splitting a list of results into successes and failures. */
module Keyed {
  import opened Wrappers

  /** `items[i]` is the last item with key `k`. */
  ghost predicate LastWithKey<V>(items: seq<V>, key: V -> string, k: string, i: int) {
    0 <= i < |items| && key(items[i]) == k &&
    forall j :: i < j < |items| ==> key(items[j]) != k
  }

  /** Every entry sits under its own key. */
  ghost predicate KeysMatch<V>(m: map<string, V>, key: V -> string) {
    forall k :: k in m ==> key(m[k]) == k
  }

  /** Some item has key `k`. */
  ghost predicate HasKey<V>(items: seq<V>, key: V -> string, k: string) {
    exists i :: 0 <= i < |items| && key(items[i]) == k
  }

  lemma HasKeySnoc<V>(items: seq<V>, key: V -> string, k: string)
    requires items != []
    ensures HasKey(items, key, k) <==>
      key(items[|items| - 1]) == k || HasKey(items[..|items| - 1], key, k)
  {
    var init := items[..|items| - 1];
    if HasKey(items, key, k) {
      var i :| 0 <= i < |items| && key(items[i]) == k;
      if i < |init| {
        assert key(init[i]) == k;
      }
    }
    if HasKey(init, key, k) {
      var i :| 0 <= i < |init| && key(init[i]) == k;
      assert items[i] == init[i];
    }
  }

  /** `for item in items { map.insert(key(item), item) }` on an empty map. */
  function Index<V>(items: seq<V>, key: V -> string): (m: map<string, V>)
    ensures KeysMatch(m, key)
    ensures forall k :: k in m <==> HasKey(items, key, k)
    decreases |items|
  {
    if items == [] then map[]
    else
      var init := items[..|items| - 1];
      var last := items[|items| - 1];
      var m := Index(init, key)[key(last) := last];
      assert forall k :: k in m <==> HasKey(items, key, k) by {
        forall k ensures k in m <==> HasKey(items, key, k) {
          HasKeySnoc(items, key, k);
        }
      }
      m
  }

  /** Later items win: the entry under a key is the last item with it. */
  lemma {:induction false} IndexLast<V>(items: seq<V>, key: V -> string, k: string)
    requires k in Index(items, key)
    ensures exists i :: LastWithKey(items, key, k, i) && Index(items, key)[k] == items[i]
    decreases |items|
  {
    var init := items[..|items| - 1];
    var last := items[|items| - 1];
    assert Index(items, key) == Index(init, key)[key(last) := last];
    if k == key(last) {
      assert LastWithKey(items, key, k, |items| - 1);
    } else {
      IndexLast(init, key, k);
      var i :| LastWithKey(init, key, k, i) && Index(init, key)[k] == init[i];
      assert LastWithKey(items, key, k, i);
    }
  }

  /** Keys distinct across the items. */
  ghost predicate DistinctKeys<V>(items: seq<V>, key: V -> string) {
    forall i, j :: 0 <= i < j < |items| ==> key(items[i]) != key(items[j])
  }

  lemma DistinctKeysInit<V>(items: seq<V>, key: V -> string)
    requires items != [] && DistinctKeys(items, key)
    ensures DistinctKeys(items[..|items| - 1], key)
    ensures !HasKey(items[..|items| - 1], key, key(items[|items| - 1]))
  {
    var init := items[..|items| - 1];
    forall i | 0 <= i < |init| ensures init[i] == items[i] {}
  }

  /** Adding an item under a fresh key grows the map by one. */
  lemma IndexSnocFresh<V>(items: seq<V>, key: V -> string)
    requires items != [] && !HasKey(items[..|items| - 1], key, key(items[|items| - 1]))
    ensures var init := items[..|items| - 1];
      var last := items[|items| - 1];
      && Index(items, key) == Index(init, key)[key(last) := last]
      && key(last) !in Index(init, key)
      && |Index(items, key)| == |Index(init, key)| + 1
  {
  }

  /** With distinct keys every item is found under its key. */
  lemma {:induction false} IndexDistinct<V>(items: seq<V>, key: V -> string)
    requires DistinctKeys(items, key)
    ensures |Index(items, key)| == |items|
    ensures forall i :: 0 <= i < |items| ==> Index(items, key)[key(items[i])] == items[i]
    decreases |items|
  {
    if items != [] {
      var init := items[..|items| - 1];
      DistinctKeysInit(items, key);
      IndexDistinct(init, key);
      IndexSnocFresh(items, key);
      forall i | 0 <= i < |items|
        ensures Index(items, key)[key(items[i])] == items[i]
      {
        if i < |init| {
          assert items[i] == init[i];
          assert key(init[i]) != key(items[|items| - 1]);
        }
      }
    }
  }

  /** The successes of a list of results, in order. */
  function Oks<T(!new)>(rs: seq<Result<T>>): (r: seq<T>)
    ensures |r| <= |rs|
    ensures forall x :: x in r <==> Ok(x) in rs
    decreases |rs|
  {
    if rs == [] then []
    else
      assert rs == [rs[0]] + rs[1..];
      (if rs[0].Ok? then [rs[0].value] else []) + Oks(rs[1..])
  }

  /** The error messages of a list of results, in order. */
  function Errs<T>(rs: seq<Result<T>>): (r: seq<string>)
    ensures |r| <= |rs|
    ensures forall e :: e in r <==> Err(e) in rs
    decreases |rs|
  {
    if rs == [] then []
    else
      assert rs == [rs[0]] + rs[1..];
      (if rs[0].Err? then [rs[0].error] else []) + Errs(rs[1..])
  }

  /** `partition(Result::is_ok)` followed by unwrapping each side: every
      result lands on exactly one side. */
  function Partition<T(!new)>(rs: seq<Result<T>>): (r: (seq<T>, seq<string>))
    ensures |r.0| + |r.1| == |rs|
    ensures r.0 == Oks(rs) && r.1 == Errs(rs)
    decreases |rs|
  {
    if rs == [] then ([], [])
    else
      var rest := Partition(rs[1..]);
      if rs[0].Ok? then ([rs[0].value] + rest.0, rest.1)
      else (rest.0, [rs[0].error] + rest.1)
  }

  /** Both sides keep the order of the input: partitioning a concatenation
      partitions each part. */
  lemma {:induction false} OksAppend<T(!new)>(a: seq<Result<T>>, b: seq<Result<T>>)
    ensures Oks(a + b) == Oks(a) + Oks(b)
    decreases |a|
  {
    if a == [] {
      assert a + b == b;
    } else {
      assert (a + b)[0] == a[0];
      assert (a + b)[1..] == a[1..] + b;
      OksAppend(a[1..], b);
    }
  }

  lemma {:induction false} ErrsAppend<T>(a: seq<Result<T>>, b: seq<Result<T>>)
    ensures Errs(a + b) == Errs(a) + Errs(b)
    decreases |a|
  {
    if a == [] {
      assert a + b == b;
    } else {
      assert (a + b)[0] == a[0];
      assert (a + b)[1..] == a[1..] + b;
      ErrsAppend(a[1..], b);
    }
  }

  /** The `filter_map` that keeps the successful `(key, result)` pairs, in
      order. */
  function Fetched<T(!new)>(results: seq<(string, Result<T>)>): (r: seq<(string, T)>)
    ensures |r| <= |results|
    ensures forall id, v :: (id, v) in r <==> (id, Ok(v)) in results
    decreases |results|
  {
    if results == [] then []
    else
      assert results == [results[0]] + results[1..];
      (if results[0].1.Ok? then [(results[0].0, results[0].1.value)] else []) + Fetched(results[1..])
  }

  /** Call `i` panicked and every call before it returned. */
  ghost predicate FirstPanicAt<T>(outcomes: seq<Outcome<T>>, i: int) {
    0 <= i < |outcomes| && outcomes[i].Panicked? && forall j :: 0 <= j < i ==> outcomes[j].Returned?
  }

  /** The message of the first call that panicked, if any: calls run in
      order stop at the first panic, and the later ones never run. */
  function FirstPanic<T>(outcomes: seq<Outcome<T>>): (r: Option<string>)
    ensures r.None? <==> forall i :: 0 <= i < |outcomes| ==> outcomes[i].Returned?
    ensures r.Some? ==> exists i :: FirstPanicAt(outcomes, i) && outcomes[i].message == r.value
    ensures forall i :: FirstPanicAt(outcomes, i) ==> r == Some(outcomes[i].message)
    decreases |outcomes|
  {
    if outcomes == [] then None
    else if outcomes[0].Panicked? then Some(outcomes[0].message)
    else
      var r := FirstPanic(outcomes[1..]);
      assert forall i :: 1 <= i < |outcomes| ==> outcomes[i] == outcomes[1..][i - 1];
      r
  }

  /** The outcomes of a list of `(key, outcome)` pairs, in order. */
  function Outcomes<T>(fetches: seq<(string, Outcome<T>)>): (r: seq<Outcome<T>>)
    ensures |r| == |fetches| && forall i :: 0 <= i < |fetches| ==> r[i] == fetches[i].1
  {
    seq(|fetches|, i requires 0 <= i < |fetches| => fetches[i].1)
  }

  /** The `(key, result)` pairs of calls that all returned. */
  function Settled<T>(fetches: seq<(string, Outcome<T>)>): (r: seq<(string, Result<T>)>)
    requires forall i :: 0 <= i < |fetches| ==> fetches[i].1.Returned?
    ensures |r| == |fetches| && forall i :: 0 <= i < |fetches| ==> r[i] == (fetches[i].0, fetches[i].1.result)
  {
    seq(|fetches|, i requires 0 <= i < |fetches| && fetches[i].1.Returned? => (fetches[i].0, fetches[i].1.result))
  }

  /** The results of outcomes that all returned, in order. */
  function Results<T>(outcomes: seq<Outcome<T>>): (r: seq<Result<T>>)
    requires forall i :: 0 <= i < |outcomes| ==> outcomes[i].Returned?
    ensures |r| == |outcomes| && forall i :: 0 <= i < |outcomes| ==> r[i] == outcomes[i].result
  {
    seq(|outcomes|, i requires 0 <= i < |outcomes| && outcomes[i].Returned? => outcomes[i].result)
  }
}

=== FILE: reddit_fetch.dfy ===
/** Fetching a post page and a post score (wip/reddit_ticker/src/reddit/reddit.rs,
    wip/reddit_ticker/dart/src/app.rs, wip/reddit_ticker_prep/rust/src/main.rs).
    The HTTP request and JSON decoding are a parameter `get` from the request
    URL to the decoded response or an error; what is left is which URL is
    requested and how the fields are pulled out of the response. Every
    `expect` on a missing piece panics. */
module RedditFetch {
  import opened Wrappers
  import opened RedditTypes
  import opened RedditUrls

  const NO_PAGE := "Expected at least on page in the page result"
  const NO_CHILD := "Expected at least one child in the page"
  const NO_TITLE := "Expected page to have a title"
  /** The message the `url` check evidently means to give. */
  const NO_URL := "Expected page to have a url"
  const NO_SCORE_CHILD := "index out of bounds: the len is 0 but the index is 0"

  /** The response carries a first listing with a first child. */
  predicate HasFirstChild(root: PageRoot) {
    |root| > 0 && |root[0].data.children| > 0
  }

  /** The data of the first child of the first listing. */
  function FirstChild(root: PageRoot): ChildData
    requires HasFirstChild(root)
  {
    root[0].data.children[0].data
  }

  /** The response has everything a `Page` needs. */
  predicate Extractable(root: PageRoot) {
    HasFirstChild(root) && FirstChild(root).title.Some? && FirstChild(root).url.Some?
  }

  /** The smallest response that serves page `p`. */
  function PageResponse(p: Page): (root: PageRoot)
    ensures Extractable(root)
  {
    [Listing(ChildContainer([Child(ChildData(p.id, Some(p.title), Some(p.url)))]))]
  }

  /** The extraction as the source writes it: a missing `url` panics with the
      message of a missing title. */
  function ExtractPageAsWritten(root: PageRoot): (r: Outcome<Page>)
    ensures r.Returned? <==> Extractable(root)
    ensures r.Returned? ==> r.result.Ok? && r.result.value.id == FirstChild(root).name
    ensures r.Panicked? ==> r.message in {NO_PAGE, NO_CHILD, NO_TITLE}
  {
    if |root| == 0 then Panicked(NO_PAGE)
    else if |root[0].data.children| == 0 then Panicked(NO_CHILD)
    else
      var data := root[0].data.children[0].data;
      if data.title.None? then Panicked(NO_TITLE)
      else if data.url.None? then Panicked(NO_TITLE)
      else Returned(Ok(Page(data.name, data.title.value, data.url.value)))
  }

  /** The extraction with the `url` check naming the field it checks. */
  function ExtractPage(root: PageRoot): (r: Outcome<Page>)
    ensures r.Returned? <==> Extractable(root)
    ensures r.Returned? ==> r.result.Ok? && r.result.value.id == FirstChild(root).name
    ensures r.Panicked? ==> r.message in {NO_PAGE, NO_CHILD, NO_TITLE, NO_URL}
  {
    if |root| == 0 then Panicked(NO_PAGE)
    else if |root[0].data.children| == 0 then Panicked(NO_CHILD)
    else
      var data := root[0].data.children[0].data;
      if data.title.None? then Panicked(NO_TITLE)
      else if data.url.None? then Panicked(NO_URL)
      else Returned(Ok(Page(data.name, data.title.value, data.url.value)))
  }

  /** Both versions agree except on the message for a missing url. */
  lemma ExtractVersionsAgree(root: PageRoot)
    ensures ExtractPageAsWritten(root).Returned? ==> ExtractPageAsWritten(root) == ExtractPage(root)
    ensures ExtractPageAsWritten(root).Panicked? <==> ExtractPage(root).Panicked?
  {
  }

  /** As written, a response without a title and one with a title but
      without a url panic with the same message. */
  lemma AsWrittenBlamesTitle()
    ensures var noTitle := [Listing(ChildContainer([Child(ChildData("t3_a", None, Some("u")))]))];
      var noUrl := [Listing(ChildContainer([Child(ChildData("t3_a", Some("t"), None))]))];
      ExtractPageAsWritten(noTitle) == ExtractPageAsWritten(noUrl) == Panicked(NO_TITLE)
  {
  }

  /** With the corrected message, each panic names the one piece that is
      missing first. */
  lemma ExtractPageNamesMissingPiece(root: PageRoot)
    ensures ExtractPage(root) == Panicked(NO_PAGE) <==> |root| == 0
    ensures ExtractPage(root) == Panicked(NO_CHILD) <==> |root| > 0 && !HasFirstChild(root)
    ensures ExtractPage(root) == Panicked(NO_TITLE) <==> HasFirstChild(root) && FirstChild(root).title.None?
    ensures ExtractPage(root) == Panicked(NO_URL) <==>
      HasFirstChild(root) && FirstChild(root).title.Some? && FirstChild(root).url.None?
  {
  }

  /** Extraction reads back the page a response was built for. */
  lemma ExtractPageResponse(p: Page)
    ensures ExtractPage(PageResponse(p)) == Returned(Ok(p))
  {
  }

  /** Only the first child of the first listing matters: further listings
      and children are ignored. */
  lemma ExtractPageIgnoresRest(root: PageRoot, more: PageRoot, siblings: seq<Child>)
    requires HasFirstChild(root)
    ensures ExtractPage(root + more) == ExtractPage(root)
    ensures var first := root[0].(data := root[0].data.(children := root[0].data.children + siblings));
      ExtractPage([first] + root[1..]) == ExtractPage(root)
  {
    assert (root + more)[0] == root[0];
  }

  /** `query_page` of the Rust ticker: request the normalised URL, pass a
      request or decoding error on, extract the page from a response with the
      checks as the source writes them. */
  function QueryPage(url: string, get: string -> Result<PageRoot>): (r: Outcome<Page>)
    ensures (r.Returned? && r.result.Err?) <==> get(PageRequestUrl(url)).Err?
    ensures get(PageRequestUrl(url)).Ok? ==> r == ExtractPageAsWritten(get(PageRequestUrl(url)).value)
  {
    match get(PageRequestUrl(url))
    case Err(e) => Returned(Err(e))
    case Ok(root) => ExtractPageAsWritten(root)
  }

  /** `query_page` of the Dart ticker: no query cut. */
  function DartQueryPage(url: string, get: string -> Result<PageRoot>): (r: Outcome<Page>)
    ensures (r.Returned? && r.result.Err?) <==> get(JsonUrl(url)).Err?
    ensures get(JsonUrl(url)).Ok? ==> r == ExtractPageAsWritten(get(JsonUrl(url)).value)
  {
    match get(JsonUrl(url))
    case Err(e) => Returned(Err(e))
    case Ok(root) => ExtractPageAsWritten(root)
  }

  /** `query_page` of the prep tool: the caller has already built the
      request URL. */
  function PrepQueryPage(requestUrl: string, get: string -> Result<PageRoot>): (r: Outcome<Page>)
    ensures (r.Returned? && r.result.Err?) <==> get(requestUrl).Err?
    ensures get(requestUrl).Ok? ==> r == ExtractPageAsWritten(get(requestUrl).value)
  {
    match get(requestUrl)
    case Err(e) => Returned(Err(e))
    case Ok(root) => ExtractPageAsWritten(root)
  }

  /** The query of a post URL does not change what the Rust ticker fetches. */
  lemma QueryPageIgnoresQuery(base: string, query: string, get: string -> Result<PageRoot>)
    requires '?' !in base
    ensures QueryPage(base + "?" + query, get) == QueryPage(base, get)
  {
    QueryIgnored(base, query);
  }

  /** When the server answers with a page, `query_page` returns exactly it. */
  lemma QueryPageServes(url: string, p: Page, get: string -> Result<PageRoot>)
    requires get(PageRequestUrl(url)) == Ok(PageResponse(p))
    ensures QueryPage(url, get) == Returned(Ok(p))
  {
    ExtractPageResponse(p);
    ExtractVersionsAgree(PageResponse(p));
  }

  /** A served page with a title and no url makes every `query_page` panic
      with the title message. */
  lemma QueryPageBlamesTitle(url: string, id: string, title: string, get: string -> Result<PageRoot>)
    requires forall u :: get(u) == Ok([Listing(ChildContainer([Child(ChildData(id, Some(title), None))]))])
    ensures QueryPage(url, get) == DartQueryPage(url, get) == PrepQueryPage(url, get) == Panicked(NO_TITLE)
  {
  }

  /** `api_response.data.children[0].data.score`. */
  function ExtractScore(root: ApiRoot): (r: Outcome<int>)
    ensures r.Panicked? <==> root.data.children == []
    ensures r.Returned? ==> r.result == Ok(root.data.children[0].data.score)
  {
    if |root.data.children| == 0 then Panicked(NO_SCORE_CHILD)
    else Returned(Ok(root.data.children[0].data.score))
  }

  /** The smallest response carrying a score. */
  function ScoreResponse(score: int): ApiRoot {
    ApiRoot(ApiData([ApiChild(ScoreData(score))]))
  }

  /** `query_score(id)`: request the info URL for the id and read the first
      child's score. */
  function QueryScore(id: string, get: string -> Result<ApiRoot>): (r: Outcome<int>)
    ensures (r.Returned? && r.result.Err?) <==> get(ScoreRequestUrl(id)).Err?
    ensures r.Panicked? <==> get(ScoreRequestUrl(id)).Ok? && get(ScoreRequestUrl(id)).value.data.children == []
    ensures r.Panicked? ==> r.message == NO_SCORE_CHILD
  {
    match get(ScoreRequestUrl(id))
    case Err(e) => Returned(Err(e))
    case Ok(root) => ExtractScore(root)
  }

  /** When the server answers with a score, `query_score` returns exactly it. */
  lemma QueryScoreServes(id: string, score: int, get: string -> Result<ApiRoot>)
    requires get(ScoreRequestUrl(id)) == Ok(ScoreResponse(score))
    ensures QueryScore(id, get) == Returned(Ok(score))
  {
  }
}

=== FILE: reddit_mock.dfy ===
/** The mock reddit used when the Rust ticker is built with its mock
    feature (wip/reddit_ticker/src/reddit/reddit_mock.rs): ten fixed pages
    served at `https://1` … `https://10`, and scores that wander randomly
    from the last recorded one. The random draws are parameters, bounded by
    the ranges `gen_range` draws from. */
module RedditMock {
  import opened Ints
  import opened Wrappers
  import opened Decimal
  import opened RedditTypes
  import opened TickerStore

  const PAGE_COUNT := 10
  const DELTA_MIN := -3
  const DELTA_LIMIT := 6
  const FIRST_SCORE_LIMIT := 89
  const ADD_OVERFLOW := "attempt to add with overflow"

  /** `mock_pages()`. */
  function MockPages(): (r: seq<Page>)
    ensures |r| == PAGE_COUNT
  {
    [ Page("reddit_page_1", "Why Rust and Flutter are made for each other", "https://1"),
      Page("reddit_page_2", "Should I give rid a try?", "https://2"),
      Page("reddit_page_3", "Starting into Rust for Flutter devs", "https://3"),
      Page("reddit_page_4", "How to make the borrow checkery your friend", "https://4"),
      Page("reddit_page_5", "Does Rust have a Garbage Collector?", "https://5"),
      Page("reddit_page_6", "Rust Podcasts", "https://6"),
      Page("reddit_page_7", "Why is Rust better than C?", "https://7"),
      Page("reddit_page_8", "Tutorial on running Flutter on Fuchsia", "https://8"),
      Page("reddit_page_9", "Books to learn Flutter Development", "https://9"),
      Page("reddit_page_10", "What are some advantages of Static Languages?", "https://10") ]
  }

  /** Page k, counting from 1, is `reddit_page_k` at `https://k`. */
  lemma MockPagesNumbered(k: nat)
    requires 1 <= k <= PAGE_COUNT
    ensures MockPages()[k - 1].id == "reddit_page_" + NatToString(k)
    ensures MockPages()[k - 1].url == "https://" + NatToString(k)
  {
    if k == 10 {
      assert NatToString(10) == "10";
    } else {
      assert NatToString(k) == [DigitChar(k)];
    }
  }

  /** The position of the page a mock URL names. */
  function MockIndex(url: string): (r: Option<nat>)
    ensures r.Some? ==> r.value < PAGE_COUNT && MockPages()[r.value].url == url
    ensures r.None? ==> forall k :: 0 <= k < PAGE_COUNT ==> MockPages()[k].url != url
  {
    if url == "https://1" then Some(0)
    else if url == "https://2" then Some(1)
    else if url == "https://3" then Some(2)
    else if url == "https://4" then Some(3)
    else if url == "https://5" then Some(4)
    else if url == "https://6" then Some(5)
    else if url == "https://7" then Some(6)
    else if url == "https://8" then Some(7)
    else if url == "https://9" then Some(8)
    else if url == "https://10" then Some(9)
    else None
  }

  /** The mock `query_page(url)`: the page served at `url`, or an error. */
  function MockQueryPage(url: string): (r: Result<Page>)
    ensures r.Ok? <==> exists k :: 0 <= k < PAGE_COUNT && MockPages()[k].url == url
    ensures r.Ok? ==> r.value in MockPages() && r.value.url == url
    ensures r.Err? ==> r.error == "Page " + url + " not found"
  {
    match MockIndex(url)
    case Some(i) => Ok(MockPages()[i])
    case None => Err("Page " + url + " not found")
  }

  /** Every mock page is served at its own URL. */
  lemma MockQueryPageRoundTrip(p: Page)
    requires p in MockPages()
    ensures MockQueryPage(p.url) == Ok(p)
  {
    var k :| 0 <= k < PAGE_COUNT && MockPages()[k] == p;
    var i := MockIndex(p.url).value;
    MockUrlsDistinct(i, k);
  }

  /** `https://k` serves page k. */
  lemma MockQueryPageNumbered(k: nat)
    requires 1 <= k <= PAGE_COUNT
    ensures MockQueryPage("https://" + NatToString(k)) == Ok(MockPages()[k - 1])
  {
    MockPagesNumbered(k);
    MockQueryPageRoundTrip(MockPages()[k - 1]);
  }

  /** No two mock pages share a URL. */
  lemma MockUrlsDistinct(i: nat, j: nat)
    requires i < PAGE_COUNT && j < PAGE_COUNT && MockPages()[i].url == MockPages()[j].url
    ensures i == j
  {
  }

  /** The mock `query_score(id)`, given the draws `delta` from `-3..6` and
      `first` from `0..89`: an unwatched id is an error; a post with scores
      moves from its last one by `delta` (an `i32` addition that panics on
      overflow); a post without scores starts at `first`. */
  function MockQueryScore(posts: map<string, Post>, id: string, delta: int, first: int): (r: Outcome<i32>)
    requires DELTA_MIN <= delta < DELTA_LIMIT && 0 <= first < FIRST_SCORE_LIMIT
    ensures (r.Returned? && r.result.Err?) <==> id !in posts
    ensures r.Returned? && r.result.Err? ==> r.result.error == "Post with id " + id + " not found"
    ensures r.IsOk() && posts[id].scores == [] ==> 0 <= r.result.value < FIRST_SCORE_LIMIT
    ensures r.IsOk() && posts[id].scores != [] ==>
      var last := posts[id].scores[|posts[id].scores| - 1].score;
      last + DELTA_MIN <= r.result.value < last + DELTA_LIMIT
    ensures r.Panicked? ==> id in posts && posts[id].scores != [] && r.message == ADD_OVERFLOW
  {
    if id !in posts then Returned(Err("Post with id " + id + " not found"))
    else
      var scores := posts[id].scores;
      if scores == [] then Returned(Ok(first))
      else
        var next := scores[|scores| - 1].score + delta;
        if I32_MIN <= next < I32_LIMIT then Returned(Ok(next)) else Panicked(ADD_OVERFLOW)
  }

  /** The bounds are tight: every score in range is produced by some draw. */
  lemma MockScoreReachable(posts: map<string, Post>, id: string, v: i32)
    requires id in posts
    requires posts[id].scores == [] ==> 0 <= v < FIRST_SCORE_LIMIT
    requires posts[id].scores != [] ==>
      var last := posts[id].scores[|posts[id].scores| - 1].score;
      last + DELTA_MIN <= v < last + DELTA_LIMIT
    ensures exists delta, first ::
      DELTA_MIN <= delta < DELTA_LIMIT && 0 <= first < FIRST_SCORE_LIMIT &&
      MockQueryScore(posts, id, delta, first) == Returned(Ok(v))
  {
    var scores := posts[id].scores;
    if scores == [] {
      assert MockQueryScore(posts, id, 0, v) == Returned(Ok(v));
    } else {
      var delta := v - scores[|scores| - 1].score;
      assert MockQueryScore(posts, id, delta, 0) == Returned(Ok(v));
    }
  }
}

=== FILE: reddit_types.dfy ===
/** The data the reddit-ticker apps exchange with reddit, mirroring the serde
    response shapes (wip/reddit_ticker/src/reddit_page_response.rs and
    wip/reddit_ticker_prep/rust/src/serde_api_partial.rs), and the pieces
    shared by the ticker stores. */
module RedditTypes {
  import opened Ints
  import opened Wrappers

  /** `ChildData`: `name` is the post's fullname (`t3_…`); `title` and `url`
      may be missing from a listing child. */
  datatype ChildData = ChildData(name: string, title: Option<string>, url: Option<string>)
  datatype Child = Child(data: ChildData)
  datatype ChildContainer = ChildContainer(children: seq<Child>)
  /** One listing of the page response (`reddit_page_response::Page`). */
  datatype Listing = Listing(data: ChildContainer)
  /** `PageRoot = Vec<Page>`: a post page is served as a list of listings. */
  type PageRoot = seq<Listing>

  /** The `api/info` response: `data.children[_].data.score`. */
  datatype ScoreData = ScoreData(score: int)
  datatype ApiChild = ApiChild(data: ScoreData)
  datatype ApiData = ApiData(children: seq<ApiChild>)
  datatype ApiRoot = ApiRoot(data: ApiData)

  /** The fields of a post page the ticker keeps. */
  datatype Page = Page(id: string, title: string, url: string)

  /** A post of the Dart ticker and the prep tool: its scores are the raw
      `i64` values in the order they were fetched. */
  datatype PlainPost = PlainPost(id: string, title: string, url: string, scores: seq<i64>)

  /** A thread an update starts: the endless poll loop, or the one-off
      thread that resolves a `StartWatching(url)` request. */
  datatype Task = PollLoop | Watch(reqId: u64, url: string)

  /** One `update` call of a ticker store: the store afterwards, the replies
      it posted and the threads it spawned. */
  datatype Step<S, R> = Step(store: S, replies: seq<R>, spawned: seq<Task>)

  /** The message of a failed `Option::unwrap`. */
  const UNWRAP_NONE := "called `Option::unwrap()` on a `None` value"
}

=== FILE: reddit_urls.dfy ===
/** How the ticker apps turn a post URL into the URL they fetch, and the
    score URL for a post id (wip/reddit_ticker/src/reddit/reddit.rs,
    flutter/reddit_ticker/src/reddit/reddit.rs,
    wip/reddit_ticker/dart/src/app.rs, wip/reddit_ticker_prep/rust/src/main.rs).
    The query is cut at the first `?` (the query delimiter of section 3.4 of
    RFC 3986); a `#` fragment (section 3.5) is not recognised, and the id in
    the score URL is not percent-encoded (section 2.1). */
module RedditUrls {
  import opened Wrappers

  const JSON_SUFFIX := ".json"
  const API_INFO_URL := "https://api.reddit.com/api/info"
  const ID_QUERY := "?id="

  /** `str::find(c)`: the position of the first `c`. */
  function FindChar(s: string, c: char): (r: Option<nat>)
    ensures r.None? <==> c !in s
    ensures r.Some? ==> r.value < |s| && s[r.value] == c && c !in s[..r.value]
  {
    if s == [] then None
    else if s[0] == c then Some(0)
    else
      match FindChar(s[1..], c)
      case None => None
      case Some(i) =>
        assert s[..i + 1] == [s[0]] + s[1..][..i];
        Some(i + 1)
  }

  /** The URL without its query: everything before the first `?`. */
  function CutQuery(url: string): (r: string)
    ensures '?' !in r
    ensures r <= url
    ensures '?' in url ==> |r| < |url| && url[|r|] == '?'
    ensures '?' !in url ==> r == url
  {
    match FindChar(url, '?')
    case Some(idx) => url[..idx]
    case None => url
  }

  /** `trim_end_matches("/")`: the string without its trailing slashes. */
  function TrimEndSlashes(s: string): (r: string)
    ensures r <= s
    ensures r == [] || r[|r| - 1] != '/'
    ensures forall i :: |r| <= i < |s| ==> s[i] == '/'
  {
    if s == [] || s[|s| - 1] != '/' then s
    else TrimEndSlashes(s[..|s| - 1])
  }

  /** `format!("{}.json", url.trim_end_matches("/"))`. */
  function JsonUrl(url: string): (r: string)
    ensures |r| >= |JSON_SUFFIX| && r[|r| - |JSON_SUFFIX|..] == JSON_SUFFIX
    ensures r[..|r| - |JSON_SUFFIX|] <= url
  {
    TrimEndSlashes(url) + JSON_SUFFIX
  }

  /** The URL `query_page` fetches in the Rust ticker: query cut, trailing
      slashes trimmed, `.json` appended. */
  function PageRequestUrl(url: string): (r: string)
    ensures '?' !in r
    ensures |r| >= |JSON_SUFFIX| && r[|r| - |JSON_SUFFIX|..] == JSON_SUFFIX
  {
    var r := JsonUrl(CutQuery(url));
    assert '?' !in TrimEndSlashes(CutQuery(url)) by {
      var t := TrimEndSlashes(CutQuery(url));
      assert forall i :: 0 <= i < |t| ==> t[i] == CutQuery(url)[i];
    }
    r
  }

  /** Any string whose tail past `r` is all slashes and which does not end in
      a slash itself is the trimmed string: trimming is characterised by its
      three postconditions. */
  lemma {:induction false} TrimEndSlashesUnique(s: string, r: string)
    requires r <= s && (r == [] || r[|r| - 1] != '/')
    requires forall i :: |r| <= i < |s| ==> s[i] == '/'
    ensures TrimEndSlashes(s) == r
    decreases |s|
  {
    if s != [] && s[|s| - 1] == '/' {
      assert |r| < |s|;
      TrimEndSlashesUnique(s[..|s| - 1], r);
    } else {
      assert |r| == |s|;
    }
  }

  /** Trimming twice is trimming once. */
  lemma TrimEndSlashesIdempotent(s: string)
    ensures TrimEndSlashes(TrimEndSlashes(s)) == TrimEndSlashes(s)
  {
    var r := TrimEndSlashes(s);
    TrimEndSlashesUnique(r, r);
  }

  /** Extra trailing slashes do not change the request. */
  lemma TrailingSlashIgnored(url: string)
    ensures JsonUrl(url + "/") == JsonUrl(url)
  {
    var r := TrimEndSlashes(url);
    var s := url + "/";
    assert r <= s;
    assert forall i :: |r| <= i < |s| ==> s[i] == '/' by {
      forall i | |r| <= i < |s| ensures s[i] == '/' {
        if i < |url| {
          assert s[i] == url[i];
        }
      }
    }
    TrimEndSlashesUnique(s, r);
  }

  /** The query does not change the request the Rust ticker makes. */
  lemma QueryIgnored(base: string, query: string)
    requires '?' !in base
    ensures PageRequestUrl(base + "?" + query) == PageRequestUrl(base)
  {
    var u := base + "?" + query;
    assert u[|base|] == '?';
    assert u[..|base|] == base;
    assert '?' in u;
    assert forall i :: 0 <= i < |base| ==> u[i] == base[i] && u[i] != '?';
    var c := CutQuery(u);
    assert |c| == |base|;
  }

  /** A path without a query and without a trailing slash, followed by a
      slash and a query, is fetched as the path plus `.json`. */
  lemma PlainPathRequest(path: string, query: string)
    requires '?' !in path && path != [] && path[|path| - 1] != '/'
    ensures PageRequestUrl(path + "/?" + query) == path + JSON_SUFFIX
  {
    assert path + "/?" + query == (path + "/") + "?" + query;
    assert '?' !in path + "/";
    QueryIgnored(path + "/", query);
    TrailingSlashIgnored(path);
    TrimEndSlashesUnique(path, path);
  }

  /** A worked example: `https://r/x/?ref` is fetched as `https://r/x.json`. */
  lemma ExampleRequest(url: string)
    requires url == "https://r/x/?ref"
    ensures PageRequestUrl(url) == "https://r/x.json"
  {
    var path := url[..11];
    assert url == path + "/?" + "ref";
    PlainPathRequest(path, "ref");
    assert path + JSON_SUFFIX == "https://r/x.json";
  }

  /** The Dart ticker does not cut the query: it agrees with the Rust ticker
      exactly on URLs without one, and keeps the `?` otherwise. */
  lemma DartRequestKeepsQuery(url: string)
    ensures '?' !in url ==> JsonUrl(url) == PageRequestUrl(url)
    ensures '?' in url ==> '?' in JsonUrl(url)
  {
    if '?' in url {
      var i :| 0 <= i < |url| && url[i] == '?';
      var t := TrimEndSlashes(url);
      assert i < |t|;
      assert JsonUrl(url)[i] == '?';
    }
  }

  /** `format!("{}?id={}", API_INFO_URL, id)`. */
  function ScoreRequestUrl(id: string): (r: string)
    ensures |r| == |API_INFO_URL| + |ID_QUERY| + |id|
    ensures r[..|API_INFO_URL| + |ID_QUERY|] == API_INFO_URL + ID_QUERY
  {
    API_INFO_URL + ID_QUERY + id
  }

  /** Reading the id back out of a score URL. */
  function ScoreUrlId(url: string): (r: Option<string>)
    ensures r.Some? ==> ScoreRequestUrl(r.value) == url
  {
    var prefix := API_INFO_URL + ID_QUERY;
    if prefix <= url then
      var id := url[|prefix|..];
      assert url == prefix + id;
      Some(id)
    else None
  }

  /** The score URL determines the id: `ScoreUrlId` inverts
      `ScoreRequestUrl`. */
  lemma ScoreUrlRoundTrip(id: string)
    ensures ScoreUrlId(ScoreRequestUrl(id)) == Some(id)
  {
    var prefix := API_INFO_URL + ID_QUERY;
    assert ScoreRequestUrl(id) == prefix + id;
    assert (prefix + id)[|prefix|..] == id;
  }
}

=== FILE: replies.dfy ===
/** The reply queue of the WebAssembly Cubit example
    (flutter/todo_cubit_wasm/src/replies.rs): replies are flattened into a
    `(ty, req_id, data)` record and pushed onto one shared vector, which the
    Dart side polls from the front and prunes by request id. */
module ReplyQueue {
  import opened Ints
  import opened Wrappers
  import opened TodoProtocol

  datatype ReplyStruct = ReplyStruct(ty: u8, reqId: u64, data: string)

  /** The queue behind the reply lock, oldest first. */
  type Queue = seq<ReplyStruct>

  /** A reply of the WebAssembly store's own enum, which has no
      `SetAutoExpireCompletedTodos` variant. */
  predicate IsWasmReply(r: Reply) {
    !r.SetAutoExpireCompletedTodos?
  }

  function WithReqId(ty: u8, reqId: u64): (s: ReplyStruct)
    ensures s.ty == ty && s.reqId == reqId && s.data == ""
  {
    ReplyStruct(ty, reqId, "")
  }

  function WithData(ty: u8, reqId: u64, data: string): (s: ReplyStruct)
    ensures s.ty == ty && s.reqId == reqId && s.data == data
  {
    ReplyStruct(ty, reqId, data)
  }

  /** `impl From<Reply> for ReplyStruct`. */
  function FromReply(r: Reply): (s: ReplyStruct)
    requires IsWasmReply(r)
    ensures s.ty < 12 && s.ty != 9
    ensures AnswersRequest(r, s.reqId) || s.reqId == 0
  {
    match r
    case AddedTodo(reqId, data) => WithData(0, reqId, data)
    case RemovedTodo(reqId, data) => WithData(1, reqId, data)
    case RemovedCompleted(reqId) => WithReqId(2, reqId)
    case CompletedTodo(reqId, data) => WithData(3, reqId, data)
    case RestartedTodo(reqId, data) => WithData(4, reqId, data)
    case ToggledTodo(reqId, data) => WithData(5, reqId, data)
    case CompletedAll(reqId) => WithReqId(6, reqId)
    case RestartedAll(reqId) => WithReqId(7, reqId)
    case SetFilter(reqId) => WithReqId(8, reqId)
    case CompletedTodoExpired => ReplyStruct(10, 0, "")
    case Tick(data) => ReplyStruct(11, 0, data)
  }

  /** The reading the Dart side gives a record: the tag picks the variant,
      and a record that no reply encodes to reads as nothing. */
  function ToReply(s: ReplyStruct): (r: Option<Reply>)
    ensures r.Some? ==> IsWasmReply(r.value)
  {
    match s.ty
    case 0 => Some(AddedTodo(s.reqId, s.data))
    case 1 => Some(RemovedTodo(s.reqId, s.data))
    case 2 => if s.data == "" then Some(RemovedCompleted(s.reqId)) else None
    case 3 => Some(CompletedTodo(s.reqId, s.data))
    case 4 => Some(RestartedTodo(s.reqId, s.data))
    case 5 => Some(ToggledTodo(s.reqId, s.data))
    case 6 => if s.data == "" then Some(CompletedAll(s.reqId)) else None
    case 7 => if s.data == "" then Some(RestartedAll(s.reqId)) else None
    case 8 => if s.data == "" then Some(Reply.SetFilter(s.reqId)) else None
    case 10 => if s.reqId == 0 && s.data == "" then Some(CompletedTodoExpired) else None
    case 11 => if s.reqId == 0 then Some(Tick(s.data)) else None
    case _ => None
  }

  /** The encoding loses nothing: decoding gives back the reply. */
  lemma DecodeEncode(r: Reply)
    requires IsWasmReply(r)
    ensures ToReply(FromReply(r)) == Some(r)
  {
  }

  /** Every record that decodes is the encoding of what it decodes to, so
      the encoding is a bijection between wasm replies and decodable records. */
  lemma EncodeDecode(s: ReplyStruct, r: Reply)
    ensures ToReply(s) == Some(r) <==> IsWasmReply(r) && FromReply(r) == s
  {
    if IsWasmReply(r) && FromReply(r) == s {
      DecodeEncode(r);
    }
  }

  /** Different replies encode to different records. */
  lemma FromReplyInjective(a: Reply, b: Reply)
    requires IsWasmReply(a) && IsWasmReply(b) && FromReply(a) == FromReply(b)
    ensures a == b
  {
    DecodeEncode(a);
    DecodeEncode(b);
  }

  /** `post`: push the encoded reply onto the back of the queue. */
  function Post(q: Queue, r: Reply): (q': Queue)
    requires IsWasmReply(r)
    ensures |q'| == |q| + 1 && q'[..|q|] == q
    ensures ToReply(q'[|q|]) == Some(r)
  {
    q + [FromReply(r)]
  }

  /** Posting several replies in order. */
  function PostAll(q: Queue, rs: seq<Reply>): (q': Queue)
    requires forall i :: 0 <= i < |rs| ==> IsWasmReply(rs[i])
    ensures |q'| == |q| + |rs|
    ensures q'[..|q|] == q
    ensures forall i :: 0 <= i < |rs| ==> ToReply(q'[|q| + i]) == Some(rs[i])
    decreases |rs|
  {
    if rs == [] then q
    else
      DecodeEncode(rs[0]);
      var q1 := Post(q, rs[0]);
      var r := PostAll(q1, rs[1..]);
      assert r[..|q|] == r[..|q1|][..|q|];
      assert forall i :: 1 <= i < |rs| ==> r[|q| + i] == r[|q1| + (i - 1)] && rs[i] == rs[1..][i - 1];
      r
  }

  /** `rid_poll_reply`: the oldest reply still queued, if any. */
  function PollReply(q: Queue): (r: Option<ReplyStruct>)
    ensures r.None? <==> q == []
    ensures r.Some? ==> r.value == q[0]
  {
    if q == [] then None else Some(q[0])
  }

  /** `rid_handled_reply(req_id)`: drop every queued reply carrying the id,
      keeping the others in order. */
  function HandledReply(q: Queue, reqId: u64): (r: Queue)
    ensures |r| <= |q|
    ensures forall s :: s in r <==> s in q && s.reqId != reqId
    decreases |q|
  {
    if q == [] then []
    else
      var rest := HandledReply(q[1..], reqId);
      assert q == [q[0]] + q[1..];
      if q[0].reqId != reqId then [q[0]] + rest else rest
  }

  /** Pruning works piece by piece on a queue. */
  lemma {:induction false} HandledReplyAppend(a: Queue, b: Queue, reqId: u64)
    ensures HandledReply(a + b, reqId) == HandledReply(a, reqId) + HandledReply(b, reqId)
    decreases |a|
  {
    if a == [] {
      assert a + b == b;
    } else {
      assert (a + b)[0] == a[0];
      assert (a + b)[1..] == a[1..] + b;
      HandledReplyAppend(a[1..], b, reqId);
    }
  }

  /** Pruning an id twice is pruning it once. */
  lemma {:induction false} HandledReplyIdempotent(q: Queue, reqId: u64)
    ensures HandledReply(HandledReply(q, reqId), reqId) == HandledReply(q, reqId)
    decreases |q|
  {
    if q != [] {
      HandledReplyIdempotent(q[1..], reqId);
    }
  }

  /** Pruning two ids gives the same queue in either order. */
  lemma {:induction false} HandledReplyCommutes(q: Queue, a: u64, b: u64)
    ensures HandledReply(HandledReply(q, a), b) == HandledReply(HandledReply(q, b), a)
    decreases |q|
  {
    if q != [] {
      HandledReplyCommutes(q[1..], a, b);
    }
  }

  /** A reply whose request is marked handled is gone, and the rest of the
      queue is pruned as if it had never been posted; a reply to another
      request stays at the back. */
  lemma PostThenHandled(q: Queue, r: Reply, reqId: u64)
    requires IsWasmReply(r) && !r.CompletedTodoExpired? && !r.Tick?
    ensures HandledReply(Post(q, r), reqId)
      == HandledReply(q, reqId) + (if r.reqId == reqId then [] else [FromReply(r)])
  {
    HandledReplyAppend(q, [FromReply(r)], reqId);
    assert HandledReply([FromReply(r)], reqId) == if r.reqId == reqId then [] else [FromReply(r)] by {
      assert [FromReply(r)][1..] == [];
    }
  }

  /** Pruning request id 0 also drops every queued application event
      (`CompletedTodoExpired` and `Tick` are posted with `req_id` 0). */
  lemma HandledZeroDropsEvents(q: Queue, r: Reply)
    requires r.CompletedTodoExpired? || r.Tick?
    ensures HandledReply(Post(q, r), 0) == HandledReply(q, 0)
  {
    HandledReplyAppend(q, [FromReply(r)], 0);
  }

  /** Polling sees replies in the order they were posted: a post never
      changes which reply is polled next, unless the queue was empty. */
  lemma PollIsFifo(q: Queue, r: Reply)
    requires IsWasmReply(r)
    ensures PollReply(Post(q, r)) == if q == [] then Some(FromReply(r)) else PollReply(q)
  {
  }
}

=== FILE: riverpod_todo.dfy ===
/** The todo store of the Flutter Riverpod example
    (flutter/todo_riverpod/src/lib.rs). Its store, todo and handlers are the
    ones of the Dart example (`DartTodo`), with four seeded todos, a smaller
    message enum, and `Display` impls for `Todo` and `Filter`. */
module RiverpodTodo {
  import opened Wrappers
  import opened Ints
  import opened Decimal
  import opened TodoList
  import opened TodoProtocol
  import DartTodo

  type PlainTodo = DartTodo.PlainTodo
  type Store = DartTodo.Store

  /** The messages of this store's `Msg` enum. */
  predicate Accepts(msg: Msg) {
    !msg.CompleteTodo? && !msg.RestartTodo? && !msg.SetAutoExpireCompletedTodos?
  }

  function Create(): (s: Store)
    ensures |s.todos| == 4 && s.lastAddedId == 3 && s.filter == All
    ensures forall i :: 0 <= i < 4 ==> s.todos[i].id == i && (s.todos[i].completed <==> i < 2)
    ensures DartTodo.Valid(s)
  {
    DartTodo.Store(3, [
      Todo(0, "Learn Flutter", true, ()),
      Todo(1, "Learn Rust", true, ()),
      Todo(2, "Learn Rid", false, ()),
      Todo(3, "Build Awesome Apps", false, ())], All)
  }

  /** `update`: the same handler as the Dart store, restricted to this
      store's messages. */
  function Update(s: Store, reqId: u64, msg: Msg): (r: Step<Store>)
    requires Accepts(msg) && (msg.AddTodo? ==> s.lastAddedId + 1 < U32_LIMIT)
    ensures |r.replies| <= 1
    ensures forall i :: 0 <= i < |r.replies| ==> AnswersRequest(r.replies[i], reqId)
    ensures r.replies == [] <==> msg.RemoveTodo? && !HasId(s.todos, msg.id)
    ensures msg.ToggleTodo? ==> r.replies == [ToggledTodo(reqId, NatToString(msg.id))]
  {
    DartTodo.Update(s, reqId, msg)
  }

  /** Every message keeps the id invariant. */
  lemma UpdateKeepsValid(s: Store, reqId: u64, msg: Msg)
    requires Accepts(msg) && (msg.AddTodo? ==> s.lastAddedId + 1 < U32_LIMIT)
    requires DartTodo.Valid(s)
    ensures DartTodo.Valid(Update(s, reqId, msg).store)
  {
    DartTodo.UpdateKeepsValid(s, reqId, msg);
  }

  /** `ToggleTodo` flips the flag of the first todo with the id and changes
      nothing else. */
  lemma ToggleFlipsOnlyTarget(s: Store, reqId: u64, id: u32)
    ensures var r := Update(s, reqId, ToggleTodo(id));
      && r.store.lastAddedId == s.lastAddedId && r.store.filter == s.filter
      && (!HasId(s.todos, id) ==> r.store.todos == s.todos)
      && (HasId(s.todos, id) ==>
            exists i :: (FirstWithId(s.todos, id, i) &&
              r.store.todos == s.todos[i := s.todos[i].(completed := !s.todos[i].completed)]))
  {
    DartTodo.CompletionTouchesOnlyTarget(s, reqId, ToggleTodo(id));
  }

  function FilteredTodos(s: Store): (r: seq<PlainTodo>)
    ensures SortedById(r)
    ensures forall t :: t in r <==> t in s.todos && Matches(s.filter, t)
    ensures forall t :: multiset(r)[t] == if Matches(s.filter, t) then multiset(s.todos)[t] else 0
  {
    DartTodo.FilteredTodos(s)
  }

  // ---------------------------------------------------------------------
  // `Display` for `Todo` and `Filter`
  // ---------------------------------------------------------------------

  /** The status mark of a completed todo. flutter/todo_riverpod/src/lib.rs:134
      holds the check mark U+2713 as its UTF-8 bytes re-read as
      Windows-1252, so the literal is these three characters. */
  const CHECK_MARK: string := "\U{00E2}\U{0153}\U{201C}"

  function Status(completed: bool): string {
    if completed then CHECK_MARK else " "
  }

  /** `[<status>] (<id>) '<title>'`. Rendering loses nothing: the status,
      id and title can be read back. */
  function DisplayTodo(t: PlainTodo): (r: string)
    ensures ParseDisplayedTodo(r) == Some(Shown(t.completed, t.id, t.title))
  {
    var r := "[" + Status(t.completed) + "] (" + NatToString(t.id) + ") '" + t.title + "'";
    var tail := NatToString(t.id) + ") '" + t.title + "'";
    assert r == Opening(t.completed) + tail;
    ShownTailRoundTrip(t.completed, t.id, t.title);
    Split(Opening(t.completed), tail);
    if t.completed then NotPendingOpening(r); r else r
  }

  /** What a rendered todo shows. */
  datatype Shown = Shown(completed: bool, id: nat, title: string)

  /** The text in front of the id. */
  function Opening(completed: bool): string {
    "[" + Status(completed) + "] ("
  }

  /** Reads a rendered todo back. */
  function ParseDisplayedTodo(s: string): Option<Shown> {
    if |s| >= |Opening(false)| && s[..|Opening(false)|] == Opening(false) then
      ParseShownTail(false, s[|Opening(false)|..])
    else if |s| >= |Opening(true)| && s[..|Opening(true)|] == Opening(true) then
      ParseShownTail(true, s[|Opening(true)|..])
    else None
  }

  function ParseShownTail(completed: bool, rest: string): Option<Shown> {
    var k := DigitRun(rest);
    if 0 < k && k + 4 <= |rest| && rest[k..k + 3] == ") '" && rest[|rest| - 1] == '\''
    then Some(Shown(completed, ParseDigits(rest[..k]), rest[k + 3..|rest| - 1]))
    else None
  }

  lemma {:induction false} ShownTailRoundTrip(completed: bool, id: nat, title: string)
    ensures ParseShownTail(completed, NatToString(id) + ") '" + title + "'") == Some(Shown(completed, id, title))
  {
    var d := NatToString(id);
    var rest := d + ") '" + title + "'";
    assert rest == d + (") '" + title + "'");
    DigitRunOfPrefix(d, ") '" + title + "'");
    assert rest[..|d|] == d;
    assert rest[|d|..|d| + 3] == ") '";
    assert rest[|d| + 3..|rest| - 1] == title;
    ParseNatToString(id);
  }

  lemma Split(p: string, t: string)
    ensures (p + t)[..|p|] == p && (p + t)[|p|..] == t
  {
  }

  lemma NotPendingOpening(s: string)
    requires |s| >= 2 && s[1] == CHECK_MARK[0]
    ensures !(|s| >= |Opening(false)| && s[..|Opening(false)|] == Opening(false))
  {
    if |s| >= |Opening(false)| {
      assert s[..|Opening(false)|][1] == s[1];
    }
  }

  /** Distinct todos render differently. */
  lemma DisplayInjective(a: PlainTodo, b: PlainTodo)
    ensures DisplayTodo(a) == DisplayTodo(b) ==> a == b
  {
    var x: () := a.expiry;
    var y: () := b.expiry;
    assert x == y;
  }

  /** `Filter` renders as its variant name, which reads back as the
      filter. */
  function DisplayFilter(f: Filter): (r: string)
    ensures ParseFilter(r) == Some(f)
  {
    match f
    case Completed => "Completed"
    case Pending => "Pending"
    case All => "All"
  }

  function ParseFilter(s: string): Option<Filter> {
    if s == "Completed" then Some(Completed)
    else if s == "Pending" then Some(Pending)
    else if s == "All" then Some(All)
    else None
  }
}

=== FILE: ticker_prep.dfy ===
/** The command-line prototype of the ticker (wip/reddit_ticker_prep/rust/src/main.rs):
    fetch a fixed list of post pages, give up when any fetch fails, otherwise
    watch every post, appending each fetched score to its post. */
module TickerPrep {
  import opened Ints
  import opened Wrappers
  import opened RedditTypes
  import opened RedditUrls
  import opened Keyed

  const FAILED_SCORE := "Failed to get score: "

  const PAGES_TO_TRACK := [
    "https://www.reddit.com/r/rust/comments/ph6vso/lemmy_release_v0120_user_and_community_blocking/",
    "https://www.reddit.com/r/rust/comments/pglz9h/password_auth_in_rust_from_scratch_attacks_and/",
    "https://www.reddit.com/r/FlutterDev/comments/ph8a91/im_excited_to_announce_our_new_flutter_plugin_for/"]

  function PostKey(p: PlainPost): string {
    p.id
  }

  /** The URL requested for each tracked page: trailing slashes trimmed and
      `.json` appended. */
  function RequestUrls(urls: seq<string>): (r: seq<string>)
    ensures |r| == |urls|
    ensures forall i :: 0 <= i < |urls| ==>
      |r[i]| >= |JSON_SUFFIX| && r[i][|r[i]| - |JSON_SUFFIX|..] == JSON_SUFFIX &&
      r[i][..|r[i]| - |JSON_SUFFIX|] <= urls[i]
  {
    seq(|urls|, i requires 0 <= i < |urls| => JsonUrl(urls[i]))
  }

  /** A tracked page starts as a post without scores. */
  function PostOf(p: Page): (r: PlainPost)
    ensures r.id == p.id && r.title == p.title && r.url == p.url && r.scores == []
  {
    PlainPost(p.id, p.title, p.url, [])
  }

  function PostsOf(pages: seq<Page>): (r: seq<PlainPost>)
    ensures |r| == |pages|
    ensures forall i :: 0 <= i < |pages| ==> r[i] == PostOf(pages[i])
  {
    seq(|pages|, i requires 0 <= i < |pages| => PostOf(pages[i]))
  }

  /** What `main` ends with: the errors it reports, and the posts it watches. */
  datatype Startup = Startup(errors: seq<string>, posts: map<string, PlainPost>)

  /** `main` after the fetches: partition the results; any error means no
      post is watched; otherwise every page becomes a post under its id, a
      later page replacing an earlier one with the same id. */
  function Start(results: seq<Result<Page>>): (r: Startup)
    ensures r.errors == Errs(results)
    ensures r.errors != [] ==> r.posts == map[]
    ensures KeysMatch(r.posts, PostKey)
  {
    var (pages, errors) := Partition(results);
    if errors != [] then Startup(errors, map[])
    else Startup([], Index(PostsOf(pages), PostKey))
  }

  /** The fetches run in order, so the first one that panics (a missing
      piece in a page response) ends `main` before any post is watched;
      otherwise `Start` runs on the results. */
  function StartFrom(outcomes: seq<Outcome<Page>>): (r: Outcome<Startup>)
    ensures r.Panicked? <==> exists i :: 0 <= i < |outcomes| && outcomes[i].Panicked?
    ensures forall i :: FirstPanicAt(outcomes, i) ==> r == Panicked(outcomes[i].message)
    ensures r.Returned? ==> (forall i :: 0 <= i < |outcomes| ==> outcomes[i].Returned?) && r == Returned(Ok(Start(Results(outcomes))))
  {
    match FirstPanic(outcomes)
    case Some(m) => Panicked(m)
    case None => Returned(Ok(Start(Results(outcomes))))
  }

  /** Every fetch served its page: `main` watches exactly the fetched pages,
      under their ids, and reports no error. */
  lemma StartFromAllServed(outcomes: seq<Outcome<Page>>)
    requires forall i :: 0 <= i < |outcomes| ==> outcomes[i].IsOk()
    ensures StartFrom(outcomes).IsOk()
    ensures var r := StartFrom(outcomes).result.value;
      && r.errors == []
      && forall id :: id in r.posts <==> exists i :: 0 <= i < |outcomes| && outcomes[i].result.value.id == id
  {
    var results := Results(outcomes);
    StartWatchesEveryPage(results);
  }

  /** When every fetch succeeds, the watched posts are exactly the fetched
      pages, keyed by id, each without scores. */
  lemma StartWatchesEveryPage(results: seq<Result<Page>>)
    requires forall i :: 0 <= i < |results| ==> results[i].Ok?
    ensures var r := Start(results);
      && r.errors == []
      && (forall id :: id in r.posts <==> exists i :: 0 <= i < |results| && results[i].value.id == id)
      && (forall id :: id in r.posts ==>
            (r.posts[id].scores == [] && exists i :: 0 <= i < |results| && PostOf(results[i].value) == r.posts[id]))
  {
    var pages := Oks(results);
    NoErrs(results);
    OksAll(results);
    var posts := PostsOf(pages);
    forall id ensures HasKey(posts, PostKey, id) <==> exists i :: 0 <= i < |results| && results[i].value.id == id {
      if HasKey(posts, PostKey, id) {
        var i :| 0 <= i < |posts| && PostKey(posts[i]) == id;
        assert posts[i] == PostOf(results[i].value);
      }
      if exists i :: 0 <= i < |results| && results[i].value.id == id {
        var i :| 0 <= i < |results| && results[i].value.id == id;
        assert PostKey(posts[i]) == id;
      }
    }
    var m := Index(posts, PostKey);
    forall id | id in m
      ensures m[id].scores == [] && exists i :: 0 <= i < |results| && PostOf(results[i].value) == m[id]
    {
      IndexLast(posts, PostKey, id);
      var i :| LastWithKey(posts, PostKey, id, i) && m[id] == posts[i];
      assert posts[i] == PostOf(results[i].value);
    }
  }

  lemma {:induction false} NoErrs(results: seq<Result<Page>>)
    requires forall i :: 0 <= i < |results| ==> results[i].Ok?
    ensures Errs(results) == []
    decreases |results|
  {
    if results != [] {
      NoErrs(results[1..]);
    }
  }

  lemma {:induction false} OksAll(results: seq<Result<Page>>)
    requires forall i :: 0 <= i < |results| ==> results[i].Ok?
    ensures |Oks(results)| == |results|
    ensures forall i :: 0 <= i < |results| ==> Oks(results)[i] == results[i].value
    decreases |results|
  {
    if results != [] {
      OksAll(results[1..]);
      assert Oks(results) == [results[0].value] + Oks(results[1..]);
    }
  }

  /** One turn of a watch thread: `query_score(&id)` may itself panic (a
      response without children), its `expect` panics on a failed fetch, and
      `get_mut(&id).unwrap()` panics on a missing post; otherwise the score
      is appended to that post. */
  function WatchStep(posts: map<string, PlainPost>, id: string, score: Outcome<i64>): (r: Outcome<map<string, PlainPost>>)
    ensures r.Panicked? <==> !score.IsOk() || id !in posts
    ensures score.Panicked? ==> r == Panicked(score.message)
    ensures score.Returned? && score.result.Err? ==> r == Panicked(FAILED_SCORE + score.result.error)
    ensures r.Returned? ==> r.result.Ok? && r.result.value.Keys == posts.Keys
    ensures r.Returned? ==> r.result.value[id] == posts[id].(scores := posts[id].scores + [score.result.value])
    ensures r.Returned? ==> forall k :: k in posts && k != id ==> r.result.value[k] == posts[k]
  {
    match score
    case Panicked(m) => Panicked(m)
    case Returned(Err(e)) => Panicked(FAILED_SCORE + e)
    case Returned(Ok(v)) =>
      if id !in posts then Panicked(UNWRAP_NONE)
      else Returned(Ok(posts[id := posts[id].(scores := posts[id].scores + [v])]))
  }

  /** Successive watch steps with successful fetches: nothing removes a
      post, so a run panics exactly when some step is for an id that was
      never watched, and otherwise keeps the keys. */
  function WatchRun(posts: map<string, PlainPost>, steps: seq<(string, i64)>): (r: Outcome<map<string, PlainPost>>)
    ensures r.Panicked? <==> exists i :: 0 <= i < |steps| && steps[i].0 !in posts
    ensures r.Returned? ==> r.result.Ok? && r.result.value.Keys == posts.Keys
    decreases |steps|
  {
    if steps == [] then Returned(Ok(posts))
    else
      var step := WatchStep(posts, steps[0].0, Returned(Ok(steps[0].1)));
      if step.Panicked? then step
      else
        var next := step.result.value;
        var r := WatchRun(next, steps[1..]);
        assert (exists i :: 0 <= i < |steps| && steps[i].0 !in posts) <==>
               (exists i :: 0 <= i < |steps[1..]| && steps[1..][i].0 !in next) by {
          if exists i :: 0 <= i < |steps| && steps[i].0 !in posts {
            var i :| 0 <= i < |steps| && steps[i].0 !in posts;
            assert steps[1..][i - 1] == steps[i];
          }
          if exists i :: 0 <= i < |steps[1..]| && steps[1..][i].0 !in next {
            var i :| 0 <= i < |steps[1..]| && steps[1..][i].0 !in next;
            assert steps[i + 1] == steps[1..][i];
          }
        }
        r
  }

  /** A run of successful watch steps on the watched ids never panics, and
      keeps each post under its id. */
  lemma {:induction false} WatchStepsNeverUnwrapMissing(posts: map<string, PlainPost>, steps: seq<(string, i64)>)
    requires KeysMatch(posts, PostKey)
    requires forall i :: 0 <= i < |steps| ==> steps[i].0 in posts
    ensures WatchRun(posts, steps).IsOk()
    ensures KeysMatch(WatchRun(posts, steps).result.value, PostKey)
    decreases |steps|
  {
    if steps != [] {
      var next := WatchStep(posts, steps[0].0, Returned(Ok(steps[0].1))).result.value;
      assert forall i :: 0 <= i < |steps[1..]| ==> steps[1..][i].0 in next by {
        forall i | 0 <= i < |steps[1..]| ensures steps[1..][i].0 in next {
          assert steps[1..][i] == steps[i + 1];
        }
      }
      WatchStepsNeverUnwrapMissing(next, steps[1..]);
    }
  }

  /** The tracked pages are requested as `.json` documents without the
      trailing slash. */
  lemma TrackedRequestUrls()
    ensures RequestUrls(PAGES_TO_TRACK)[0] ==
      "https://www.reddit.com/r/rust/comments/ph6vso/lemmy_release_v0120_user_and_community_blocking.json"
  {
    var u := PAGES_TO_TRACK[0];
    var base := u[..|u| - 1];
    assert u == base + "/";
    TrailingSlashIgnored(base);
    TrimEndSlashesUnique(base, base);
  }
}

=== FILE: ticker_store.dfy ===
/** The store of the Rust reddit ticker (wip/reddit_ticker/src/lib.rs): the
    watched posts keyed by id, whether the poll loop runs, and the optional
    database. Threads become explicit steps: an `update` returns the tasks it
    spawns, a watch thread finishing is `WatchThread`, one turn of the poll
    loop is `PollCycle`. The database is a collaborator whose answers are
    parameters, and time is a natural-number clock in seconds. */
module TickerStore {
  import opened Ints
  import opened Wrappers
  import opened RedditTypes
  import opened Keyed
  import opened RedditUrls
  import RedditFetch
  import Decimal

  /** The database file name. lib.rs:13 imports `DB_NAME` from its `db`
      module, but wip/reddit_ticker/src/db/mod.rs does not define it; the
      value is the one flutter/reddit_ticker/src/db.rs:4 gives. */
  const DB_NAME := "reddit_ticker.sqlite"
  const FAILED_PAGE := "Failed to get valid page data: "
  const ERROR_SEP := "\nError: "
  const GETTING_DURATION := "Getting duration"

  /** The panic of `expect("Getting duration")` on `duration_since` when the
      clock reads `lag` seconds before `added`: the message, then the
      `Debug` form of the `SystemTimeError`, whose `Duration` is written in
      seconds with an `s` suffix. */
  function DurationPanic(lag: nat): (r: string)
    ensures |r| > |GETTING_DURATION| + 2 && r[..|GETTING_DURATION| + 2] == GETTING_DURATION + ": "
  {
    GETTING_DURATION + ": SystemTimeError(" + Decimal.NatToString(lag) + "s)"
  }
  /** A score that does not fit the `i32` it is decoded into is a decoding
      error; the decoder's wording is not modelled. */
  const SCORE_OUT_OF_RANGE := "invalid value: integer, expected i32"

  datatype Score = Score(secsSincePostAdded: nat, score: i32)

  /** A watched post; `added` is the clock reading when it was first
      watched. */
  datatype Post = Post(added: nat, id: string, title: string, url: string, scores: seq<Score>)

  /** An open database connection, known by the path it was opened at. */
  datatype Db = Db(path: string)

  datatype Store = Store(posts: map<string, Post>, polling: bool, db: Option<Db>)

  datatype Msg = Initialize(appDir: string) | StartWatching(url: string) | StopWatching(id: string)

  datatype Reply =
    | Initialized(reqId: u64)
    | StartedWatching(reqId: u64, id: string)
    | StoppedWatching(reqId: u64, id: string)
    | FailedRequest(reqId: u64, message: string)
    | UpdatedScores
    | Log(message: string)

  /** The answers of the database: opening at a path, loading every post,
      looking a post up by id, loading a post's scores. Inserts only log
      their failures and are not represented. */
  datatype Database = Database(
    open: string -> Result<Db>,
    allPosts: Db -> Result<seq<Post>>,
    getPost: (Db, string) -> Result<Option<Post>>,
    getScores: (Db, Post) -> Result<seq<Score>>)

  function PostKey(p: Post): string {
    p.id
  }

  /** The store invariant: every post sits under its own id. */
  ghost predicate Valid(s: Store) {
    KeysMatch(s.posts, PostKey)
  }

  /** `Path::new(dir).join(name).to_string_lossy()` for a relative `name`. */
  function JoinPath(dir: string, name: string): (r: string)
    requires name != [] && name[0] != '/'
    ensures |r| >= |name| && r[|r| - |name|..] == name
    ensures r[..|r| - |name|] <= dir + "/"
  {
    if dir == [] then name
    else if dir[|dir| - 1] == '/' then dir + name
    else dir + "/" + name
  }

  function Create(): (s: Store)
    ensures s.posts == map[] && !s.polling && s.db.None?
    ensures Valid(s)
  {
    Store(map[], false, None)
  }

  /** `Initialize(app_dir)`: open the database under the app directory when
      none is open, start the poll loop unless it runs, reload the posts when
      a database is open, and reply. */
  function InitializeStep(s: Store, reqId: u64, appDir: string, database: Database): (r: Step<Store, Reply>)
    ensures r.replies == [Initialized(reqId)]
    ensures r.store.polling
    ensures r.spawned == if s.polling then [] else [PollLoop]
    ensures s.db.Some? ==> r.store.db == s.db
    ensures r.store.db.None? ==> r.store.posts == s.posts
  {
    var db :=
      if s.db.None? then
        match database.open(JoinPath(appDir, DB_NAME))
        case Ok(d) => Some(d)
        case Err(_) => None
      else s.db;
    var spawned := if s.polling then [] else [PollLoop];
    var posts :=
      if db.Some? then
        match database.allPosts(db.value)
        case Ok(loaded) => Index(loaded, PostKey)
        case Err(_) => map[]
      else s.posts;
    Step(Store(posts, true, db), [Initialized(reqId)], spawned)
  }

  function Update(s: Store, reqId: u64, msg: Msg, database: Database): (r: Step<Store, Reply>)
    ensures |r.replies| == (if msg.StartWatching? then 0 else 1)
    ensures msg.StartWatching? ==> r.store == s && r.spawned == [Watch(reqId, msg.url)]
  {
    match msg
    case Initialize(appDir) => InitializeStep(s, reqId, appDir, database)
    case StartWatching(url) => Step(s, [], [Watch(reqId, url)])
    case StopWatching(id) => Step(s.(posts := s.posts - {id}), [StoppedWatching(reqId, id)], [])
  }

  /** However many times `Initialize` arrives, one poll loop is started. */
  lemma InitializeTwiceOnePoller(s: Store, a: u64, b: u64, dirA: string, dirB: string, database: Database)
    requires !s.polling
    ensures var first := Update(s, a, Initialize(dirA), database);
      var second := Update(first.store, b, Initialize(dirB), database);
      first.spawned + second.spawned == [PollLoop]
  {
  }

  /** With a database open afterwards, the posts are exactly the loaded ones,
      each under its own id (a later duplicate wins); a failed load empties
      the map. The database is looked for under the app directory. */
  lemma InitializeLoadsPosts(s: Store, reqId: u64, appDir: string, database: Database)
    ensures var r := Update(s, reqId, Initialize(appDir), database).store;
      && (s.db.None? ==> r.db == (match database.open(JoinPath(appDir, DB_NAME))
                                  case Ok(d) => Some(d) case Err(_) => None))
      && (r.db.Some? && database.allPosts(r.db.value).Err? ==> r.posts == map[])
      && (r.db.Some? && database.allPosts(r.db.value).Ok? ==>
            var loaded := database.allPosts(r.db.value).value;
            (forall id :: id in r.posts <==> HasKey(loaded, PostKey, id)) &&
            (forall id :: id in r.posts ==> exists i :: LastWithKey(loaded, PostKey, id, i) && r.posts[id] == loaded[i]))
  {
    var r := Update(s, reqId, Initialize(appDir), database).store;
    if r.db.Some? && database.allPosts(r.db.value).Ok? {
      var loaded := database.allPosts(r.db.value).value;
      forall id | id in r.posts
        ensures exists i :: LastWithKey(loaded, PostKey, id, i) && r.posts[id] == loaded[i]
      {
        IndexLast(loaded, PostKey, id);
      }
    }
  }

  /** `StopWatching(id)` removes that one key, keeps every other entry, and
      replies even when the id was not watched. */
  lemma StopWatchingFrame(s: Store, reqId: u64, id: string, database: Database)
    ensures var r := Update(s, reqId, StopWatching(id), database);
      && id !in r.store.posts
      && (forall k :: k != id ==> (k in r.store.posts <==> k in s.posts))
      && (forall k :: k != id && k in s.posts ==> r.store.posts[k] == s.posts[k])
      && r.store.polling == s.polling && r.store.db == s.db
      && r.replies == [StoppedWatching(reqId, id)] && r.spawned == []
  {
  }

  /** Every message keeps each post under its own id. */
  lemma UpdateKeepsValid(s: Store, reqId: u64, msg: Msg, database: Database)
    requires Valid(s)
    ensures Valid(Update(s, reqId, msg, database).store)
  {
  }

  // ---------------------------------------------------------------------
  // The watch thread
  // ---------------------------------------------------------------------

  /** A post first seen now, from its page. */
  function NewPost(p: Page, now: nat): (r: Post)
    ensures r.id == p.id && r.title == p.title && r.url == p.url && r.scores == [] && r.added == now
  {
    Post(now, p.id, p.title, p.url, [])
  }

  /** `try_start_watching(url)` given the outcome of `query_page(url)`: a
      page error is wrapped with the URL; with a database open the post is
      looked up there (a lookup error is passed on as is) and gets its stored
      scores, or none when they fail to load; otherwise it is a new post. */
  function TryStartWatching(s: Store, url: string, page: Outcome<Page>, database: Database, now: nat): (r: Outcome<Post>)
    ensures r.Panicked? <==> page.Panicked?
    ensures page.Returned? && page.result.Err? ==>
      r == Returned(Err(FAILED_PAGE + url + ERROR_SEP + page.result.error))
  {
    match page
    case Panicked(m) => Panicked(m)
    case Returned(Err(e)) => Returned(Err(FAILED_PAGE + url + ERROR_SEP + e))
    case Returned(Ok(p)) =>
      if s.db.None? then Returned(Ok(NewPost(p, now)))
      else
        match database.getPost(s.db.value, p.id)
        case Err(e) => Returned(Err(e))
        case Ok(None) => Returned(Ok(NewPost(p, now)))
        case Ok(Some(post)) =>
          var scores := match database.getScores(s.db.value, post)
                        case Ok(scores) => scores
                        case Err(_) => [];
          Returned(Ok(post.(scores := scores)))
  }

  /** Where the post comes from: the page, when no database is open or it
      does not know the id; the database, with its scores or none. */
  lemma WatchedPostSource(s: Store, url: string, p: Page, database: Database, now: nat)
    ensures var r := TryStartWatching(s, url, Returned(Ok(p)), database, now);
      && (s.db.None? || database.getPost(s.db.value, p.id) == Ok(None) ==> r == Returned(Ok(NewPost(p, now))))
      && (s.db.Some? && database.getPost(s.db.value, p.id).Ok? && database.getPost(s.db.value, p.id).value.Some? ==>
            var stored := database.getPost(s.db.value, p.id).value.value;
            var loaded := database.getScores(s.db.value, stored);
            r == Returned(Ok(stored.(scores := if loaded.Ok? then loaded.value else []))))
  {
  }

  /** The end of the watch thread: a post is inserted under its id, replacing
      any post there, and `StartedWatching` is posted; an error is posted as
      `FailedRequest`; a panic ends the thread with no reply at all. */
  function FinishStartWatching(s: Store, reqId: u64, outcome: Outcome<Post>): (r: Step<Store, Reply>)
    ensures r.spawned == [] && r.store.polling == s.polling && r.store.db == s.db
    ensures outcome.Panicked? ==> r.store == s && r.replies == []
    ensures outcome.IsOk() ==> r.replies == [StartedWatching(reqId, outcome.result.value.id)]
    ensures outcome.Returned? && outcome.result.Err? ==>
      r.store == s && r.replies == [FailedRequest(reqId, outcome.result.error)]
  {
    match outcome
    case Panicked(_) => Step(s, [], [])
    case Returned(Ok(post)) => Step(s.(posts := s.posts[post.id := post]), [StartedWatching(reqId, post.id)], [])
    case Returned(Err(e)) => Step(s, [FailedRequest(reqId, e)], [])
  }

  /** The whole watch thread for `StartWatching(url)`. */
  function WatchThread(s: Store, reqId: u64, url: string, page: Outcome<Page>, database: Database, now: nat): (r: Step<Store, Reply>)
    ensures |r.replies| <= 1
    ensures r.replies == [] <==> page.Panicked?
  {
    FinishStartWatching(s, reqId, TryStartWatching(s, url, page, database, now))
  }

  /** A successful watch puts the post under its own id and leaves every
      other entry alone; a failed one changes nothing. */
  lemma WatchThreadFrame(s: Store, reqId: u64, url: string, page: Outcome<Page>, database: Database, now: nat)
    requires Valid(s)
    ensures var o := TryStartWatching(s, url, page, database, now);
      var r := WatchThread(s, reqId, url, page, database, now);
      && Valid(r.store)
      && (o.IsOk() ==> r.store.posts == s.posts[o.result.value.id := o.result.value])
      && (!o.IsOk() ==> r.store == s)
  {
  }

  // ---------------------------------------------------------------------
  // One turn of the poll loop
  // ---------------------------------------------------------------------

  /** Every post was added no later than `now`. */
  ghost predicate AddedBy(posts: map<string, Post>, now: nat) {
    forall k :: k in posts ==> posts[k].added <= now
  }

  /** The scores a list of fetched values gives post `id`, in order. */
  function ScoresFor(scores: seq<(string, i32)>, id: string, secs: nat): (r: seq<Score>)
    ensures |r| <= |scores|
  {
    if scores == [] then []
    else (if scores[0].0 == id then [Score(secs, scores[0].1)] else []) + ScoresFor(scores[1..], id, secs)
  }

  /** One score pushed onto a post, stamped with the seconds since it was
      added. */
  function AddScore(post: Post, now: nat, score: i32): (r: Post)
    requires post.added <= now
    ensures |r.scores| == |post.scores| + 1 && r.scores[..|post.scores|] == post.scores
    ensures r.scores[|post.scores|] == Score(now - post.added, score)
    ensures r.added == post.added && r.id == post.id && r.title == post.title && r.url == post.url
  {
    post.(scores := post.scores + [Score(now - post.added, score)])
  }

  /** The write-locked loop of the poll cycle with the missing-post case
      skipped: each fetched score is appended to its post, a post that is no
      longer watched is passed over. */
  function ApplyScores(posts: map<string, Post>, scores: seq<(string, i32)>, now: nat): (r: map<string, Post>)
    requires AddedBy(posts, now)
    ensures r.Keys == posts.Keys
    decreases |scores|
  {
    if scores == [] then posts
    else
      var id := scores[0].0;
      var next := if id in posts then posts[id := AddScore(posts[id], now, scores[0].1)] else posts;
      ApplyScores(next, scores[1..], now)
  }

  /** Every post ends with its old scores followed by one score per fetched
      value for it, in fetch order, each stamped `now - added`. */
  lemma {:induction false} ApplyScoresEntries(posts: map<string, Post>, scores: seq<(string, i32)>, now: nat, k: string)
    requires AddedBy(posts, now) && k in posts
    ensures ApplyScores(posts, scores, now)[k].scores
      == posts[k].scores + ScoresFor(scores, k, now - posts[k].added)
    decreases |scores|
  {
    if scores != [] {
      var id := scores[0].0;
      var next := if id in posts then posts[id := AddScore(posts[id], now, scores[0].1)] else posts;
      AddScoreKeepsAddedBy(posts, scores[0], now);
      var p := posts[k];
      var q := if k == id then AddScore(p, now, scores[0].1) else p;
      assert next[k] == q && q.added == p.added;
      var rest := ScoresFor(scores[1..], k, now - p.added);
      assert ApplyScores(posts, scores, now) == ApplyScores(next, scores[1..], now);
      ApplyScoresEntries(next, scores[1..], now, k);
      assert ApplyScores(posts, scores, now)[k].scores == q.scores + rest;
      ApplyHead(p, now, scores, k);
    } else {
      assert posts[k].scores + [] == posts[k].scores;
    }
  }

  /** The loop changes nothing in a post but its scores. */
  lemma {:induction false} ApplyScoresFrame(posts: map<string, Post>, scores: seq<(string, i32)>, now: nat, k: string)
    requires AddedBy(posts, now) && k in posts
    ensures ApplyScores(posts, scores, now)[k] == posts[k].(scores := ApplyScores(posts, scores, now)[k].scores)
    decreases |scores|
  {
    if scores != [] {
      var id := scores[0].0;
      var next := if id in posts then posts[id := AddScore(posts[id], now, scores[0].1)] else posts;
      AddScoreKeepsAddedBy(posts, scores[0], now);
      assert next[k] == posts[k].(scores := next[k].scores);
      assert ApplyScores(posts, scores, now) == ApplyScores(next, scores[1..], now);
      ApplyScoresFrame(next, scores[1..], now, k);
    }
  }

  /** Recording one fetched value keeps every post added by `now`. */
  lemma AddScoreKeepsAddedBy(posts: map<string, Post>, score: (string, i32), now: nat)
    requires AddedBy(posts, now)
    ensures score.0 in posts ==> AddedBy(posts[score.0 := AddScore(posts[score.0], now, score.1)], now)
  {
  }

  /** Recording the first fetched value, then the rest, is recording all. */
  lemma ApplyHead(p: Post, now: nat, scores: seq<(string, i32)>, k: string)
    requires p.added <= now && scores != []
    ensures var q := if k == scores[0].0 then AddScore(p, now, scores[0].1) else p;
      q.scores + ScoresFor(scores[1..], k, now - p.added) == p.scores + ScoresFor(scores, k, now - p.added)
  {
    var secs := now - p.added;
    if scores[0].0 == k {
      assert ScoresFor(scores, k, secs) == [Score(secs, scores[0].1)] + ScoresFor(scores[1..], k, secs);
      assert p.scores + [Score(secs, scores[0].1)] + ScoresFor(scores[1..], k, secs)
        == p.scores + ScoresFor(scores, k, secs);
    }
  }

  /** One turn of the poll loop, with a missing post skipped: every fetched
      score is recorded and one `UpdatedScores` is posted. */
  function PollCycle(s: Store, results: seq<(string, Result<i32>)>, now: nat): (r: Step<Store, Reply>)
    requires AddedBy(s.posts, now)
    ensures r.replies == [UpdatedScores] && r.spawned == []
    ensures r.store.posts.Keys == s.posts.Keys && r.store.polling == s.polling && r.store.db == s.db
  {
    Step(s.(posts := ApplyScores(s.posts, Fetched(results), now)), [UpdatedScores], [])
  }

  /** A fetched score the source's loop cannot record: its post is no
      longer watched, or was added after `now`. */
  ghost predicate Unrecordable(posts: map<string, Post>, score: (string, i32), now: nat) {
    score.0 !in posts || posts[score.0].added > now
  }

  /** `scores[i]` is the first fetched score the loop cannot record. */
  ghost predicate FirstUnrecordableAt(posts: map<string, Post>, scores: seq<(string, i32)>, now: nat, i: int) {
    && 0 <= i < |scores| && Unrecordable(posts, scores[i], now)
    && forall j :: 0 <= j < i ==> !Unrecordable(posts, scores[j], now)
  }

  /** The panic the loop raises on a score it cannot record. */
  function UnrecordablePanic(posts: map<string, Post>, score: (string, i32), now: nat): string
    requires Unrecordable(posts, score, now)
  {
    if score.0 !in posts then UNWRAP_NONE else DurationPanic(posts[score.0].added - now)
  }

  /** The write-locked loop as the source writes it: `get_mut(&id).unwrap()`
      panics for a post that is no longer watched, and the `expect` on
      `duration_since` panics when the clock reads earlier than `added`. */
  function ApplyScoresAsWritten(posts: map<string, Post>, scores: seq<(string, i32)>, now: nat): (r: Outcome<map<string, Post>>)
    ensures r.Panicked? <==> exists i :: 0 <= i < |scores| && Unrecordable(posts, scores[i], now)
    ensures forall i :: FirstUnrecordableAt(posts, scores, now, i) ==> r == Panicked(UnrecordablePanic(posts, scores[i], now))
    ensures r.Returned? ==> r.result.Ok? && r.result.value.Keys == posts.Keys
    decreases |scores|
  {
    if scores == [] then Returned(Ok(posts))
    else
      var id := scores[0].0;
      if id !in posts then Panicked(UNWRAP_NONE)
      else if now < posts[id].added then Panicked(DurationPanic(posts[id].added - now))
      else
        var next := posts[id := AddScore(posts[id], now, scores[0].1)];
        RecordingKeepsUnrecordable(posts, scores[0], now);
        ShiftUnrecordable(posts, next, scores, now);
        ApplyScoresAsWritten(next, scores[1..], now)
  }

  /** Recording a score changes neither which scores the loop cannot record
      nor the panic they raise. */
  lemma RecordingKeepsUnrecordable(posts: map<string, Post>, score: (string, i32), now: nat)
    requires !Unrecordable(posts, score, now)
    ensures var next := posts[score.0 := AddScore(posts[score.0], now, score.1)];
      && (forall sc :: Unrecordable(next, sc, now) <==> Unrecordable(posts, sc, now))
      && (forall sc :: Unrecordable(posts, sc, now) ==> UnrecordablePanic(next, sc, now) == UnrecordablePanic(posts, sc, now))
  {
  }

  /** Past a recordable head, the unrecordable scores of the tail under the
      updated map are those of the whole list, one place earlier. */
  lemma ShiftUnrecordable(posts: map<string, Post>, next: map<string, Post>, scores: seq<(string, i32)>, now: nat)
    requires scores != [] && !Unrecordable(posts, scores[0], now)
    requires forall sc :: Unrecordable(next, sc, now) <==> Unrecordable(posts, sc, now)
    ensures (exists i :: 0 <= i < |scores| && Unrecordable(posts, scores[i], now))
      <==> (exists i :: 0 <= i < |scores[1..]| && Unrecordable(next, scores[1..][i], now))
    ensures forall i :: FirstUnrecordableAt(posts, scores, now, i) ==>
      0 < i && scores[i] == scores[1..][i - 1] && FirstUnrecordableAt(next, scores[1..], now, i - 1)
  {
    var tail := scores[1..];
    if i :| 0 <= i < |scores| && Unrecordable(posts, scores[i], now) {
      assert scores[i] == tail[i - 1];
    }
    forall i | FirstUnrecordableAt(posts, scores, now, i)
      ensures 0 < i && scores[i] == tail[i - 1] && FirstUnrecordableAt(next, tail, now, i - 1)
    {
      assert scores[i] == tail[i - 1];
      forall j | 0 <= j < i - 1 ensures !Unrecordable(next, tail[j], now) {
        assert tail[j] == scores[j + 1];
      }
    }
  }

  /** The poll cycle as written. The scores are fetched one id after
      another before the write lock is taken, so the first fetch that panics
      ends the poll thread with nothing written and no reply; otherwise the
      successful scores go through the write loop as written. */
  function PollCycleAsWritten(s: Store, fetches: seq<(string, Outcome<i32>)>, now: nat): (r: Outcome<Step<Store, Reply>>)
    ensures forall i :: FirstPanicAt(Outcomes(fetches), i) ==> r == Panicked(fetches[i].1.message)
    ensures r.Returned? ==> r.result.Ok? && r.result.value.replies == [UpdatedScores] && r.result.value.spawned == []
    ensures r.Returned? ==> r.result.value.store.posts.Keys == s.posts.Keys && r.result.value.store.polling == s.polling
    ensures r.Panicked? <==>
      (exists i :: 0 <= i < |fetches| && fetches[i].1.Panicked?) ||
      (exists i :: 0 <= i < |fetches| && fetches[i].1.IsOk() && Unrecordable(s.posts, (fetches[i].0, fetches[i].1.result.value), now))
  {
    match FirstPanic(Outcomes(fetches))
    case Some(m) => Panicked(m)
    case None =>
      var results := Settled(fetches);
      var scores := Fetched(results);
      var written := ApplyScoresAsWritten(s.posts, scores, now);
      assert written.Panicked? <==> exists i :: 0 <= i < |fetches| && fetches[i].1.IsOk()
                                             && Unrecordable(s.posts, (fetches[i].0, fetches[i].1.result.value), now) by {
        if written.Panicked? {
          var k :| 0 <= k < |scores| && Unrecordable(s.posts, scores[k], now);
          assert scores[k] in scores;
          assert (scores[k].0, Ok(scores[k].1)) in results;
          var i :| 0 <= i < |results| && results[i] == (scores[k].0, Ok(scores[k].1));
          assert fetches[i].1.IsOk() && (fetches[i].0, fetches[i].1.result.value) == scores[k];
        }
        if i :| 0 <= i < |fetches| && fetches[i].1.IsOk() && Unrecordable(s.posts, (fetches[i].0, fetches[i].1.result.value), now) {
          assert results[i] == (fetches[i].0, Ok(fetches[i].1.result.value));
          assert (fetches[i].0, fetches[i].1.result.value) in scores;
          var k :| 0 <= k < |scores| && scores[k] == (fetches[i].0, fetches[i].1.result.value);
        }
      }
      if written.Panicked? then Panicked(written.message)
      else Returned(Ok(Step(s.(posts := written.result.value), [UpdatedScores], [])))
  }

  /** Every child's score fits the `i32` the response is decoded into. */
  predicate ScoresFitI32(root: ApiRoot) {
    forall i :: 0 <= i < |root.data.children| ==> I32_MIN <= root.data.children[i].data.score < I32_LIMIT
  }

  /** `query_score` as the poll loop receives it: every child's score is
      decoded as an `i32`, so a response with any score outside that range is
      a decoding error, raised before the first child is read. */
  function FetchScore(id: string, get: string -> Result<ApiRoot>): (r: Outcome<i32>)
    ensures r.Panicked? <==> RedditFetch.QueryScore(id, get).Panicked?
    ensures r.Panicked? ==> r.message == RedditFetch.NO_SCORE_CHILD
    ensures get(ScoreRequestUrl(id)).Err? ==> r == Returned(Err(get(ScoreRequestUrl(id)).error))
    ensures get(ScoreRequestUrl(id)).Ok? && !ScoresFitI32(get(ScoreRequestUrl(id)).value) ==>
      r == Returned(Err(SCORE_OUT_OF_RANGE))
    ensures RedditFetch.QueryScore(id, get).IsOk() && ScoresFitI32(get(ScoreRequestUrl(id)).value) ==>
      I32_MIN <= RedditFetch.QueryScore(id, get).result.value < I32_LIMIT &&
      r == Returned(Ok(RedditFetch.QueryScore(id, get).result.value as i32))
    ensures r.IsOk() ==> RedditFetch.QueryScore(id, get) == Returned(Ok(r.result.value as int))
  {
    match get(ScoreRequestUrl(id))
    case Err(e) => Returned(Err(e))
    case Ok(root) =>
      if !ScoresFitI32(root) then Returned(Err(SCORE_OUT_OF_RANGE))
      else if root.data.children == [] then Panicked(RedditFetch.NO_SCORE_CHILD)
      else Returned(Ok(root.data.children[0].data.score as i32))
  }

  /** Only the first child's score is returned, but a later child's score
      outside `i32` still makes the whole response a decoding error. */
  lemma FetchScoreChecksEveryChild(id: string, get: string -> Result<ApiRoot>)
    requires get(ScoreRequestUrl(id)) == Ok(ApiRoot(ApiData([ApiChild(ScoreData(5)), ApiChild(ScoreData(I32_LIMIT))])))
    ensures RedditFetch.QueryScore(id, get) == Returned(Ok(5))
    ensures FetchScore(id, get) == Returned(Err(SCORE_OUT_OF_RANGE))
  {
    var root := get(ScoreRequestUrl(id)).value;
    assert root.data.children[1].data.score == I32_LIMIT;
  }

  /** The scores of the watched ids, fetched in order. */
  function FetchScores(ids: seq<string>, get: string -> Result<ApiRoot>): (r: seq<(string, Outcome<i32>)>)
    ensures |r| == |ids| && forall i :: 0 <= i < |ids| ==> r[i] == (ids[i], FetchScore(ids[i], get))
  {
    seq(|ids|, i requires 0 <= i < |ids| => (ids[i], FetchScore(ids[i], get)))
  }

  /** A score response without children, reached before any other fetch
      panics, ends the poll thread: no score is written and no
      `UpdatedScores` is posted, and since `polling` stays set no later
      `Initialize` starts another poller. */
  lemma EmptyScoreResponseStopsPolling(s: Store, ids: seq<string>, get: string -> Result<ApiRoot>, now: nat,
                                       i: nat, reqId: u64, appDir: string, database: Database)
    requires i < |ids| && get(ScoreRequestUrl(ids[i])) == Ok(ApiRoot(ApiData([])))
    requires forall j :: 0 <= j < i ==> get(ScoreRequestUrl(ids[j])).Err? || get(ScoreRequestUrl(ids[j])).value.data.children != []
    requires s.polling
    ensures PollCycleAsWritten(s, FetchScores(ids, get), now) == Panicked(RedditFetch.NO_SCORE_CHILD)
    ensures Update(s, reqId, Initialize(appDir), database).spawned == []
  {
    var fetches := FetchScores(ids, get);
    assert FirstPanicAt(Outcomes(fetches), i);
  }

  /** Each fetched id still watched, under a clock that has not gone back:
      the source's loop and the corrected one agree. */
  lemma {:induction false} ApplyScoresAgree(posts: map<string, Post>, scores: seq<(string, i32)>, now: nat)
    requires AddedBy(posts, now)
    requires forall i :: 0 <= i < |scores| ==> scores[i].0 in posts
    ensures ApplyScoresAsWritten(posts, scores, now) == Returned(Ok(ApplyScores(posts, scores, now)))
    decreases |scores|
  {
    if scores != [] {
      var id := scores[0].0;
      var next := posts[id := AddScore(posts[id], now, scores[0].1)];
      assert forall i :: 0 <= i < |scores[1..]| ==> scores[1..][i].0 in next by {
        forall i | 0 <= i < |scores[1..]| ensures scores[1..][i].0 in next {
          assert scores[1..][i] == scores[i + 1];
        }
      }
      ApplyScoresAgree(next, scores[1..], now);
    }
  }

  /** Every fetch returned, each fetched id is still watched and the clock
      has not gone back: the cycle as written is the corrected one. */
  lemma PollCycleAgree(s: Store, fetches: seq<(string, Outcome<i32>)>, now: nat)
    requires AddedBy(s.posts, now)
    requires forall i :: 0 <= i < |fetches| ==> fetches[i].1.Returned?
    requires forall i :: 0 <= i < |fetches| && fetches[i].1.IsOk() ==> fetches[i].0 in s.posts
    ensures PollCycleAsWritten(s, fetches, now) == Returned(Ok(PollCycle(s, Settled(fetches), now)))
  {
    var results := Settled(fetches);
    var f := Fetched(results);
    forall i | 0 <= i < |f| ensures f[i].0 in s.posts {
      assert f[i] in f;
      assert (f[i].0, Ok(f[i].1)) in results;
      var j :| 0 <= j < |results| && results[j] == (f[i].0, Ok(f[i].1));
      assert fetches[j].1.IsOk();
    }
    ApplyScoresAgree(s.posts, f, now);
  }

  /** The ids are read under one lock and the scores written under another,
      so a `StopWatching` can run between the two: the source's loop then
      unwraps a missing post and the poll thread dies, while `polling` stays
      set so no later `Initialize` restarts it. The corrected loop records
      nothing for the stopped post and carries on. */
  lemma PollRaceWithStopWatching(database: Database)
    ensures var post := Post(0, "t3_a", "title", "https://a", []);
      var before := Store(map["t3_a" := post], true, None);
      var fetches: seq<(string, Outcome<i32>)> := [("t3_a", Returned(Ok(5)))];
      var after := Update(before, 1, StopWatching("t3_a"), database).store;
      && (forall i :: 0 <= i < |fetches| ==> fetches[i].0 in before.posts)
      && PollCycleAsWritten(after, fetches, 3) == Panicked(UNWRAP_NONE)
      && PollCycle(after, Settled(fetches), 3).store == after
      && Update(after, 2, Initialize("/app"), database).spawned == []
  {
    var fetches: seq<(string, Outcome<i32>)> := [("t3_a", Returned(Ok(5)))];
    assert Settled(fetches) == [("t3_a", Ok(5))];
    assert Fetched(Settled(fetches)) == [("t3_a", 5)];
  }

  /** With distinct ids among the results, as they are when read from the
      map's keys, a post whose fetch succeeded gets exactly one new score,
      stamped `now - added` seconds. */
  lemma PollCycleOneScore(s: Store, results: seq<(string, Result<i32>)>, now: nat, id: string, v: i32)
    requires AddedBy(s.posts, now)
    requires forall i, j :: 0 <= i < j < |results| ==> results[i].0 != results[j].0
    requires id in s.posts && (id, Ok(v)) in results
    ensures PollCycle(s, results, now).store.posts[id] == AddScore(s.posts[id], now, v)
  {
    ApplyScoresEntries(s.posts, Fetched(results), now, id);
    ApplyScoresFrame(s.posts, Fetched(results), now, id);
    FetchedScoresOne(results, id, now - s.posts[id].added, v);
  }

  /** A post whose fetch failed, or that was not fetched, is left as it was. */
  lemma PollCycleSkipsFailed(s: Store, results: seq<(string, Result<i32>)>, now: nat, id: string)
    requires AddedBy(s.posts, now)
    requires id in s.posts && forall v :: (id, Ok(v)) !in results
    ensures PollCycle(s, results, now).store.posts[id] == s.posts[id]
  {
    var f := Fetched(results);
    var secs := now - s.posts[id].added;
    ApplyScoresEntries(s.posts, f, now, id);
    ApplyScoresFrame(s.posts, f, now, id);
    FetchedScoresNone(results, id, secs);
    assert s.posts[id].scores + [] == s.posts[id].scores;
  }

  /** No successful fetch for an id: the fetched scores hold nothing for it. */
  lemma {:induction false} FetchedScoresNone(results: seq<(string, Result<i32>)>, id: string, secs: nat)
    requires forall v :: (id, Ok(v)) !in results
    ensures ScoresFor(Fetched(results), id, secs) == []
    decreases |results|
  {
    if results != [] {
      var tail := results[1..];
      assert forall v :: (id, Ok(v)) !in tail by {
        forall v, j | 0 <= j < |tail| ensures tail[j] != (id, Ok(v)) {
          assert results[j + 1] == tail[j];
        }
      }
      FetchedScoresNone(tail, id, secs);
      var head := if results[0].1.Ok? then [(results[0].0, results[0].1.value)] else [];
      assert Fetched(results) == head + Fetched(tail);
      ScoresForAppend(head, Fetched(tail), id, secs);
      if results[0].1.Ok? {
        assert results[0] == (results[0].0, Ok(results[0].1.value));
      }
    }
  }

  /** With distinct ids, the one successful fetch for an id is the one score
      recorded for it. */
  lemma {:induction false} FetchedScoresOne(results: seq<(string, Result<i32>)>, id: string, secs: nat, v: i32)
    requires forall i, j :: 0 <= i < j < |results| ==> results[i].0 != results[j].0
    requires (id, Ok(v)) in results
    ensures ScoresFor(Fetched(results), id, secs) == [Score(secs, v)]
    decreases |results|
  {
    var tail := results[1..];
    var head := if results[0].1.Ok? then [(results[0].0, results[0].1.value)] else [];
    assert Fetched(results) == head + Fetched(tail);
    ScoresForAppend(head, Fetched(tail), id, secs);
    var k :| 0 <= k < |results| && results[k] == (id, Ok(v));
    if k == 0 {
      forall w ensures (id, Ok(w)) !in tail {
        forall j | 0 <= j < |tail| ensures tail[j] != (id, Ok(w)) {
          assert results[j + 1] == tail[j];
        }
      }
      FetchedScoresNone(tail, id, secs);
    } else {
      assert tail[k - 1] == results[k];
      forall i, j | 0 <= i < j < |tail| ensures tail[i].0 != tail[j].0 {
        assert tail[i] == results[i + 1] && tail[j] == results[j + 1];
      }
      FetchedScoresOne(tail, id, secs, v);
      assert results[0].0 != id;
    }
  }

  lemma {:induction false} ScoresForAppend(a: seq<(string, i32)>, b: seq<(string, i32)>, id: string, secs: nat)
    ensures ScoresFor(a + b, id, secs) == ScoresFor(a, id, secs) + ScoresFor(b, id, secs)
    decreases |a|
  {
    if a == [] {
      assert a + b == b;
    } else {
      var ab := a + b;
      assert ab[0] == a[0] && ab[1..] == a[1..] + b;
      ScoresForAppend(a[1..], b, id, secs);
      var h := if a[0].0 == id then [Score(secs, a[0].1)] else [];
      var ra, rb := ScoresFor(a[1..], id, secs), ScoresFor(b, id, secs);
      assert ScoresFor(ab, id, secs) == h + (ra + rb);
      assert ScoresFor(a, id, secs) == h + ra;
      assert h + (ra + rb) == (h + ra) + rb;
    }
  }

  /** A poll cycle keeps each post under its own id. */
  lemma PollCycleKeepsValid(s: Store, results: seq<(string, Result<i32>)>, now: nat)
    requires Valid(s) && AddedBy(s.posts, now)
    ensures Valid(PollCycle(s, results, now).store)
    ensures AddedBy(PollCycle(s, results, now).store.posts, now)
  {
    var posts := PollCycle(s, results, now).store.posts;
    forall k | k in posts ensures posts[k] == s.posts[k].(scores := posts[k].scores) {
      ApplyScoresFrame(s.posts, Fetched(results), now, k);
    }
  }
}

=== FILE: todo_list.dfy ===
/** The todo-list logic that the four todo stores share line for line:
    `Todo`, `Filter`, `remove_todo`, `update_todo`, `todo_by_id`,
    `retain(|t| !t.completed)` and `filtered_todos`, whose `vec.sort()` uses
    the derived `PartialOrd` of `Todo`. */
module TodoList {
  import opened Wrappers
  import opened Ints

  /** Which todos `filtered_todos` returns. */
  datatype Filter = Completed | Pending | All

  /** A todo. `X` is the variant's expiry state: the plain stores carry none
      (`()`), the cubit stores carry `expiry_millis`. */
  datatype Todo<X> = Todo(id: u32, title: string, completed: bool, expiry: X)

  predicate Matches<X(!new)>(f: Filter, t: Todo<X>) {
    match f
    case Completed => t.completed
    case Pending => !t.completed
    case All => true
  }

  /** No two todos share an id. */
  ghost predicate IdsDistinct<X(!new)>(todos: seq<Todo<X>>) {
    forall i, j :: 0 <= i < j < |todos| ==> todos[i].id != todos[j].id
  }

  /** `i` is the position `iter().find(|x| x.id == id)` stops at. */
  ghost predicate FirstWithId<X(!new)>(todos: seq<Todo<X>>, id: u32, i: int) {
    && 0 <= i < |todos|
    && todos[i].id == id
    && forall j :: 0 <= j < i ==> todos[j].id != id
  }

  ghost predicate HasId<X(!new)>(todos: seq<Todo<X>>, id: u32) {
    exists i :: 0 <= i < |todos| && todos[i].id == id
  }

  /** The index `iter().enumerate().find(..)` yields: the first todo with `id`. */
  function IndexOf<X(!new)>(todos: seq<Todo<X>>, id: u32): (r: Option<nat>)
    ensures r.Some? ==> FirstWithId(todos, id, r.value)
    ensures r.None? ==> forall j :: 0 <= j < |todos| ==> todos[j].id != id
  {
    if todos == [] then None
    else if todos[0].id == id then Some(0)
    else
      match IndexOf(todos[1..], id)
      case None => None
      case Some(k) => Some(k + 1)
  }

  /** `todo_by_id`: the first todo with `id`, if any. */
  function TodoById<X(!new)>(todos: seq<Todo<X>>, id: u32): (r: Option<Todo<X>>)
    ensures r.Some? <==> HasId(todos, id)
    ensures r.Some? ==> exists i :: FirstWithId(todos, id, i) && r.value == todos[i]
  {
    match IndexOf(todos, id)
    case None => None
    case Some(i) => Some(todos[i])
  }

  /** `remove_todo`: removes the first todo with `id`; an unknown id leaves the
      list as it was. */
  function RemoveTodo<X(!new)>(todos: seq<Todo<X>>, id: u32): (r: seq<Todo<X>>)
    ensures !HasId(todos, id) ==> r == todos
    ensures |r| == if HasId(todos, id) then |todos| - 1 else |todos|
  {
    match IndexOf(todos, id)
    case None => todos
    case Some(i) => todos[..i] + todos[i + 1..]
  }

  /** With `id` present, `remove_todo` cuts out exactly the first todo with
      that id. */
  lemma RemoveTodoFirst<X(!new)>(todos: seq<Todo<X>>, id: u32)
    requires HasId(todos, id)
    ensures exists i :: FirstWithId(todos, id, i) && RemoveTodo(todos, id) == todos[..i] + todos[i + 1..]
  {
    var i := IndexOf(todos, id).value;
    assert FirstWithId(todos, id, i);
  }

  /** `update_todo`: applies `change` to the first todo with `id` and to no
      other; an unknown id changes nothing. */
  function UpdateTodo<X(!new)>(todos: seq<Todo<X>>, id: u32, change: Todo<X> -> Todo<X>): (r: seq<Todo<X>>)
    ensures |r| == |todos|
    ensures !HasId(todos, id) ==> r == todos
    ensures HasId(todos, id) ==>
      exists i :: FirstWithId(todos, id, i) && r == todos[i := change(todos[i])]
  {
    match IndexOf(todos, id)
    case None => todos
    case Some(i) => todos[i := change(todos[i])]
  }

  /** `iter_mut().for_each(change)`. */
  function UpdateAll<X(!new)>(todos: seq<Todo<X>>, change: Todo<X> -> Todo<X>): (r: seq<Todo<X>>)
    ensures |r| == |todos|
    ensures forall i :: 0 <= i < |todos| ==> r[i] == change(todos[i])
  {
    seq(|todos|, i requires 0 <= i < |todos| => change(todos[i]))
  }

  /** `iter().filter(..)` for a filter, and `retain` with the `Pending` filter:
      the matching todos in their original order. */
  function Select<X(!new)>(todos: seq<Todo<X>>, f: Filter): (r: seq<Todo<X>>)
    ensures |r| <= |todos|
    ensures forall t :: t in r <==> t in todos && Matches(f, t)
  {
    if todos == [] then []
    else
      var rest := Select(todos[1..], f);
      assert todos == [todos[0]] + todos[1..];
      if Matches(f, todos[0]) then [todos[0]] + rest else rest
  }

  /** Selection keeps each matching todo as often as it occurs and drops the
      others. */
  lemma {:induction false} SelectCounts<X(!new)>(todos: seq<Todo<X>>, f: Filter)
    ensures forall t :: multiset(Select(todos, f))[t] == if Matches(f, t) then multiset(todos)[t] else 0
    decreases |todos|
  {
    if todos != [] {
      SelectCounts(todos[1..], f);
      assert todos == [todos[0]] + todos[1..];
      assert multiset(todos) == multiset{todos[0]} + multiset(todos[1..]);
    }
  }

  /** Selection keeps the order of the list: selecting from a concatenation is
      concatenating the selections. */
  lemma {:induction false} SelectAppend<X(!new)>(a: seq<Todo<X>>, b: seq<Todo<X>>, f: Filter)
    ensures Select(a + b, f) == Select(a, f) + Select(b, f)
    decreases |a|
  {
    if a == [] {
      assert a + b == b;
    } else {
      var ab := a + b;
      assert ab[0] == a[0];
      assert ab[1..] == a[1..] + b;
      SelectAppend(a[1..], b, f);
    }
  }

  /** A sub-list of a list with distinct ids has distinct ids. */
  lemma {:induction false} SelectKeepsIdsDistinct<X(!new)>(todos: seq<Todo<X>>, f: Filter)
    requires IdsDistinct(todos)
    ensures IdsDistinct(Select(todos, f))
    decreases |todos|
  {
    if todos != [] {
      var tail := todos[1..];
      var rest := Select(tail, f);
      assert IdsDistinct(tail) by {
        forall i, j | 0 <= i < j < |tail|
          ensures tail[i].id != tail[j].id
        {
          assert tail[i] == todos[i + 1] && tail[j] == todos[j + 1];
        }
      }
      SelectKeepsIdsDistinct(tail, f);
      if Matches(f, todos[0]) {
        var r := [todos[0]] + rest;
        assert Select(todos, f) == r;
        forall j | 0 <= j < |rest|
          ensures rest[j].id != todos[0].id
        {
          assert rest[j] in tail;
          var k :| 0 <= k < |tail| && tail[k] == rest[j];
          assert todos[k + 1] == rest[j];
        }
        forall a, b | 0 <= a < b < |r|
          ensures r[a].id != r[b].id
        {
          assert r[b] == rest[b - 1];
          if a > 0 {
            assert r[a] == rest[a - 1];
          }
        }
      }
    }
  }

  // ---------------------------------------------------------------------
  // Sorting by id. The derived `PartialOrd` of `Todo` compares the id
  // first and breaks ties by title, completion and expiry; ordering by id
  // alone agrees with it whenever ids are distinct, as the stores keep them.
  // ---------------------------------------------------------------------

  ghost predicate SortedById<X(!new)>(s: seq<Todo<X>>) {
    forall i, j :: 0 <= i < j < |s| ==> s[i].id <= s[j].id
  }

  ghost predicate StrictlySortedById<X(!new)>(s: seq<Todo<X>>) {
    forall i, j :: 0 <= i < j < |s| ==> s[i].id < s[j].id
  }

  /** Inserts `t` in front of the first todo whose id is not smaller. */
  function InsertById<X(!new)>(t: Todo<X>, s: seq<Todo<X>>): (r: seq<Todo<X>>)
    ensures multiset(r) == multiset(s) + multiset{t}
  {
    if s == [] || t.id <= s[0].id then [t] + s
    else
      assert s == [s[0]] + s[1..];
      [s[0]] + InsertById(t, s[1..])
  }

  /** Inserting into a sorted list keeps it sorted. */
  lemma {:induction false} InsertSorted<X(!new)>(t: Todo<X>, s: seq<Todo<X>>)
    requires SortedById(s)
    ensures SortedById(InsertById(t, s))
    decreases |s|
  {
    if s != [] && t.id > s[0].id {
      var rest := InsertById(t, s[1..]);
      InsertSorted(t, s[1..]);
      var r := [s[0]] + rest;
      assert InsertById(t, s) == r;
      forall i, j | 0 <= i < j < |r| ensures r[i].id <= r[j].id {
        assert r[j] == rest[j - 1];
        if i == 0 {
          var u := rest[j - 1];
          InsertMember(t, s[1..], u);
          if u != t {
            var k :| 0 <= k < |s[1..]| && s[1..][k] == u;
            assert s[k + 1] == u;
          }
        } else {
          assert r[i] == rest[i - 1];
        }
      }
    }
  }

  /** What an insertion holds is the inserted todo or one already there. */
  lemma InsertMember<X(!new)>(t: Todo<X>, s: seq<Todo<X>>, u: Todo<X>)
    requires u in InsertById(t, s)
    ensures u == t || u in s
  {
    assert u in multiset(InsertById(t, s));
  }

  /** Insertion sort by id. */
  function SortById<X(!new)>(s: seq<Todo<X>>): (r: seq<Todo<X>>)
    ensures SortedById(r)
    ensures multiset(r) == multiset(s)
  {
    if s == [] then []
    else
      assert s == [s[0]] + s[1..];
      InsertSorted(s[0], SortById(s[1..]));
      InsertById(s[0], SortById(s[1..]))
  }

  /** `filtered_todos`: exactly the todos the filter selects, each as often
      as it occurs, ordered by id. */
  function FilteredTodos<X(!new)>(todos: seq<Todo<X>>, f: Filter): (r: seq<Todo<X>>)
    ensures SortedById(r)
    ensures forall t :: t in r <==> t in todos && Matches(f, t)
    ensures forall t :: multiset(r)[t] == if Matches(f, t) then multiset(todos)[t] else 0
  {
    SelectCounts(todos, f);
    SortById(Select(todos, f))
  }

  /** Two lists that are sorted with distinct ids and hold the same todos are
      the same list. */
  lemma {:induction false} StrictlySortedUnique<X(!new)>(a: seq<Todo<X>>, b: seq<Todo<X>>)
    requires StrictlySortedById(a) && StrictlySortedById(b)
    requires multiset(a) == multiset(b)
    ensures a == b
    decreases |a|
  {
    if a == [] {
      assert |b| == |multiset(b)| == 0;
    } else {
      assert |b| == |multiset(b)| == |multiset(a)| == |a|;
      SameLeast(a, b);
      DropFirst(a);
      DropFirst(b);
      StrictlySortedUnique(a[1..], b[1..]);
      assert a == [a[0]] + a[1..];
      assert b == [b[0]] + b[1..];
    }
  }

  /** Of two strictly sorted lists with the same todos, the first todos agree. */
  lemma SameLeast<X(!new)>(a: seq<Todo<X>>, b: seq<Todo<X>>)
    requires StrictlySortedById(a) && StrictlySortedById(b)
    requires multiset(a) == multiset(b)
    requires a != [] && b != []
    ensures a[0] == b[0]
  {
    assert a[0] in multiset(b);
    var k :| 0 <= k < |b| && b[k] == a[0];
    assert b[0] in multiset(a);
    var m :| 0 <= m < |a| && a[m] == b[0];
    assert a[0].id <= a[m].id == b[0].id;
    assert b[0].id <= b[k].id == a[0].id;
    assert k == 0;
  }

  lemma DropFirst<X(!new)>(a: seq<Todo<X>>)
    requires a != []
    ensures multiset(a[1..]) == multiset(a) - multiset{a[0]}
  {
    assert a == [a[0]] + a[1..];
  }

  /** Inserting a todo whose id is new keeps ids distinct. */
  lemma {:induction false} InsertKeepsIdsDistinct<X(!new)>(t: Todo<X>, s: seq<Todo<X>>)
    requires IdsDistinct(s)
    requires forall u :: u in s ==> u.id != t.id
    ensures IdsDistinct(InsertById(t, s))
    decreases |s|
  {
    if s != [] && t.id > s[0].id {
      InsertKeepsIdsDistinct(t, s[1..]);
      var rest := InsertById(t, s[1..]);
      forall u | u in rest
        ensures u.id != s[0].id
      {
        assert u in multiset(s[1..]) + multiset{t};
        if u != t {
          var j :| 0 <= j < |s[1..]| && s[1..][j] == u;
          assert s[j + 1] == u;
        }
      }
    }
  }

  lemma {:induction false} SortKeepsIdsDistinct<X(!new)>(s: seq<Todo<X>>)
    requires IdsDistinct(s)
    ensures IdsDistinct(SortById(s))
    decreases |s|
  {
    if s != [] {
      SortKeepsIdsDistinct(s[1..]);
      forall u | u in SortById(s[1..])
        ensures u.id != s[0].id
      {
        assert u in multiset(SortById(s[1..]));
        var j :| 0 <= j < |s[1..]| && s[1..][j] == u;
        assert s[j + 1] == u;
      }
      InsertKeepsIdsDistinct(s[0], SortById(s[1..]));
    }
  }

  /** With distinct ids, `filtered_todos` is the only list of the selected
      todos in ascending id order: any such list equals it. */
  lemma FilteredTodosUnique<X(!new)>(todos: seq<Todo<X>>, f: Filter, other: seq<Todo<X>>)
    requires IdsDistinct(todos)
    requires StrictlySortedById(other)
    requires multiset(other) == multiset(Select(todos, f))
    ensures other == FilteredTodos(todos, f)
  {
    var r := FilteredTodos(todos, f);
    SelectKeepsIdsDistinct(todos, f);
    SortKeepsIdsDistinct(Select(todos, f));
    assert StrictlySortedById(r) by {
      forall i, j | 0 <= i < j < |r|
        ensures r[i].id < r[j].id
      {
        assert r[i].id <= r[j].id && r[i].id != r[j].id;
      }
    }
    StrictlySortedUnique(other, r);
  }

  /** With distinct ids, `remove_todo` removes every todo with that id and
      nothing else. */
  lemma RemoveTodoExact<X(!new)>(todos: seq<Todo<X>>, id: u32)
    requires IdsDistinct(todos)
    ensures forall t :: t in RemoveTodo(todos, id) <==> t in todos && t.id != id
  {
    forall t ensures t in RemoveTodo(todos, id) <==> t in todos && t.id != id {
      if t in RemoveTodo(todos, id) {
        RemoveTodoDrops(todos, id, t);
      }
      if t in todos && t.id != id {
        RemoveTodoKeeps(todos, id, t);
      }
    }
  }

  /** What `remove_todo` leaves was there before and, with distinct ids, does
      not carry `id`. */
  lemma RemoveTodoDrops<X(!new)>(todos: seq<Todo<X>>, id: u32, t: Todo<X>)
    requires IdsDistinct(todos) && t in RemoveTodo(todos, id)
    ensures t in todos && t.id != id
  {
    match IndexOf(todos, id)
    case None =>
    case Some(i) =>
      var r := todos[..i] + todos[i + 1..];
      assert RemoveTodo(todos, id) == r;
      var k :| 0 <= k < |r| && r[k] == t;
      var j := CutIndex(todos, i, k);
      assert todos[j].id != todos[i].id;
  }

  /** A todo with another id survives `remove_todo`. */
  lemma RemoveTodoKeeps<X(!new)>(todos: seq<Todo<X>>, id: u32, t: Todo<X>)
    requires t in todos && t.id != id
    ensures t in RemoveTodo(todos, id)
  {
    match IndexOf(todos, id)
    case None =>
    case Some(i) =>
      assert RemoveTodo(todos, id) == todos[..i] + todos[i + 1..];
      var j :| 0 <= j < |todos| && todos[j] == t;
      CutKeeps(todos, i, j);
  }

  /** Position `k` of a list with position `i` cut out holds the element at
      `k` or, from `i` on, at `k + 1`. */
  lemma CutIndex<T>(s: seq<T>, i: nat, k: nat) returns (j: nat)
    requires i < |s| && k < |s| - 1
    ensures j < |s| && j != i && (s[..i] + s[i + 1..])[k] == s[j]
  {
    j := if k < i then k else k + 1;
  }

  /** Cutting position `i` out of a list keeps every other element. */
  lemma CutKeeps<T>(s: seq<T>, i: nat, j: nat)
    requires i < |s| && j < |s| && j != i
    ensures s[j] in s[..i] + s[i + 1..]
  {
    var r := s[..i] + s[i + 1..];
    if j < i {
      assert r[j] == s[j];
    } else {
      assert r[j - 1] == s[j];
    }
  }

  // ---------------------------------------------------------------------
  // The id invariant every store keeps.
  // ---------------------------------------------------------------------

  /** Ids are distinct and none exceeds `lastAddedId`. */
  ghost predicate IdsValid<X(!new)>(todos: seq<Todo<X>>, lastAddedId: int) {
    && IdsDistinct(todos)
    && forall i :: 0 <= i < |todos| ==> todos[i].id <= lastAddedId
  }

  /** Position by position, the same ids. */
  ghost predicate SameIds<X(!new)>(a: seq<Todo<X>>, b: seq<Todo<X>>) {
    |a| == |b| && forall i :: 0 <= i < |a| ==> a[i].id == b[i].id
  }

  lemma SameIdsKeepValid<X(!new)>(a: seq<Todo<X>>, b: seq<Todo<X>>, lastAddedId: int)
    requires SameIds(a, b)
    ensures IdsValid(a, lastAddedId) ==> IdsValid(b, lastAddedId)
  {
  }

  /** A change that keeps the id keeps the id invariant. */
  lemma {:induction false} UpdateTodoKeepsIds<X(!new)>(todos: seq<Todo<X>>, id: u32, change: Todo<X> -> Todo<X>)
    requires forall t :: change(t).id == t.id
    ensures SameIds(todos, UpdateTodo(todos, id, change))
    ensures SameIds(todos, UpdateAll(todos, change))
  {
  }

  /** Appending a todo whose id is one past the counter keeps the invariant
      for the incremented counter. */
  lemma AppendFreshKeepsValid<X(!new)>(todos: seq<Todo<X>>, t: Todo<X>, lastAddedId: int)
    requires IdsValid(todos, lastAddedId)
    requires t.id == lastAddedId + 1
    ensures IdsValid(todos + [t], lastAddedId + 1)
  {
  }

  lemma RemoveTodoKeepsValid<X(!new)>(todos: seq<Todo<X>>, id: u32, lastAddedId: int)
    requires IdsValid(todos, lastAddedId)
    ensures IdsValid(RemoveTodo(todos, id), lastAddedId)
  {
    match IndexOf(todos, id)
    case None =>
    case Some(i) => RemoveAtKeepsValid(todos, i, lastAddedId);
  }

  lemma RemoveAtKeepsValid<X(!new)>(todos: seq<Todo<X>>, i: nat, lastAddedId: int)
    requires i < |todos|
    requires IdsValid(todos, lastAddedId)
    ensures IdsValid(todos[..i] + todos[i + 1..], lastAddedId)
  {
    var r := todos[..i] + todos[i + 1..];
    assert forall a :: 0 <= a < i ==> r[a] == todos[a];
    assert forall a :: i <= a < |r| ==> r[a] == todos[a + 1];
  }

  lemma SelectKeepsValid<X(!new)>(todos: seq<Todo<X>>, f: Filter, lastAddedId: int)
    requires IdsValid(todos, lastAddedId)
    ensures IdsValid(Select(todos, f), lastAddedId)
  {
    SelectKeepsIdsDistinct(todos, f);
    var r := Select(todos, f);
    forall a | 0 <= a < |r|
      ensures r[a].id <= lastAddedId
    {
      assert r[a] in todos;
    }
  }
  // ---------------------------------------------------------------------
  // Removing several ids one `remove_todo` call at a time.
  // ---------------------------------------------------------------------

  /** The todos whose id is not in `ids`, in order. */
  function WithoutIds<X(!new)>(todos: seq<Todo<X>>, ids: set<u32>): (r: seq<Todo<X>>)
    ensures forall t :: t in r <==> t in todos && t.id !in ids
  {
    if todos == [] then []
    else
      assert todos == [todos[0]] + todos[1..];
      (if todos[0].id in ids then [] else [todos[0]]) + WithoutIds(todos[1..], ids)
  }

  lemma {:induction false} WithoutAbsentIds<X(!new)>(todos: seq<Todo<X>>, ids: set<u32>)
    requires forall i :: 0 <= i < |todos| ==> todos[i].id !in ids
    ensures WithoutIds(todos, ids) == todos
    decreases |todos|
  {
    if todos != [] {
      WithoutAbsentIds(todos[1..], ids);
      assert todos == [todos[0]] + todos[1..];
    }
  }

  lemma {:induction false} DistinctTail<X(!new)>(todos: seq<Todo<X>>)
    requires todos != [] && IdsDistinct(todos)
    ensures IdsDistinct(todos[1..])
    ensures forall i :: 0 <= i < |todos[1..]| ==> todos[1..][i].id != todos[0].id
  {
    forall i, j | 0 <= i < j < |todos[1..]|
      ensures todos[1..][i].id != todos[1..][j].id
    {
      assert todos[1..][i] == todos[i + 1] && todos[1..][j] == todos[j + 1];
    }
    forall i | 0 <= i < |todos[1..]|
      ensures todos[1..][i].id != todos[0].id
    {
      assert todos[1..][i] == todos[i + 1];
    }
  }

  /** With distinct ids, `remove_todo` is dropping that one id. */
  lemma {:induction false} RemoveTodoIsWithout<X(!new)>(todos: seq<Todo<X>>, id: u32)
    requires IdsDistinct(todos)
    ensures RemoveTodo(todos, id) == WithoutIds(todos, {id})
    decreases |todos|
  {
    if todos != [] {
      DistinctTail(todos);
      var tail := todos[1..];
      if todos[0].id == id {
        WithoutAbsentIds(tail, {id});
        assert RemoveTodo(todos, id) == tail;
      } else {
        RemoveTodoIsWithout(tail, id);
        RemoveTodoSkipsHead(todos, id);
      }
    }
  }

  lemma RemoveTodoSkipsHead<X(!new)>(todos: seq<Todo<X>>, id: u32)
    requires todos != [] && todos[0].id != id
    ensures RemoveTodo(todos, id) == [todos[0]] + RemoveTodo(todos[1..], id)
  {
    var tail := todos[1..];
    match IndexOf(tail, id)
    case None =>
      assert IndexOf(todos, id) == None;
      assert RemoveTodo(todos, id) == todos && RemoveTodo(tail, id) == tail;
      assert todos == [todos[0]] + tail;
    case Some(k) =>
      assert IndexOf(todos, id) == Some(k + 1);
      assert RemoveTodo(todos, id) == todos[..k + 1] + todos[k + 2..];
      assert RemoveTodo(tail, id) == tail[..k] + tail[k + 1..];
      ConsCut(todos, k);
  }

  /** Cutting position `k + 1` out of a list is keeping its head and cutting
      position `k` out of its tail. */
  lemma ConsCut<T>(s: seq<T>, k: nat)
    requires k + 1 < |s|
    ensures s[..k + 1] + s[k + 2..] == [s[0]] + (s[1..][..k] + s[1..][k + 1..])
  {
    var tail := s[1..];
    assert s[..k + 1] == [s[0]] + tail[..k];
    assert s[k + 2..] == tail[k + 1..];
  }

  lemma {:induction false} WithoutIdsKeepsDistinct<X(!new)>(todos: seq<Todo<X>>, ids: set<u32>)
    requires IdsDistinct(todos)
    ensures IdsDistinct(WithoutIds(todos, ids))
    decreases |todos|
  {
    if todos != [] {
      DistinctTail(todos);
      WithoutIdsKeepsDistinct(todos[1..], ids);
      var rest := WithoutIds(todos[1..], ids);
      forall j | 0 <= j < |rest|
        ensures rest[j].id != todos[0].id
      {
        assert rest[j] in todos[1..];
      }
    }
  }

  lemma {:induction false} WithoutIdsTwice<X(!new)>(todos: seq<Todo<X>>, a: set<u32>, b: set<u32>)
    ensures WithoutIds(WithoutIds(todos, a), b) == WithoutIds(todos, a + b)
    decreases |todos|
  {
    if todos != [] {
      WithoutIdsTwice(todos[1..], a, b);
      var head := if todos[0].id in a then [] else [todos[0]];
      var w := WithoutIds(todos, a);
      assert w == head + WithoutIds(todos[1..], a);
      if head == [] {
        assert w == WithoutIds(todos[1..], a);
      } else {
        assert w[0] == todos[0];
        assert w[1..] == WithoutIds(todos[1..], a);
      }
    }
  }

  /** `remove_todo` for each id in turn. */
  function RemoveEach<X(!new)>(todos: seq<Todo<X>>, ids: seq<u32>): (r: seq<Todo<X>>)
    ensures |r| <= |todos| && |todos| - |ids| <= |r|
    ensures (forall i :: 0 <= i < |ids| ==> !HasId(todos, ids[i])) ==> r == todos
    decreases |ids|
  {
    if ids == [] then todos else RemoveEach(RemoveTodo(todos, ids[0]), ids[1..])
  }

  /** With distinct ids, removing ids one at a time drops exactly those ids
      and keeps the rest in order. */
  lemma {:induction false} RemoveEachIsWithout<X(!new)>(todos: seq<Todo<X>>, ids: seq<u32>)
    requires IdsDistinct(todos)
    ensures RemoveEach(todos, ids) == WithoutIds(todos, Elements(ids))
    decreases |ids|
  {
    if ids == [] {
      WithoutAbsentIds(todos, {});
    } else {
      var once := RemoveTodo(todos, ids[0]);
      RemoveTodoIsWithout(todos, ids[0]);
      WithoutIdsKeepsDistinct(todos, {ids[0]});
      RemoveEachIsWithout(once, ids[1..]);
      WithoutIdsTwice(todos, {ids[0]}, Elements(ids[1..]));
    }
  }

  /** The ids of a list, as a set. */
  function Elements(ids: seq<u32>): (r: set<u32>)
    ensures forall i :: i in r <==> i in ids
  {
    if ids == [] then {} else {ids[0]} + Elements(ids[1..])
  }
}

=== FILE: todo_protocol.dfy ===
/** The messages and replies of the todo stores. The four stores declare
    overlapping enums; this module holds their union, and each store accepts
    only the messages of its own enum (see `Accepts` in each store module). */
module TodoProtocol {
  import opened Ints
  import opened TodoList

  datatype Msg =
    | AddTodo(title: string)
    | RemoveTodo(id: u32)
    | RemoveCompleted
    | CompleteTodo(id: u32)
    | RestartTodo(id: u32)
    | ToggleTodo(id: u32)
    | CompleteAll
    | RestartAll
    | SetFilter(filter: Filter)
    | SetAutoExpireCompletedTodos(expire: bool)

  /** Request replies carry the `req_id` of the message they answer; the two
      application events `CompletedTodoExpired` and `Tick` carry none. */
  datatype Reply =
    | AddedTodo(reqId: u64, data: string)
    | RemovedTodo(reqId: u64, data: string)
    | RemovedCompleted(reqId: u64)
    | CompletedTodo(reqId: u64, data: string)
    | RestartedTodo(reqId: u64, data: string)
    | ToggledTodo(reqId: u64, data: string)
    | CompletedAll(reqId: u64)
    | RestartedAll(reqId: u64)
    | SetFilter(reqId: u64)
    | SetAutoExpireCompletedTodos(reqId: u64)
    | CompletedTodoExpired
    | Tick(data: string)

  /** One `update(req_id, msg)` call: the store afterwards and the replies it
      posted, in order. */
  datatype Step<S> = Step(store: S, replies: seq<Reply>)

  /** `reply` answers the request `reqId` (it is not an application event). */
  predicate AnswersRequest(reply: Reply, reqId: u64) {
    !reply.CompletedTodoExpired? && !reply.Tick? && reply.reqId == reqId
  }
}

=== FILE: wrappers.dfy ===
/** Failure-carrying datatypes shared by the whole model. */
module Wrappers {

  /** Rust's `Option<T>`. */
  datatype Option<+T> = None | Some(value: T)

  /** An `anyhow::Result<T>` (or any `Result<T, E>` whose error is only ever
      rendered as text): the error is kept as its message. */
  datatype Result<+T> = Ok(value: T) | Err(error: string)

  /** How a Rust call ends: it returns (an `Ok` or an `Err`), or it panics
      (`unwrap`, `expect`, an out-of-bounds index, arithmetic overflow). A panic
      inside a spawned thread ends that thread and nothing else. */
  datatype Outcome<+T> = Returned(result: Result<T>) | Panicked(message: string)
  {
    /** True when the call returned `Ok`. */
    predicate IsOk() {
      Returned? && result.Ok?
    }
  }
}

/** The fixed-width integers of the source, as subset types of `int`. */
module Ints {
  const U8_LIMIT: int := 0x100
  const U32_LIMIT: int := 0x1_0000_0000
  const U64_LIMIT: int := 0x1_0000_0000_0000_0000

  type u8 = x: int | 0 <= x < U8_LIMIT
  type u32 = x: int | 0 <= x < U32_LIMIT
  type u64 = x: int | 0 <= x < U64_LIMIT

  const I32_MIN: int := -0x8000_0000
  const I32_LIMIT: int := 0x8000_0000
  const I64_MIN: int := -0x8000_0000_0000_0000
  const I64_LIMIT: int := 0x8000_0000_0000_0000

  type i32 = x: int | I32_MIN <= x < I32_LIMIT
  type i64 = x: int | I64_MIN <= x < I64_LIMIT
}
